=== FILE: README.md ===
# compex compiler plugins — a Dafny model of the type dumpers

compex extracts type information from C and C++ sources with a compiler
plugin and writes it as a YAML document. There are two plugins.

- **GCC plugin.** Its `PLUGIN_FINISH_TYPE` callback `_finish_type` runs on
  every finished `RECORD_TYPE` that carries the plugin's `compex_tag`
  attribute. It prints an anchored `!compex/struct` block for the type,
  which includes:
  - its tags (`_dump_tags`);
  - its bases, each with a reference to the base's anchor when one is
    already defined (`_mangle_typename_def` / `_mangle_typename_ref` over
    the set `_mangled_names`);
  - its fields, with anonymous fields numbered by a global counter;
  - its methods, with their flags.
- **Clang plugin.** Its `Consumer` walks every top-level named declaration.
  It prints records (fields, bases, constructors and methods, attributes)
  and functions (qualifier keys, parameters, attributes). An RAII guard
  nests the indentation.

The model keeps what is printed, and separately what is logged to stderr.

- Output is a sequence of `Line(depth, text)`. `Render` turns a line into
  2·depth spaces followed by its text, which is `_indent` / `_Indent`.
- The stderr diagnostics are a list kept apart from the document.
- Every compiler query is an input field: the size, the offset, whether
  the type is complete, and so on.
- GCC's global state is a `GccState`:
  - the defined anchor names;
  - the anonymous-field counter `_counter`;
  - the unknown-type counter `unk_i`.

  Both counters are unsigned 32-bit, and wrap-around is written out with
  `Next32`.
- Printing follows the C formats:
  - `%u` of a 32-bit value is `UnsignedText`, so the sentinel -1 prints as
    `4294967295`.
  - `%d` of an `int` is `SignedText`.
  - A 64-bit value stored into an `int` goes through `ToInt32`.
- The Clang handlers are methods over the consumer state `Consumer(indent)`.
  Each one returns the state and its lines. Each line-writing loop is
  stated against a text function written independently of it (`AttrsText`,
  `ParamText`, `FieldText`, `FunctionText`, `RecordText`, `NamedText`,
  `GroupText` and the rest). `AtDepth(lines, d)`, the lines a handler writes
  at depth `d`, gives the outline lemmas. The module `ClangReader` parses
  those texts back and proves that every declaration read back is the one
  that was written.
- The GCC tag dump comes in two readings, selected by a `TagReading`
  parameter:
  - `AsWritten` is `_dump_tags` as the source has it;
  - `Intended` is the corrected dump (see "## Findings").

  Every emitter contract holds for both readings. Each one states the tag
  lines as exactly what `DumpTags` writes for the chosen reading.

Modules, one per file:

| module | what it holds |
|---|---|
| `Common` | `Option`, `Line`, rendering, depth projections |
| `Decimal` | decimal printing and 32-bit arithmetic |
| `GccTree` | GCC's trees: types, fields, methods, attributes |
| `GccNames` | the name mangler and the registry of defined names |
| `GccTags` | `_dump_tags`, as written and corrected |
| `GccEmitter` | `_finish_type` and its sections |
| `ClangTree` | Clang's AST: declarations |
| `ClangEmitter` | the consumer, its handlers and the texts they write |
| `ClangReader` | reading the Clang document back |

## Model

| member | source | states |
|---|---|---|
| Common.Spaces | src/compex_gcc.cpp:51-54 | A run of n blanks. `_indent(n)` prints two blanks n times, which is `Spaces(2*n)`: the blank prefix `Render` puts before a line at depth n. |
| Common.Render | src/compex_clang.cpp:54-58 | A line takes 2·depth columns of blanks before its text, and the text follows unchanged. |
| Common.RenderInjective | src/compex_clang.cpp:54-58 | Two lines whose texts do not start with a blank render alike exactly when they are the same line, so the indentation fixes the depth. |
| Common.RenderAllConcat | src/compex_gcc.cpp:46 | Output written by successive calls concatenates: the document of `a + b` is the document of `a` followed by that of `b`. |
| Decimal.DecimalRoundTrip | src/compex_gcc.cpp:136 | Reading back the decimal text of a number gives the number. |
| Decimal.NatToDecimalInjective | src/compex_gcc.cpp:136 | Distinct numbers print as distinct decimal texts, and equal numbers as equal texts. |
| Decimal.IntToDecimalInjective | src/compex_gcc.cpp:107 | The same holds for signed numbers with a leading `-`. |
| Decimal.Next32 | src/compex_gcc.cpp:127 | Incrementing an `unsigned` stays below 2^32: it adds one, except that 2^32-1 wraps to 0. |
| Decimal.ToInt32 | src/compex_gcc.cpp:105 | Storing a 64-bit value into an `int` gives a value in the `int` range that is congruent to the original modulo 2^32. Values already in range are unchanged. |
| Decimal.UnsignedText | src/compex_gcc.cpp:194 | `%u` prints only digits, and prints a value in the unsigned range as its own decimal text. |
| Decimal.UnsignedWraps | src/compex_gcc.cpp:194 | Under `%u`, values 2^32 apart print alike. |
| Decimal.UnsignedMinusOne | src/compex_gcc.cpp:193-194 | The sentinel -1 prints as `4294967295` through `%u`. |
| Decimal.SignedText | src/compex_gcc.cpp:241 | `%d` of a value in the `int` range is its signed decimal text. |
| Decimal.SignedMinusOne | src/compex_gcc.cpp:241 | The sentinel -1 prints as `-1` through `%d`. |
| GccNames.Mangle | src/compex_gcc.cpp:124-140 | A record keeps the state and is named `s_<name>` after its declaration. Any other type advances `unk_i` by one, modulo 2^32, and is named `unknown_<k>` after the advanced value k. The registry and the field counter are untouched. |
| GccNames.MangleDef | src/compex_gcc.cpp:143-147 | The returned name is added to the registry and nothing else is. A record's name is `s_<name>`. |
| GccNames.MangleRef | src/compex_gcc.cpp:149-155 | The result is a registered name or `NULL`. For a record it is non-`NULL` exactly when `s_<name>` was defined, and then it is that name. |
| GccNames.UnknownNamesDistinct | src/compex_gcc.cpp:136 | `unknown_<a>` and `unknown_<b>` coincide exactly when a = b. |
| GccNames.RecordNameNotUnknown | src/compex_gcc.cpp:129-138 | A record's `s_…` name never equals a generated `unknown_…` name. |
| GccNames.MangleAllNumbering | src/compex_gcc.cpp:127-136 | Without wrap-around, the i-th type of a run, when it is not a record, is named after the count of non-record types up to and including it. |
| GccNames.UnknownNamesUnique | src/compex_gcc.cpp:136 | Without wrap-around, no two non-record types of a run get the same name. |
| GccNames.RefAfterDef | src/compex_gcc.cpp:143-155 | After a record is defined, a reference to it returns the defined name. |
| GccNames.RefBeforeAnyDef | src/compex_gcc.cpp:142 | With an empty registry every reference is `NULL`. |
| GccNames.DefIdempotent | src/compex_gcc.cpp:142-147 | Defining a record twice leaves state and name as after the first definition. |
| GccNames.RefOnOtherIsNull | src/compex_gcc.cpp:149-155 | In a valid state, before `unk_i` wraps, a reference to a non-record type is always `NULL`, because its generated name is fresh. |
| GccNames.DefKeepsValid | src/compex_gcc.cpp:142-147 | Defining keeps the invariant that every registered `unknown_<k>` has k ≤ `unk_i`. |
| GccNames.RefKeepsValid | src/compex_gcc.cpp:149-155 | Referencing keeps the same invariant. |
| GccTags.ArgText | src/compex_gcc.cpp:98-115 | An argument is printed exactly when it is a string, or an integer that fits a signed 64-bit value. A string prints as itself. |
| GccTags.TagInstances | src/compex_gcc.cpp:82 | There are at most as many instances as attributes. Each instance is the argument list of an attached attribute with the requested name, and every such attribute contributes its argument list. The result is empty exactly when no such attribute is attached. |
| GccTags.TagInstancesConcat | src/compex_gcc.cpp:82 | The instances of two attribute lists written in turn are the instances of the first followed by those of the second. Together with TagInstancesOne this fixes order and multiplicity: one entry per matching attribute, in attachment order. |
| GccTags.TagInstancesOne | src/compex_gcc.cpp:82 | A single attribute yields its argument list when its name matches, and nothing otherwise. |
| GccTags.DumpTags | src/compex_gcc.cpp:79-118 | For either reading, the lines are the independent `TagBlock` layout of that reading's argument lists: the source's chain from the first `tag` with `int` truncation, or the `compex_tag` instances at full width. The log is one note per dropped argument. The lines lie between depth ind and ind+2, with only `tags:` at ind and only `-` at ind+1. |
| GccTags.DumpTagListLayout | src/compex_gcc.cpp:79-118 | The loop output equals an independent layout: one `tags:` header if any instance has arguments, then for each non-empty instance a `-` followed by its printed arguments. The log is one note per dropped argument. |
| GccTags.TagHeaderAtMostOnce | src/compex_gcc.cpp:80-92 | `tags:` is written once if some instance has arguments, and never otherwise. Nothing at all is written exactly when no instance has arguments. |
| GccTags.OneEntryPerInstance | src/compex_gcc.cpp:84-97 | The number of `-` entries equals the number of instances with at least one argument. |
| GccTags.ArgumentsInOrder | src/compex_gcc.cpp:85-115 | The depth-(ind+2) lines are exactly the printed arguments of all instances, in order. Every other argument is logged. |
| GccTags.DumpTagsShowsOwnAttribute | src/compex_gcc.cpp:82 | If an attached `compex_tag` has arguments, the corrected dump writes the `tags:` header. |
| GccTags.InstancesKeepArguments | src/compex_gcc.cpp:82 | If an attribute of the name has arguments, some instance found has arguments. |
| GccTags.ChainWalkDumpsForeignAttribute | src/compex_gcc.cpp:82 | The source's chain walk prints the argument `8` of a following `aligned` attribute that is not a tag. |
| GccTags.TagLookupMissesOwnAttribute | src/compex_gcc.cpp:82 | A type carrying only its `compex_tag` attribute gets no tags in the source's dump. |
| GccTags.OwnTagDumped | src/compex_gcc.cpp:82 | The corrected dump of that type is `tags:`, `-`, `- a`. |
| GccTags.IntegerArgumentTruncated | src/compex_gcc.cpp:105-107 | Through the source's `int iv`, 2^32+1 prints as `1`, the same as 1. |
| GccTags.FullWidthIntegersDistinct | src/compex_gcc.cpp:105-107 | At full width, distinct integer arguments print differently. |
| GccEmitter.EmitBase | src/compex_gcc.cpp:202-219 | A base entry is `base_<i>$` followed by depth-2 lines. The access line is `public` without an access vector and the base's access otherwise, and a `name: <base>` line follows. `virtual: true` appears exactly for virtual bases. Every `ref:` names a defined anchor. For a record base, a `ref:` appears exactly when the base's own `s_<name>` is defined, it is `ref: *s_<name>`, and no other `ref:` appears. |
| GccEmitter.AccessRoundTrip | src/compex_gcc.cpp:56-61 | Every access text reads back as its access. |
| GccEmitter.AccessTextsDistinct | src/compex_gcc.cpp:56-61 | `public`, `protected` and `private` are printed differently: two access texts coincide exactly when the accesses do. |
| GccEmitter.EmitBases | src/compex_gcc.cpp:199-219 | The depth-1 outline is `base_i$ … base_{i+n-1}$`, and everything else lies deeper. Every reference is to a defined name. The registry and counter are kept, and nothing is logged. |
| GccEmitter.BasesEntryWise | src/compex_gcc.cpp:199-219 | The base section is the join of the bases' own entries, each written in the registry state that the earlier bases leave. |
| GccEmitter.BaseEntriesInOrder | src/compex_gcc.cpp:199-219 | The k-th base in binfo order owns the k-th entry. That entry is headed `base_<i+k>$`, and its access line is base k's access, or `public` without an access vector. `virtual: true` appears in it exactly when base k is virtual, and it names base k. |
| GccEmitter.EmitBasesNamed | src/compex_gcc.cpp:199-219 | The base section holds a `name:` line for every base. It holds a `ref: *s_<name>` line for every record base whose own anchor is defined. |
| GccEmitter.AnonNamesDistinct | src/compex_gcc.cpp:228 | Anonymous field names `anon_<n>$` coincide exactly when their numbers do. |
| GccEmitter.FieldMeasures | src/compex_gcc.cpp:231-245 | The five measures are depth-2 lines whose texts start with the keys `size: `, `align: `, `offset: `, `boffset: ` and `oalign: `, in that order. |
| GccEmitter.FieldFlags | src/compex_gcc.cpp:246-251 | The predicate lines of a field: `artificial: true` exactly for an artificial field, `unknown: true` exactly for an anonymous one, `bitfield: true` exactly for a bit-field, one line per held predicate. |
| GccEmitter.FieldFlagsInOrder | src/compex_gcc.cpp:246-251 | No other line is among the predicate lines, and they are written in the order asked (artificial, unknown, bitfield), so none twice. |
| GccEmitter.FieldEntryLinesMeaning | src/compex_gcc.cpp:221-252 | A field entry in slot s: the header of s; `name:` second for a named field; the five measures next; then exactly the predicate lines; then the tags. Its length is the sum of those parts, it holds no references, and `artificial: true`, `unknown: true` and `bitfield: true` are in it exactly when the field is artificial, anonymous, a bit-field. |
| GccEmitter.MeasuresPrinted | src/compex_gcc.cpp:231-245 | The measure lines carry the field's own values. `size:` prints the size through the 32-bit `int`, unchanged in that range. `align:` and `oalign:` print the alignments. `offset:` and `boffset:` print the offsets modulo 2^32, unchanged below 2^32. |
| GccEmitter.MeasuresReadBack | src/compex_gcc.cpp:231-245 | The five measure lines read back as the size through `int` (or -1), the alignment, the offset and bit offset modulo 2^32 (or 4294967295), and the offset alignment. |
| GccEmitter.UnresolvedMeasures | src/compex_gcc.cpp:231-245 | An unresolved size prints `size: -1`, and an unresolved offset or bit offset prints `4294967295`. |
| GccEmitter.EmitField | src/compex_gcc.cpp:221-253 | A field entry is one depth-1 line over deeper lines and holds no references. Only an anonymous field advances the counter. The five measure lines, whose values MeasuresPrinted states, come right after the header and, for a named field, its `name:` line. Exactly the predicate lines `FieldFlags` follow, and nothing else: the entry's length is the header, the name line, five measures, one line per held predicate and the tags. `artificial: true` is in the entry exactly when the field is artificial. It ends with exactly the lines `_dump_tags(TREE_TYPE(arg), 2)` writes under the chosen reading, and its log is that dump's log. |
| GccEmitter.FieldEntryMeaning | src/compex_gcc.cpp:224-251 | An anonymous field is headed by the freshly numbered name, is marked `unknown: true` and has no `name:` line. A named field is headed by its name, has `name:` second and is not marked unknown. `artificial: true` appears exactly for artificial fields and `bitfield: true` exactly for bit-fields. |
| GccEmitter.UnresolvedFieldMeasures | src/compex_gcc.cpp:231-245 | A field entry contains the sentinel lines for each unresolved measure. |
| GccEmitter.EmitFields | src/compex_gcc.cpp:221-260 | The field section keeps the registry and `unk_i`, writes at depth ≥ 1 and holds no references. |
| GccEmitter.OneEntryPerField | src/compex_gcc.cpp:221-260 | There is exactly one depth-1 entry per `FIELD_DECL`. |
| GccEmitter.AnonymousFieldsNumbered | src/compex_gcc.cpp:225-230 | Without wrap-around, the counter advances by the number of anonymous fields. |
| GccEmitter.FieldSlotsNumbered | src/compex_gcc.cpp:224-230 | The k-th field's slot is its own name, or `anon_<c+n>$` when it is anonymous, where n counts the anonymous fields up to and including it. |
| GccEmitter.FieldEntriesInOrder | src/compex_gcc.cpp:221-253 | Without wrap-around, the field section splits into one entry per `FIELD_DECL`, in chain order. The k-th entry is exactly the k-th field's entry in the k-th slot (`FieldEntryLines`, whose layout FieldEntryLinesMeaning gives): header, the name for a named field, the five measures, the predicate lines, then the tags of that field's type. |
| GccEmitter.FieldHeadersInOrder | src/compex_gcc.cpp:221-236 | Without wrap-around, the depth-1 lines are one `<slot>: !compex/field` header per `FIELD_DECL`, the k-th for the k-th field's slot. |
| GccEmitter.NonFieldMembersSkipped | src/compex_gcc.cpp:254-258 | Type declarations and unexpected members change neither the output nor the state: the section equals that of the fields alone. |
| GccEmitter.NonFieldMembersNoted | src/compex_gcc.cpp:256-258 | The log holds one extra note per member that is neither a field nor a type declaration. |
| GccEmitter.FlagRoundTrip | src/compex_gcc.cpp:275-302 | Every flag line reads back as its flag. |
| GccEmitter.FlagLinesDistinct | src/compex_gcc.cpp:275-302 | Different flags print different lines. |
| GccEmitter.FlagWritten | src/compex_gcc.cpp:275-302 | A flag's line is written exactly when the method has that flag. |
| GccEmitter.FlagLinesCount | src/compex_gcc.cpp:275-302 | Over the full test order, the flag lines are exactly the held predicates: as many lines as flags, each line reads back as a held flag, each held flag's line is there, and the flags' positions in the test order strictly increase, so none is written twice. |
| GccEmitter.FlagLineIsNotOther | src/compex_gcc.cpp:271-302 | No flag line can be mistaken for the `name:`, `asm:`, `tags:` or `ref:` lines. |
| GccEmitter.EmitMethod | src/compex_gcc.cpp:269-303 | A method entry is `method_<i>$`, then `name:` and `asm:`. Between `asm:` and the tags lie exactly the flag lines in `_finish_type`'s test order (`FlagLines`), one per held predicate and nothing else: the entry has 3 + (number of flags) + (number of tag lines) lines, each held predicate's line appears once, and the predicates' ranks strictly increase. Every flag line is present exactly when the method has the flag. It holds no references. It ends with exactly the lines `_dump_tags(TREE_TYPE(fn), 2)` writes under the chosen reading, and its log is that dump's log. |
| GccEmitter.EmitMethods | src/compex_gcc.cpp:262-304 | Function entries are numbered consecutively from 1. At least one note is logged per skipped entry. |
| GccEmitter.MethodSlotsNumbered | src/compex_gcc.cpp:269-272 | The k-th slot line from i is `method_<i+k>$`. |
| GccEmitter.MethodEntriesInOrder | src/compex_gcc.cpp:262-303 | The method section splits into one entry per `FUNCTION_DECL`, in order. The k-th entry lies under the k-th slot line, `method_<i+1+k>$`, and gives function k's `name:` and `asm:` next. After them come exactly function k's flag lines in test order (`FlagLines`), and nothing else before the tags of that function's type; the entry's length is 3 + its flags + its tags. It has each flag line exactly when function k has that flag. |
| GccEmitter.SkippedMethodConsumesNoNumber | src/compex_gcc.cpp:264-269 | Removing a non-function entry from the method list leaves the output unchanged. |
| GccEmitter.RecordHeader | src/compex_gcc.cpp:189-195 | The header is the anchor line followed by four `$` lines at depth 1: `$srcFile: <file>`, `$srcLine: <line>`, `$sizeof: <size>` and `$alignof: <align>`. The size is cut to 32 bits as `%u` prints it, so it is unchanged below 2^32, and an unresolved size prints `$sizeof: 4294967295`. |
| GccEmitter.HeaderReadBack | src/compex_gcc.cpp:189-195 | The four `$` lines read back as the declaration's source file and line, the size modulo 2^32 (4294967295 when unresolved) and the alignment. |
| GccEmitter.EmitRecord | src/compex_gcc.cpp:180-304 | The block is the header with the values RecordHeader states, then the tags at depth 1, the bases, the fields and the methods, in that order. Each part is the section its own function writes, threaded through the registry that `_mangle_typename_def` extends. The log joins the logs of the tags, fields and methods. The anchor `<name>: &s_<name> !compex/struct` comes first and is the only line at depth 0. Exactly the record's name is added to the registry, and every `ref:` names a registered anchor. |
| GccEmitter.FinishType | src/compex_gcc.cpp:163-305 | A type that is not a complete record carrying `compex_tag` writes nothing and changes nothing. An incomplete tagged record logs one error, and nothing else does. A selected type writes the record block composed as in EmitRecord, with the anchor alone at depth 0. It registers exactly its own name, and all its references are registered. |
| GccEmitter.FinishAll | src/compex_gcc.cpp:142-155 | Over a run of callbacks, every reference names an anchor defined before the run or by a selected type at or before that point. The registry is exactly those anchors. |
| ClangEmitter.Leave | src/compex_clang.cpp:39-41 | Leaving the guard undoes entering it. |
| ClangEmitter.HandleTopLevelDecl | src/compex_clang.cpp:60-69 | Always returns true and restores the indent. The lines are exactly `GroupText`: each declaration's text in turn, with unnamed declarations contributing nothing. |
| ClangEmitter.GroupTextShape | src/compex_clang.cpp:60-69 | A group's text lies at its depth or deeper, and its depth-k lines are the headers of its named records and functions, in order. It is empty exactly when there are no such headers. |
| ClangEmitter.GroupHeadersConcat | src/compex_clang.cpp:61-66 | The outline of two groups written in turn is the concatenation of their outlines. |
| ClangEmitter.UnnamedSkipped | src/compex_clang.cpp:61-64 | A declaration that is not a `NamedDecl` contributes nothing. |
| ClangEmitter.HandleNamedDecl | src/compex_clang.cpp:77-102 | The lines are exactly `NamedText`. That is the `!compex/struct` header with the record body when defined, the `!compex/function` header with the function entry, or nothing for other kinds. |
| ClangEmitter.NamedTextShape | src/compex_clang.cpp:77-102 | At its own depth a declaration shows only its header. A record writes only the header exactly when it has no definition; otherwise its body shows the record outline one level down. A function shows the function outline one level down, and other kinds write nothing. |
| ClangEmitter.HandleRecordDecl | src/compex_clang.cpp:104-132 | The lines are exactly `RecordText` one level deeper: the location, each field slot followed by that field's entry, the C++ part, then the attributes. |
| ClangEmitter.RecordTextShape | src/compex_clang.cpp:104-132 | A record body has at least three lines and lies below its header. One level down it shows `$srcFile`, `$srcLine`, one slot per field, the base and method slots of a C++ record, then `attrs:`. |
| ClangEmitter.HandleCxx | src/compex_clang.cpp:113-128 | The C++ part is exactly the base entries followed by the constructor entries and then the method entries, on one counter. A plain C record has none. |
| ClangEmitter.CxxTextShape | src/compex_clang.cpp:113-128 | At its own depth the C++ part shows the base slots from `base_0$`, then method slots from `method_0$`, one per constructor and method. |
| ClangEmitter.HandleFields | src/compex_clang.cpp:108-111 | The lines are exactly `FieldsText`: for each field in order, its `<name>: !compex/field` slot followed by that field's own entry. |
| ClangEmitter.FieldsTextShape | src/compex_clang.cpp:108-111 | At their own depth the field entries show one `<name>: !compex/field` slot per field, in order. |
| ClangEmitter.HandleBases | src/compex_clang.cpp:113-118 | The lines are exactly `BasesText`: for each base i, the slot `base_<i>$` followed by that base's `type:` and `virtual:` lines. |
| ClangEmitter.BasesTextShape | src/compex_clang.cpp:113-118 | At their own depth the base entries show the slots `base_0$` to `base_{n-1}$`. |
| ClangEmitter.AppendMethods | src/compex_clang.cpp:120-128 | Appends exactly `MethodsText` from i: for each function j, the slot `method_<i+j>$` followed by that function's own entry. |
| ClangEmitter.HandleMethods | src/compex_clang.cpp:119-128 | The lines are the constructor entries numbered from 0, then the method entries continuing from the number of constructors. |
| ClangEmitter.CtorsThenMethods | src/compex_clang.cpp:119-128 | At their own depth constructors and methods together show the slots `method_0$` to `method_{n-1}$` for n functions in all. |
| ClangEmitter.SlotsDistinct | src/compex_clang.cpp:116-126 | Base slots and method slots are each distinct by number, and never collide with each other. |
| ClangEmitter.HandleFieldDecl | src/compex_clang.cpp:134-145 | The lines are exactly `FieldText` one level deeper: `name`, `type`, `size`, `align`, `offset`, then the field's attributes as `_HandleAttrs` writes them. |
| ClangEmitter.FieldTextShape | src/compex_clang.cpp:134-145 | One level deeper a field shows `name`, `type`, `size`, `align`, `offset` and `attrs:`, and one `-` per attribute a level further down. |
| ClangEmitter.HandleFunctionDecl | src/compex_clang.cpp:147-202 | The lines are exactly `FunctionText` one level deeper. That is `name:`, the key lines, `args:`, each parameter as a `- !compex/param` item with its own entry, then the attributes. |
| ClangEmitter.FunctionTextShape | src/compex_clang.cpp:147-202 | A function entry starts with `name:`. At its own depth it shows the function outline, and one level down one `- !compex/param` per parameter and then one `-` per attribute. |
| ClangEmitter.FunctionKeysMeaning | src/compex_clang.cpp:155-190 | A key is listed exactly when the function answers its query. A constructor detail is always listed after `constructor: true`. |
| ClangEmitter.FunctionLineMeaning | src/compex_clang.cpp:155-190 | A key's line is in the function outline exactly when the function has that property. |
| ClangEmitter.KeyRoundTrip | src/compex_clang.cpp:155-190 | Every key line reads back as its key. |
| ClangEmitter.KeyTextsDistinct | src/compex_clang.cpp:155-190 | Different keys print different lines. |
| ClangEmitter.HandleParams | src/compex_clang.cpp:192-199 | The lines are exactly `ParamsText`: for each parameter in order, a `- !compex/param` item followed by that parameter's `name:`, `type:` and attributes. |
| ClangEmitter.ParamsTextShape | src/compex_clang.cpp:192-199 | At their own depth the parameters show one `- !compex/param` per parameter. |
| ClangEmitter.HandleParamDecl | src/compex_clang.cpp:204-211 | The lines are exactly `ParamText` one level deeper: `name`, `type`, then the parameter's attributes as `_HandleAttrs` writes them. |
| ClangEmitter.ParamTextShape | src/compex_clang.cpp:204-211 | One level deeper a parameter shows `name`, `type` and `attrs:`, and one `-` per attribute a level further down. |
| ClangEmitter.HandleBaseSpecifier | src/compex_clang.cpp:213-219 | One level deeper: `type: <base>` first, then `virtual: true` exactly for a virtual base. That makes two lines for a virtual base and one otherwise. |
| ClangEmitter.HandleAttrs | src/compex_clang.cpp:221-234 | The lines are exactly `AttrsText`: `attrs:` at the current depth, then for each attribute in order a `-` one level deeper with that attribute's `name:` and, for an annotation, its `value:` under it. |
| ClangEmitter.AttrsTextShape | src/compex_clang.cpp:221-234 | An attribute list shows `attrs:` at its depth, one `-` per attribute a level down, and all attribute details two levels down. |
| ClangEmitter.ValueOnlyForAnnotations | src/compex_clang.cpp:226-231 | A `value:` line for v appears exactly when some attribute is an annotation with value v. |
| ClangEmitter.AttrDetailsSize | src/compex_clang.cpp:223-233 | There is one detail line per attribute, plus one per annotation. |
| ClangEmitter.CountAnnotated | src/compex_clang.cpp:226-231 | The number of annotations is at most the number of attributes, and it is zero exactly when no attribute is an annotation. |
| ClangReader.AttrsRoundTrip | src/compex_clang.cpp:221-234 | Reading back what `_HandleAttrs` writes gives the attribute list: each spelling and each annotation value, in order. |
| ClangReader.AttrEntriesRoundTrip | src/compex_clang.cpp:223-233 | The `-` entries alone read back as the attributes, one per entry. |
| ClangReader.ParamRoundTrip | src/compex_clang.cpp:204-211 | A parameter entry reads back as the parameter: its name, type and attributes. |
| ClangReader.ParamsRoundTrip | src/compex_clang.cpp:192-199 | The `- !compex/param` items read back as the parameter list, in order. |
| ClangReader.FieldRoundTrip | src/compex_clang.cpp:134-145 | A field entry reads back as the field: name, type, size, alignment, offset and attributes. |
| ClangReader.FieldChunkRoundTrip | src/compex_clang.cpp:109-110 | A field slot with its entry reads back as that field, and the slot names it. |
| ClangReader.FieldsRoundTrip | src/compex_clang.cpp:108-111 | The field loop's output splits into one entry per field, and these read back as the fields in order. |
| ClangReader.BaseRoundTrip | src/compex_clang.cpp:213-219 | A base entry reads back as the base: its type, and whether it is virtual. |
| ClangReader.BaseSlotRoundTrip | src/compex_clang.cpp:116 | `base_<i>$` reads back as i. |
| ClangReader.BasesRoundTrip | src/compex_clang.cpp:113-118 | The base loop's output reads back as the bases in order, each under the slot numbered by its position. |
| ClangReader.FunctionRoundTrip | src/compex_clang.cpp:147-202 | A function entry reads back as the function's name, the keys it prints, its parameters and its attributes. |
| ClangReader.MethodSlotRoundTrip | src/compex_clang.cpp:122 | `method_<i>$` reads back as i. |
| ClangReader.MethodChunkRoundTrip | src/compex_clang.cpp:122-123 | A method slot numbered from+i with a function entry under it reads back as that function. |
| ClangReader.MethodRunsJoin | src/compex_clang.cpp:119-128 | The constructor loop followed by the method loop, continuing the counter, writes the same text as one loop over constructors and then methods. |
| ClangReader.MethodsRoundTrip | src/compex_clang.cpp:119-128 | The two loops' output reads back as the constructors' views followed by the methods' views, numbered consecutively from 0. |
| ClangReader.RecordRoundTrip | src/compex_clang.cpp:104-132 | A record body reads back as the record's location, fields, bases, functions and attributes. |
| ClangReader.NamedRoundTrip | src/compex_clang.cpp:77-102 | A declaration's text reads back as its view: a struct with its name and, exactly when defined, its record, or a function. Other kinds have no view, and their empty text reads back as none. |
| ClangReader.GroupRoundTrip | src/compex_clang.cpp:60-69 | A group's text splits into one entry per named record or function, and these read back as the views of those declarations, in order. |

## Left out

- Plugin registration (`plugin_init`, `_register_attributes`, `_handle_tag_attr`, the Clang `PluginASTAction`) is left out. It is glue to the compiler with no logic of its own.
- Opening the output file is left out. `fopen` of the `-o` argument and the Clang plugin's unimplemented `-o` are I/O. The GCC document and the Clang `llvm::errs()` stream are both modelled as the returned lines.
- stderr (`LOGF`, `error`) is left out as a stream. It is modelled as a list of diagnostics, without the message texts.
- Every compiler query is taken as an input field rather than computed: `COMPLETE_TYPE_P`, `TYPE_SIZE`, `DECL_FIELD_OFFSET`, `getTypeInfo`, `getFieldOffset`, the source manager, and `methods()` with the methods it lists.
- `TYPE_MAIN_VARIANT` is left out. The input type is taken to be its own main variant.
- The 1024-byte buffer of `_mangle_typename`, with its `strncpy` truncation of long names, is left out. So is the 64-byte `fnamebuf` of anonymous field names. Names are unbounded strings.
- GccNames.MangleAllNumbering: stated only while `unk_i` does not wrap around. The wrap itself is modelled in `Next32`.
- GccNames.UnknownNamesUnique: the same no-wrap bound applies.
- GccNames.RefOnOtherIsNull: the same no-wrap bound applies.
- GccEmitter.AnonymousFieldsNumbered: stated while `_counter` does not wrap.
- GccEmitter.FieldEntriesInOrder: stated while `_counter` does not wrap, that is, while the counter plus the number of anonymous fields stays below 2^32.
- GccEmitter.FieldHeadersInOrder: the same no-wrap bound applies.
- GccEmitter.EmitBases: the `size_t` base index printed through `%u` is an unbounded natural. A record with 2^32 bases is out of scope.
- GccEmitter.EmitMethods: the method counter `int i` printed through `%u` is an unbounded natural, not wrapped. A record with 2^31 methods is out of scope.
- GccEmitter.RecordHeader: `$srcLine` and `$alignof` are printed from naturals. The model assumes they are below 2^32, where `%u` prints the plain value.
- GccEmitter.FieldMeasures: `align` and `oalign` are printed from naturals. The model assumes they are below 2^31, where `%d` and `%u` agree with the plain value.
- GccEmitter.MeasuresPrinted: the same assumption on `align` and `oalign` applies.
- GccEmitter.MeasuresReadBack: the same assumption on `align` and `oalign` applies.
- The `NULL` that `_access_to_str` returns for an unknown access value is left out. The access type has only the three real values.
- ClangEmitter.HandleBases: the unsigned counter `i` is not wrapped. A record with 2^32 bases or methods is out of scope.
- ClangEmitter.HandleMethods: the same unwrapped counter applies.
- ClangReader.FunctionRoundTrip: a function reads back as the keys it prints, not as its qualifier set and role. The document does not tell them apart: a free function and an ordinary member function with no qualifiers print the same keys.
- ClangReader.RecordRoundTrip: constructors and methods read back as one list of functions, and a plain C record reads back like a C++ record with no bases, constructors or methods. The document numbers all of them `method_<i>$` on one counter and writes nothing for an empty C++ part.
- ClangReader.GroupRoundTrip: the readers work on the line structure, not on the rendered characters. A name containing a newline, or a type spelling that starts with a blank, would make the rendered document itself ambiguous. This model does not treat that case.
- Top-level declarations of other kinds (`CXXMethod`, `Var`, …) fall under `OtherKind` and write nothing, as the switch's default does. The model does not enumerate Clang's declaration kinds.
- `include/compex.h` and the test sources are not part of this model.

Three behaviours of the source are modelled as written:

- anchors are not deduplicated;
- the Clang plugin has no tag filter and always writes `attrs:`;
- `$sizeof`, `offset` and `boffset` print an unresolved value as `4294967295`, while a field's `size` prints `-1`.

## Findings

| source | as written | input that shows it | evidently intended | confidence | as-written member | corrected member |
|---|---|---|---|---|---|---|
| src/compex_gcc.cpp:82 | Starts at the first attribute named `tag` and walks `TREE_CHAIN` to the end of the attribute list, dumping every later attribute whatever its name. | A type with attributes `tag("a")` then `aligned(8)`: the dump contains `- 8`. | Dump only the tag attributes' own argument lists. | not executed | GccTags.ChainWalkDumpsForeignAttribute | GccTags.DumpTagListLayout |
| src/compex_gcc.cpp:82 | Looks up `"tag"`, while the plugin registers and selects types by `compex_tag` (lines 172, 310-324). | A type whose only attribute is `compex_tag("a")`: it is selected, but no `tags:` block is written. | Dump the `compex_tag` instances. | not executed | GccTags.TagLookupMissesOwnAttribute | GccTags.DumpTagsShowsOwnAttribute |
| src/compex_gcc.cpp:104-107 | Stores the 64-bit `tree_to_shwi` value in `int iv`, so integer tag arguments are truncated to 32 bits. | The argument 4294967297 prints as `- 1`. | Print the full 64-bit value. | not executed | GccTags.IntegerArgumentTruncated | GccTags.FullWidthIntegersDistinct |

=== FILE: clang_emitter.dfy ===
/** The Clang plugin's `Consumer`: the handlers that turn a top-level
    declaration group into indented document lines. Each handler is a
    method over the consumer's state, as in the plugin, and writes exactly
    the reference text a function of this module defines for its input;
    the lemmas about those texts say how the document is laid out. */
module ClangEmitter {
  import opened Common
  import opened Decimal
  import opened ClangTree

  /** The consumer's state: the current indentation level `_indent`. */
  datatype Consumer = Consumer(indent: nat)

  const Fresh: Consumer := Consumer(0)

  /** What a handler leaves behind: the consumer and the lines it wrote. */
  datatype Out = Out(c: Consumer, lines: seq<Line>)

  /** The `indent` guard's constructor. */
  function Enter(c: Consumer): (r: Consumer)
    ensures r.indent == c.indent + 1
  {
    Consumer(c.indent + 1)
  }

  /** The `indent` guard's destructor: it undoes the constructor. */
  function Leave(c: Consumer): (r: Consumer)
    requires c.indent > 0
    ensures Enter(r) == c
  {
    Consumer(c.indent - 1)
  }

  /** `_Indent() << text`: a line at the current indentation. */
  function Indent(c: Consumer, text: string): Line {
    Line(c.indent, text)
  }

  /** Lines all at depth `d` are all kept at depth `d`, and none at any
      other depth. */
  lemma {:induction false} SameDepth(a: seq<Line>, d: nat, e: nat)
    requires AllAt(a, d)
    ensures AtDepth(a, d) == a
    ensures e != d ==> AtDepth(a, e) == []
    ensures AtLeast(a, d) && AtMost(a, d)
  {
    if |a| > 0 {
      SameDepth(a[1..], d, e);
      assert a == [a[0]] + a[1..];
    }
  }

  /** A header line followed by its deeper body. */
  lemma Block(head: Line, body: seq<Line>, d: nat)
    requires head.depth == d && AtLeast(body, d + 1)
    ensures AtDepth([head] + body, d) == [head]
    ensures AtDepth([head] + body, d + 1) == AtDepth(body, d + 1)
    ensures AtLeast([head] + body, d)
  {
    AtDepthConcat([head], body, d);
    AtDepthConcat([head], body, d + 1);
    AtLeastNone(body, d);
    AtLeastConcat([head], body, d);
  }

  /** One more entry `head` with its deeper body appended to `lines`. */
  lemma AppendBlock(lines: seq<Line>, head: Line, body: seq<Line>, d: nat)
    requires head.depth == d && AtLeast(body, d + 1)
    ensures AtLeast(lines, d) ==> AtLeast(lines + ([head] + body), d)
    ensures AtDepth(lines + ([head] + body), d) == AtDepth(lines, d) + [head]
    ensures AtDepth(lines + ([head] + body), d + 1) == AtDepth(lines, d + 1) + AtDepth(body, d + 1)
  {
    Block(head, body, d);
    AtDepthConcat(lines, [head] + body, d);
    AtDepthConcat(lines, [head] + body, d + 1);
    if AtLeast(lines, d) {
      AtLeastConcat(lines, [head] + body, d);
    }
  }

  /** Lines at one level followed by lines no shallower. */
  lemma HeadThen(head: seq<Line>, rest: seq<Line>, d: nat)
    requires AllAt(head, d) && AtLeast(rest, d)
    ensures AtLeast(head + rest, d)
    ensures AtDepth(head + rest, d) == head + AtDepth(rest, d)
    ensures AtDepth(head + rest, d + 1) == AtDepth(rest, d + 1)
  {
    SameDepth(head, d, d + 1);
    AtDepthConcat(head, rest, d);
    AtDepthConcat(head, rest, d + 1);
    AtLeastConcat(head, rest, d);
  }

  /** `n` copies of the line `text` at depth `d`. */
  function Items(d: nat, text: string, n: nat): (r: seq<Line>)
    ensures |r| == n
    ensures forall j :: 0 <= j < n ==> r[j] == Line(d, text)
  {
    seq(n, j => Line(d, text))
  }

  // ---------------------------------------------------------------------
  // Attributes.

  /** The lines an attribute's entry holds under its `-`: `name:`, and
      `value:` for an annotation. */
  function AttrDetail(d: nat, a: Attr): (r: seq<Line>)
    ensures 0 < |r| <= 2 && AllAt(r, d)
    ensures r[0] == Line(d, "name: " + a.spelling)
  {
    [Line(d, "name: " + a.spelling)] + (if a.annotation.Some? then [Line(d, "value: " + a.annotation.value)] else [])
  }

  /** The detail lines of all attributes, in order. */
  function AttrDetails(d: nat, attrs: seq<Attr>): seq<Line>
    decreases |attrs|
  {
    if |attrs| == 0 then [] else AttrDetails(d, attrs[..|attrs| - 1]) + AttrDetail(d, attrs[|attrs| - 1])
  }

  lemma AttrDetailsStep(d: nat, attrs: seq<Attr>, i: nat)
    requires i < |attrs|
    ensures AttrDetails(d, attrs[..i + 1]) == AttrDetails(d, attrs[..i]) + AttrDetail(d, attrs[i])
  {
    assert attrs[..i + 1][..i] == attrs[..i];
  }

  /** One attribute's entry: `-`, with its detail lines one level deeper. */
  function AttrEntry(k: nat, a: Attr): seq<Line> {
    [Line(k + 1, "-")] + AttrDetail(k + 2, a)
  }

  /** The entries of all attributes, in order. */
  function AttrEntries(k: nat, attrs: seq<Attr>): seq<Line>
    decreases |attrs|
  {
    if |attrs| == 0 then [] else AttrEntry(k, attrs[0]) + AttrEntries(k, attrs[1..])
  }

  /** Everything `_HandleAttrs` writes at indentation `k`: `attrs:` and the
      entries. */
  function AttrsText(k: nat, attrs: seq<Attr>): seq<Line> {
    [Line(k, "attrs:")] + AttrEntries(k, attrs)
  }

  lemma {:induction false} AttrEntriesSnoc(k: nat, attrs: seq<Attr>, a: Attr)
    ensures AttrEntries(k, attrs + [a]) == AttrEntries(k, attrs) + AttrEntry(k, a)
    decreases |attrs|
  {
    if |attrs| == 0 {
      assert attrs + [a] == [a] && [a][1..] == [];
    } else {
      assert (attrs + [a])[0] == attrs[0];
      assert (attrs + [a])[1..] == attrs[1..] + [a];
      AttrEntriesSnoc(k, attrs[1..], a);
      ConcatAssoc(AttrEntry(k, attrs[0]), AttrEntries(k, attrs[1..]), AttrEntry(k, a));
    }
  }

  lemma AttrsTextStep(k: nat, attrs: seq<Attr>, i: nat)
    requires i < |attrs|
    ensures AttrsText(k, attrs[..i + 1]) == AttrsText(k, attrs[..i]) + AttrEntry(k, attrs[i])
  {
    assert attrs[..i + 1] == attrs[..i] + [attrs[i]];
    AttrEntriesSnoc(k, attrs[..i], attrs[i]);
    ConcatAssoc([Line(k, "attrs:")], AttrEntries(k, attrs[..i]), AttrEntry(k, attrs[i]));
  }

  /** The depth facts of one attribute entry: `-` over its detail lines. */
  lemma AttrEntryShape(detail: seq<Line>, k: nat)
    requires AllAt(detail, k + 2)
    ensures AtLeast([Line(k + 1, "-")] + detail, k + 1)
    ensures AtMost([Line(k + 1, "-")] + detail, k + 2)
    ensures AtDepth([Line(k + 1, "-")] + detail, k) == []
    ensures AtDepth([Line(k + 1, "-")] + detail, k + 1) == [Line(k + 1, "-")]
    ensures AtDepth([Line(k + 1, "-")] + detail, k + 2) == detail
  {
    var dash := [Line(k + 1, "-")];
    SameDepth(detail, k + 2, k + 1);
    SameDepth(detail, k + 2, k);
    AtDepthConcat(dash, detail, k);
    AtDepthConcat(dash, detail, k + 1);
    AtDepthConcat(dash, detail, k + 2);
    AtLeastConcat(dash, detail, k + 1);
    AtMostConcat(dash, detail, k + 2);
  }

  /** The depth facts of one more attribute entry appended to `lines`. */
  lemma AttrEntryDepths(lines: seq<Line>, detail: seq<Line>, k: nat)
    requires AtLeast(lines, k) && AtMost(lines, k + 2)
    requires AllAt(detail, k + 2)
    ensures AtLeast(lines + ([Line(k + 1, "-")] + detail), k)
    ensures AtMost(lines + ([Line(k + 1, "-")] + detail), k + 2)
    ensures AtDepth(lines + ([Line(k + 1, "-")] + detail), k) == AtDepth(lines, k)
    ensures AtDepth(lines + ([Line(k + 1, "-")] + detail), k + 1) == AtDepth(lines, k + 1) + [Line(k + 1, "-")]
    ensures AtDepth(lines + ([Line(k + 1, "-")] + detail), k + 2) == AtDepth(lines, k + 2) + detail
  {
    var entry := [Line(k + 1, "-")] + detail;
    AttrEntryShape(detail, k);
    AtDepthConcat(lines, entry, k);
    AtDepthConcat(lines, entry, k + 1);
    AtDepthConcat(lines, entry, k + 2);
    assert AtLeast(entry, k);
    AtLeastConcat(lines, entry, k);
    AtMostConcat(lines, entry, k + 2);
  }

  /** The layout of an attribute block for the attributes `done`: `attrs:`
      first and alone at its level, one `-` per attribute a level deeper,
      and their detail lines a further level deeper. */
  predicate AttrLinesShape(lines: seq<Line>, k: nat, done: seq<Attr>) {
    && |lines| > 0 && lines[0] == Line(k, "attrs:")
    && AtLeast(lines, k) && AtMost(lines, k + 2)
    && AtDepth(lines, k) == [Line(k, "attrs:")]
    && AtDepth(lines, k + 1) == Items(k + 1, "-", |done|)
    && AtDepth(lines, k + 2) == AttrDetails(k + 2, done)
  }

  /** One more attribute's entry keeps the layout. */
  lemma AttrStep(lines: seq<Line>, k: nat, attrs: seq<Attr>, i: nat)
    requires i < |attrs| && AttrLinesShape(lines, k, attrs[..i])
    ensures AttrLinesShape(lines + AttrEntry(k, attrs[i]), k, attrs[..i + 1])
  {
    var detail := AttrDetail(k + 2, attrs[i]);
    AttrEntryDepths(lines, detail, k);
    AttrDetailsStep(k + 2, attrs, i);
    assert Items(k + 1, "-", i + 1) == Items(k + 1, "-", i) + [Line(k + 1, "-")];
  }

  /** The attribute block has that layout: `attrs:` always, then one `-`
      entry per attribute, one level deeper, holding its `name:` and, for
      annotations only, its `value:` a further level deeper. */
  lemma {:induction false} AttrsTextShape(k: nat, attrs: seq<Attr>)
    ensures AttrLinesShape(AttrsText(k, attrs), k, attrs)
    decreases |attrs|
  {
    if |attrs| == 0 {
      assert AttrsText(k, attrs) == [Line(k, "attrs:")];
      SameDepth([Line(k, "attrs:")], k, k + 1);
      SameDepth([Line(k, "attrs:")], k, k + 2);
    } else {
      var n := |attrs| - 1;
      AttrsTextShape(k, attrs[..n]);
      AttrStep(AttrsText(k, attrs[..n]), k, attrs, n);
      AttrsTextStep(k, attrs, n);
      assert attrs[..n + 1] == attrs;
    }
  }

  /** `_HandleAttrs`: writes the attribute block. */
  method HandleAttrs(c: Consumer, attrs: seq<Attr>) returns (r: Out)
    ensures r.c == c
    ensures r.lines == AttrsText(c.indent, attrs)
  {
    var k := c.indent;
    var cur := c;
    var lines := [Indent(cur, "attrs:")];
    var i := 0;
    while i < |attrs|
      invariant i <= |attrs| && cur == c
      invariant lines == AttrsText(k, attrs[..i])
    {
      cur := Enter(cur);
      var dash := Indent(cur, "-");
      cur := Enter(cur);
      var detail := [Indent(cur, "name: " + attrs[i].spelling)];
      if attrs[i].annotation.Some? {
        detail := detail + [Indent(cur, "value: " + attrs[i].annotation.value)];
      }
      cur := Leave(Leave(cur));
      assert [dash] + detail == AttrEntry(k, attrs[i]);
      AttrsTextStep(k, attrs, i);
      lines := lines + ([dash] + detail);
      i := i + 1;
    }
    assert attrs[..i] == attrs;
    r := Out(cur, lines);
  }

  /** A `value:` line is written for an attribute exactly when it is an
      annotation, and carries that annotation. */
  lemma {:induction false} ValueOnlyForAnnotations(d: nat, attrs: seq<Attr>, v: string)
    ensures Line(d, "value: " + v) in AttrDetails(d, attrs) <==>
            exists i :: 0 <= i < |attrs| && attrs[i].annotation == Some(v)
    decreases |attrs|
  {
    if |attrs| > 0 {
      var n := |attrs| - 1;
      var init := attrs[..n];
      var a := attrs[n];
      ValueOnlyForAnnotations(d, init, v);
      assert AttrDetails(d, attrs) == AttrDetails(d, init) + AttrDetail(d, a);
      assert Line(d, "name: " + a.spelling) != Line(d, "value: " + v) by {
        assert ("name: " + a.spelling)[0] == 'n';
        assert ("value: " + v)[0] == 'v';
      }
      if a.annotation.Some? {
        assert Line(d, "value: " + a.annotation.value) == Line(d, "value: " + v) <==> a.annotation.value == v by {
          if "value: " + a.annotation.value == "value: " + v {
            assert a.annotation.value == ("value: " + a.annotation.value)[7..];
          }
        }
      }
      if exists i :: 0 <= i < |attrs| && attrs[i].annotation == Some(v) {
        var i :| 0 <= i < |attrs| && attrs[i].annotation == Some(v);
        if i < n {
          assert init[i] == attrs[i];
        }
      }
      if exists i :: 0 <= i < |init| && init[i].annotation == Some(v) {
        var i :| 0 <= i < |init| && init[i].annotation == Some(v);
        assert attrs[i] == init[i];
      }
    }
  }

  /** How many attributes are annotations. */
  function CountAnnotated(attrs: seq<Attr>): (n: nat)
    ensures n <= |attrs|
    ensures n == 0 <==> forall a :: a in attrs ==> a.annotation.None?
    decreases |attrs|
  {
    if |attrs| == 0 then 0
    else CountAnnotated(attrs[..|attrs| - 1]) + (if attrs[|attrs| - 1].annotation.Some? then 1 else 0)
  }

  /** The detail lines are one `name:` per attribute plus one `value:` per
      annotation. */
  lemma {:induction false} AttrDetailsSize(d: nat, attrs: seq<Attr>)
    ensures |AttrDetails(d, attrs)| == |attrs| + CountAnnotated(attrs)
    decreases |attrs|
  {
    if |attrs| > 0 {
      AttrDetailsSize(d, attrs[..|attrs| - 1]);
    }
  }

  // ---------------------------------------------------------------------
  // Parameters, fields and bases.

  /** A parameter's entry below indentation `k`: `name:` and `type:` one
      level deeper, followed by its attributes at that level. */
  function ParamText(k: nat, p: ParamD): seq<Line> {
    [Line(k + 1, "name: " + p.name), Line(k + 1, "type: " + p.ty)] + AttrsText(k + 1, p.attrs)
  }

  /** A parameter's entry lies below `k`; at its own level it shows `name:`,
      `type:` and `attrs:`, and one level further down one `-` per
      attribute. */
  lemma ParamTextShape(k: nat, p: ParamD)
    ensures AtLeast(ParamText(k, p), k + 1)
    ensures AtDepth(ParamText(k, p), k + 1) ==
            [Line(k + 1, "name: " + p.name), Line(k + 1, "type: " + p.ty), Line(k + 1, "attrs:")]
    ensures AtDepth(ParamText(k, p), k + 2) == Items(k + 2, "-", |p.attrs|)
  {
    var head := [Line(k + 1, "name: " + p.name), Line(k + 1, "type: " + p.ty)];
    AttrsTextShape(k + 1, p.attrs);
    HeadThen(head, AttrsText(k + 1, p.attrs), k + 1);
    assert head + [Line(k + 1, "attrs:")] ==
           [Line(k + 1, "name: " + p.name), Line(k + 1, "type: " + p.ty), Line(k + 1, "attrs:")];
  }

  /** `_HandleParamDecl`: one level deeper, `name:`, `type:`, then the
      attributes. */
  method HandleParamDecl(c: Consumer, p: ParamD) returns (r: Out)
    ensures r.c == c
    ensures r.lines == ParamText(c.indent, p)
  {
    var k := c.indent + 1;
    var inner := Enter(c);
    var head := [Line(k, "name: " + p.name), Line(k, "type: " + p.ty)];
    var attrs := HandleAttrs(inner, p.attrs);
    r := Out(Leave(attrs.c), head + attrs.lines);
  }

  /** A field's entry below indentation `k`: name, type, size, alignment and
      offset one level deeper, followed by its attributes at that level. */
  function FieldText(k: nat, f: FieldD): seq<Line> {
    [ Line(k + 1, "name: " + f.name), Line(k + 1, "type: " + f.ty),
      Line(k + 1, "size: " + NatToDecimal(f.size)), Line(k + 1, "align: " + NatToDecimal(f.align)),
      Line(k + 1, "offset: " + NatToDecimal(f.offset)) ] + AttrsText(k + 1, f.attrs)
  }

  /** A field's entry lies below `k`; at its own level it shows the name,
      type, size, alignment and offset in bits and `attrs:`, and one level
      further down one `-` per attribute. */
  lemma FieldTextShape(k: nat, f: FieldD)
    ensures AtLeast(FieldText(k, f), k + 1)
    ensures AtDepth(FieldText(k, f), k + 1) ==
            [ Line(k + 1, "name: " + f.name), Line(k + 1, "type: " + f.ty),
              Line(k + 1, "size: " + NatToDecimal(f.size)), Line(k + 1, "align: " + NatToDecimal(f.align)),
              Line(k + 1, "offset: " + NatToDecimal(f.offset)), Line(k + 1, "attrs:") ]
    ensures AtDepth(FieldText(k, f), k + 2) == Items(k + 2, "-", |f.attrs|)
  {
    var head := [ Line(k + 1, "name: " + f.name), Line(k + 1, "type: " + f.ty),
                  Line(k + 1, "size: " + NatToDecimal(f.size)), Line(k + 1, "align: " + NatToDecimal(f.align)),
                  Line(k + 1, "offset: " + NatToDecimal(f.offset)) ];
    AttrsTextShape(k + 1, f.attrs);
    HeadThen(head, AttrsText(k + 1, f.attrs), k + 1);
    assert head + [Line(k + 1, "attrs:")] ==
           [ Line(k + 1, "name: " + f.name), Line(k + 1, "type: " + f.ty),
             Line(k + 1, "size: " + NatToDecimal(f.size)), Line(k + 1, "align: " + NatToDecimal(f.align)),
             Line(k + 1, "offset: " + NatToDecimal(f.offset)), Line(k + 1, "attrs:") ];
  }

  /** `_HandleFieldDecl`: one level deeper, the field's name, type, size,
      alignment and offset in bits, then its attributes. */
  method HandleFieldDecl(c: Consumer, f: FieldD) returns (r: Out)
    ensures r.c == c
    ensures r.lines == FieldText(c.indent, f)
  {
    var k := c.indent + 1;
    var inner := Enter(c);
    var head := [ Line(k, "name: " + f.name), Line(k, "type: " + f.ty),
                  Line(k, "size: " + NatToDecimal(f.size)), Line(k, "align: " + NatToDecimal(f.align)),
                  Line(k, "offset: " + NatToDecimal(f.offset)) ];
    var attrs := HandleAttrs(inner, f.attrs);
    r := Out(Leave(attrs.c), head + attrs.lines);
  }

  /** A base's entry below indentation `k`: its `type:`, and `virtual: true`
      for a virtual base. */
  function BaseText(k: nat, b: BaseSpec): seq<Line> {
    [Line(k + 1, "type: " + b.ty)] + (if b.isVirtual then [Line(k + 1, "virtual: true")] else [])
  }

  /** `_HandleBaseSpecifier`: one level deeper, the base's `type:` and,
      only for a virtual base, `virtual: true`. */
  method HandleBaseSpecifier(c: Consumer, b: BaseSpec) returns (r: Out)
    ensures r.c == c
    ensures r.lines == BaseText(c.indent, b)
    ensures |r.lines| == if b.isVirtual then 2 else 1
    ensures r.lines[0] == Line(c.indent + 1, "type: " + b.ty)
    ensures AllAt(r.lines, c.indent + 1)
    ensures Line(c.indent + 1, "virtual: true") in r.lines <==> b.isVirtual
  {
    var inner := Enter(c);
    var lines := [Indent(inner, "type: " + b.ty)];
    assert lines[0] != Line(c.indent + 1, "virtual: true") by {
      assert lines[0].text[0] == 't';
    }
    if b.isVirtual {
      lines := lines + [Indent(inner, "virtual: true")];
    }
    r := Out(Leave(inner), lines);
  }

  // ---------------------------------------------------------------------
  // Functions.

  /** The `<key>: true` lines a function entry may carry. */
  datatype Key =
    | KConstexpr | KDeleted | KExternC | KNoReturn | KVarargs | KImplicit
    | KStatic | KConst | KVirtual
    | KConstructor | KExplicit | KDefault | KCopy | KMove
    | KDestructor

  function KeyText(k: Key): string {
    match k
    case KConstexpr => "constexpr: true"
    case KDeleted => "deleted: true"
    case KExternC => "externc: true"
    case KNoReturn => "noreturn: true"
    case KVarargs => "varargs: true"
    case KImplicit => "implicit: true"
    case KStatic => "static: true"
    case KConst => "const: true"
    case KVirtual => "virtual: true"
    case KConstructor => "constructor: true"
    case KExplicit => "explicit: true"
    case KDefault => "default: true"
    case KCopy => "copy: true"
    case KMove => "move: true"
    case KDestructor => "destructor: true"
  }

  /** Reads a key line back, dispatching on its first letter; the inverse
      of `KeyText`. */
  function KeyOfText(s: string): Option<Key> {
    if |s| == 0 then None
    else if s[0] == 'c' then
      if s == "constexpr: true" then Some(KConstexpr)
      else if s == "const: true" then Some(KConst)
      else if s == "constructor: true" then Some(KConstructor)
      else if s == "copy: true" then Some(KCopy)
      else None
    else if s[0] == 'd' then
      if s == "deleted: true" then Some(KDeleted)
      else if s == "default: true" then Some(KDefault)
      else if s == "destructor: true" then Some(KDestructor)
      else None
    else if s[0] == 'e' then
      if s == "externc: true" then Some(KExternC)
      else if s == "explicit: true" then Some(KExplicit)
      else None
    else if s[0] == 'v' then
      if s == "varargs: true" then Some(KVarargs)
      else if s == "virtual: true" then Some(KVirtual)
      else None
    else if s == "noreturn: true" then Some(KNoReturn)
    else if s == "implicit: true" then Some(KImplicit)
    else if s == "static: true" then Some(KStatic)
    else if s == "move: true" then Some(KMove)
    else None
  }

  /** Every key line reads back as its key. */
  lemma KeyRoundTrip(k: Key)
    ensures KeyOfText(KeyText(k)) == Some(k)
  {
    match k
    case KConstexpr =>
    case KDeleted =>
    case KExternC =>
    case KNoReturn =>
    case KVarargs =>
    case KImplicit =>
    case KStatic =>
    case KConst =>
    case KVirtual =>
    case KConstructor =>
    case KExplicit =>
    case KDefault =>
    case KCopy =>
    case KMove =>
    case KDestructor =>
  }

  /** No two keys share a line. */
  lemma KeyTextsDistinct(k: Key, l: Key)
    ensures KeyText(k) == KeyText(l) <==> k == l
  {
    KeyRoundTrip(k);
    KeyRoundTrip(l);
  }

  /** A key line is neither a `name:` line nor `args:` nor `attrs:`. */
  lemma KeyTextIsNotOther(k: Key, x: string)
    ensures KeyText(k) != "name: " + x && KeyText(k) != "args:" && KeyText(k) != "attrs:"
  {
    var t := KeyText(k);
    assert ("name: " + x)[0] == 'n' && ("name: " + x)[1] == 'a';
    assert t[0] != 'a';
    assert t[0] != 'n' || t[1] != 'a';
  }

  /** The order `_HandleFunctionDecl` tests its predicates in. */
  const KeyOrder: seq<Key> :=
    [ KConstexpr, KDeleted, KExternC, KNoReturn, KVarargs, KImplicit,
      KStatic, KConst, KVirtual,
      KConstructor, KExplicit, KDefault, KCopy, KMove,
      KDestructor ]

  /** Whether `f` answers yes to the predicate behind key `k`; the method
      and constructor predicates are asked only of methods and
      constructors. */
  predicate Holds(f: FunctionD, k: Key) {
    match k
    case KConstexpr => Constexpr in f.quals
    case KDeleted => Deleted in f.quals
    case KExternC => ExternC in f.quals
    case KNoReturn => NoReturn in f.quals
    case KVarargs => Variadic in f.quals
    case KImplicit => Implicit in f.quals
    case KStatic => HasMethodQual(f, Static)
    case KConst => HasMethodQual(f, Const)
    case KVirtual => HasMethodQual(f, Virtual)
    case KConstructor => IsCtor(f)
    case KExplicit => HasCtorQual(f, Explicit)
    case KDefault => HasCtorQual(f, DefaultCtor)
    case KCopy => HasCtorQual(f, CopyCtor)
    case KMove => HasCtorQual(f, MoveCtor)
    case KDestructor => IsDtor(f)
  }

  /** The keys of `ks` that hold for `f`, in the order of `ks`. */
  function KeysOf(f: FunctionD, ks: seq<Key>): (r: seq<Key>)
    ensures |r| <= |ks|
  {
    if |ks| == 0 then [] else (if Holds(f, ks[0]) then [ks[0]] else []) + KeysOf(f, ks[1..])
  }

  /** The keys `_HandleFunctionDecl` writes, in its order. */
  function FunctionKeys(f: FunctionD): seq<Key> {
    KeysOf(f, KeyOrder)
  }

  /** A key is written exactly when it is in the order and holds. */
  lemma {:induction false} KeysOfMembership(f: FunctionD, ks: seq<Key>, k: Key)
    ensures k in KeysOf(f, ks) <==> k in ks && Holds(f, k)
  {
    if |ks| > 0 {
      KeysOfMembership(f, ks[1..], k);
      assert ks == [ks[0]] + ks[1..];
    }
  }

  /** Written keys keep the relative order they have in `ks`. */
  lemma {:induction false} KeysOfOrder(f: FunctionD, ks: seq<Key>, i: nat, j: nat)
    requires i < j < |ks| && Holds(f, ks[i]) && Holds(f, ks[j])
    ensures exists p, q :: 0 <= p < q < |KeysOf(f, ks)| && KeysOf(f, ks)[p] == ks[i] && KeysOf(f, ks)[q] == ks[j]
  {
    var rest := KeysOf(f, ks[1..]);
    var head := if Holds(f, ks[0]) then [ks[0]] else [];
    assert KeysOf(f, ks) == head + rest;
    if i == 0 {
      KeysOfMembership(f, ks[1..], ks[j]);
      assert ks[j] == ks[1..][j - 1];
      var q :| 0 <= q < |rest| && rest[q] == ks[j];
      assert (head + rest)[0] == ks[0];
      assert (head + rest)[1 + q] == ks[j];
    } else {
      assert ks[1..][i - 1] == ks[i] && ks[1..][j - 1] == ks[j];
      KeysOfOrder(f, ks[1..], i - 1, j - 1);
      var p, q :| 0 <= p < q < |rest| && rest[p] == ks[i] && rest[q] == ks[j];
      assert (head + rest)[|head| + p] == ks[i];
      assert (head + rest)[|head| + q] == ks[j];
    }
  }

  predicate IsCtorDetail(k: Key) {
    k == KExplicit || k == KDefault || k == KCopy || k == KMove
  }

  /** What the key lines of a function mean: each key is written exactly
      when its predicate holds, so the method keys appear only for methods
      and the constructor keys only for constructors, and a constructor
      detail is written after `constructor: true`. */
  lemma FunctionKeysMeaning(f: FunctionD, k: Key)
    ensures k in FunctionKeys(f) <==> Holds(f, k)
    ensures IsCtorDetail(k) && k in FunctionKeys(f) ==>
              exists p, q :: 0 <= p < q < |FunctionKeys(f)| && FunctionKeys(f)[p] == KConstructor && FunctionKeys(f)[q] == k
  {
    assert k in KeyOrder by {
      match k
      case KConstexpr => assert KeyOrder[0] == k;
      case KDeleted => assert KeyOrder[1] == k;
      case KExternC => assert KeyOrder[2] == k;
      case KNoReturn => assert KeyOrder[3] == k;
      case KVarargs => assert KeyOrder[4] == k;
      case KImplicit => assert KeyOrder[5] == k;
      case KStatic => assert KeyOrder[6] == k;
      case KConst => assert KeyOrder[7] == k;
      case KVirtual => assert KeyOrder[8] == k;
      case KConstructor => assert KeyOrder[9] == k;
      case KExplicit => assert KeyOrder[10] == k;
      case KDefault => assert KeyOrder[11] == k;
      case KCopy => assert KeyOrder[12] == k;
      case KMove => assert KeyOrder[13] == k;
      case KDestructor => assert KeyOrder[14] == k;
    }
    KeysOfMembership(f, KeyOrder, k);
    if IsCtorDetail(k) && k in FunctionKeys(f) {
      var j := if k == KExplicit then 10 else if k == KDefault then 11 else if k == KCopy then 12 else 13;
      assert KeyOrder[j] == k;
      KeysOfOrder(f, KeyOrder, 9, j);
    }
  }

  function KeyLines(d: nat, keys: seq<Key>): (r: seq<Line>)
    ensures |r| == |keys| && AllAt(r, d)
  {
    if |keys| == 0 then [] else [Line(d, KeyText(keys[0]))] + KeyLines(d, keys[1..])
  }

  lemma {:induction false} KeyLinesMembership(d: nat, keys: seq<Key>, k: Key)
    ensures Line(d, KeyText(k)) in KeyLines(d, keys) <==> k in keys
  {
    if |keys| > 0 {
      KeyLinesMembership(d, keys[1..], k);
      KeyTextsDistinct(keys[0], k);
      assert keys == [keys[0]] + keys[1..];
    }
  }

  /** The lines a function entry writes at its own level: `name:` first, then
      its keys, `args:` and `attrs:`. */
  function FunctionOutline(d: nat, f: FunctionD): seq<Line> {
    [Line(d, "name: " + f.name)] + KeyLines(d, FunctionKeys(f)) + [Line(d, "args:"), Line(d, "attrs:")]
  }

  /** A function entry carries a key line exactly when the function
      answers yes to that key's predicate. */
  lemma FunctionLineMeaning(d: nat, f: FunctionD, k: Key)
    ensures Line(d, KeyText(k)) in FunctionOutline(d, f) <==> Holds(f, k)
  {
    KeyTextIsNotOther(k, f.name);
    KeyLinesMembership(d, FunctionKeys(f), k);
    FunctionKeysMeaning(f, k);
    var o := FunctionOutline(d, f);
    var keys := KeyLines(d, FunctionKeys(f));
    assert o == [Line(d, "name: " + f.name)] + keys + [Line(d, "args:"), Line(d, "attrs:")];
    assert Line(d, KeyText(k)) in o <==> Line(d, KeyText(k)) in keys;
  }


  /** The parameters' items at indentation `k`, in order: each
      `- !compex/param` with the parameter's entry one level deeper. */
  function ParamsText(k: nat, ps: seq<ParamD>): seq<Line>
    decreases |ps|
  {
    if |ps| == 0 then []
    else ParamsText(k, ps[..|ps| - 1]) + ([Line(k, "- !compex/param")] + ParamText(k, ps[|ps| - 1]))
  }

  lemma ParamsTextStep(k: nat, ps: seq<ParamD>, i: nat)
    requires i < |ps|
    ensures ParamsText(k, ps[..i + 1]) == ParamsText(k, ps[..i]) + ([Line(k, "- !compex/param")] + ParamText(k, ps[i]))
  {
    assert ps[..i + 1][..i] == ps[..i];
  }

  /** The parameter items lie at `k` or deeper, and at `k` there is exactly
      one `- !compex/param` per parameter. */
  lemma {:induction false} ParamsTextShape(k: nat, ps: seq<ParamD>)
    ensures AtLeast(ParamsText(k, ps), k)
    ensures AtDepth(ParamsText(k, ps), k) == Items(k, "- !compex/param", |ps|)
    decreases |ps|
  {
    if |ps| > 0 {
      var n := |ps| - 1;
      ParamsTextShape(k, ps[..n]);
      ParamTextShape(k, ps[n]);
      AppendBlock(ParamsText(k, ps[..n]), Line(k, "- !compex/param"), ParamText(k, ps[n]), k);
      assert Items(k, "- !compex/param", n + 1) == Items(k, "- !compex/param", n) + [Line(k, "- !compex/param")];
    }
  }

  /** The `args:` scope of `_HandleFunctionDecl`: one `- !compex/param`
      item per parameter, in order, each with its entry one level deeper. */
  method HandleParams(c: Consumer, ps: seq<ParamD>) returns (r: Out)
    ensures r.c == c
    ensures r.lines == ParamsText(c.indent, ps)
  {
    var k := c.indent;
    var cur := c;
    var lines := [];
    var i := 0;
    while i < |ps|
      invariant i <= |ps| && cur == c
      invariant lines == ParamsText(k, ps[..i])
    {
      var item := Indent(cur, "- !compex/param");
      var p := HandleParamDecl(cur, ps[i]);
      ParamsTextStep(k, ps, i);
      lines := lines + ([item] + p.lines);
      cur := p.c;
      i := i + 1;
    }
    assert ps[..i] == ps;
    r := Out(cur, lines);
  }

  /** A function's entry below indentation `k`: `name:`, the key lines and
      `args:` one level deeper, the parameter items a further level deeper,
      then the attributes. */
  function FunctionText(k: nat, f: FunctionD): seq<Line> {
    [Line(k + 1, "name: " + f.name)] + KeyLines(k + 1, FunctionKeys(f)) + [Line(k + 1, "args:")]
      + ParamsText(k + 2, f.params) + AttrsText(k + 1, f.attrs)
  }

  /** `_HandleFunctionDecl`: one level deeper, `name:`, the key lines,
      `args:` with one `- !compex/param` item per parameter a further level
      deeper, then the attributes. */
  method HandleFunctionDecl(c: Consumer, f: FunctionD) returns (r: Out)
    ensures r.c == c
    ensures r.lines == FunctionText(c.indent, f)
  {
    var inner := Enter(c);
    var k := inner.indent;
    var head := [Indent(inner, "name: " + f.name)] + KeyLines(k, FunctionKeys(f)) + [Indent(inner, "args:")];
    var params := HandleParams(Enter(inner), f.params);
    var attrs := HandleAttrs(inner, f.attrs);
    r := Out(Leave(attrs.c), head + params.lines + attrs.lines);
  }

  /** A function's entry starts with its `name:`, lies below `k`, shows the
      outline (`name:`, the keys in order, `args:`, `attrs:`) one level
      deeper, and the parameter items followed by the attribute dashes a
      further level deeper. */
  lemma FunctionTextShape(k: nat, f: FunctionD)
    ensures |FunctionText(k, f)| > 0 && FunctionText(k, f)[0] == Line(k + 1, "name: " + f.name)
    ensures AtLeast(FunctionText(k, f), k + 1)
    ensures AtDepth(FunctionText(k, f), k + 1) == FunctionOutline(k + 1, f)
    ensures AtDepth(FunctionText(k, f), k + 2) ==
            Items(k + 2, "- !compex/param", |f.params|) + Items(k + 2, "-", |f.attrs|)
  {
    var head := [Line(k + 1, "name: " + f.name)] + KeyLines(k + 1, FunctionKeys(f)) + [Line(k + 1, "args:")];
    ParamsTextShape(k + 2, f.params);
    AttrsTextShape(k + 1, f.attrs);
    FunctionFacts(k + 1, head, ParamsText(k + 2, f.params), AttrsText(k + 1, f.attrs), f);
  }

  lemma FunctionFacts(k: nat, head: seq<Line>, params: seq<Line>, attrs: seq<Line>, f: FunctionD)
    requires head == [Line(k, "name: " + f.name)] + KeyLines(k, FunctionKeys(f)) + [Line(k, "args:")]
    requires AtLeast(params, k + 1)
    requires AtDepth(params, k + 1) == Items(k + 1, "- !compex/param", |f.params|)
    requires AtLeast(attrs, k) && AtDepth(attrs, k) == [Line(k, "attrs:")]
    requires AtDepth(attrs, k + 1) == Items(k + 1, "-", |f.attrs|)
    ensures (head + params + attrs)[0] == Line(k, "name: " + f.name)
    ensures AtLeast(head + params + attrs, k)
    ensures AtDepth(head + params + attrs, k) == FunctionOutline(k, f)
    ensures AtDepth(head + params + attrs, k + 1) ==
            Items(k + 1, "- !compex/param", |f.params|) + Items(k + 1, "-", |f.attrs|)
  {
    var hp := head + params;
    assert AllAt(head, k);
    AtLeastNone(params, k);
    assert AtLeast(params, k);
    HeadThen(head, params, k);
    assert AtDepth(hp, k) == head;
    AtDepthConcat(hp, attrs, k);
    AtDepthConcat(hp, attrs, k + 1);
    AtLeastConcat(hp, attrs, k);
    assert head + [Line(k, "attrs:")] == FunctionOutline(k, f);
  }

  // ---------------------------------------------------------------------
  // Records.

  /** `_HandleLocation`: the file and line of a declaration. */
  function LocationLines(d: nat, loc: Loc): seq<Line> {
    [Line(d, "$srcFile: " + loc.file), Line(d, "$srcLine: " + NatToDecimal(loc.line))]
  }

  function FieldSlot(d: nat, f: FieldD): Line {
    Line(d, f.name + ": !compex/field")
  }

  function BaseSlot(d: nat, i: nat): Line {
    Line(d, "base_" + NatToDecimal(i) + "$: !compex/base")
  }

  function MethodSlot(d: nat, i: nat): Line {
    Line(d, "method_" + NatToDecimal(i) + "$: !compex/method")
  }

  /** The slot lines of the fields, in declaration order. */
  function FieldSlots(d: nat, fs: seq<FieldD>): (r: seq<Line>)
    ensures |r| == |fs|
    ensures forall i :: 0 <= i < |fs| ==> r[i] == FieldSlot(d, fs[i])
    decreases |fs|
  {
    if |fs| == 0 then [] else FieldSlots(d, fs[..|fs| - 1]) + [FieldSlot(d, fs[|fs| - 1])]
  }

  /** The slots `base_0..base_{n-1}`. */
  function BaseSlots(d: nat, n: nat): (r: seq<Line>)
    ensures |r| == n
    ensures forall i :: 0 <= i < n ==> r[i] == BaseSlot(d, i)
  {
    seq(n, i requires 0 <= i < n => BaseSlot(d, i))
  }

  /** The slots `method_0..method_{n-1}`. */
  function MethodSlots(d: nat, n: nat): (r: seq<Line>)
    ensures |r| == n
    ensures forall i :: 0 <= i < n ==> r[i] == MethodSlot(d, i)
  {
    MethodSlotsFrom(d, 0, n)
  }

  /** Slot numbers are unique: two slots of the same kind are equal only
      when they carry the same number. */
  lemma SlotsDistinct(d: nat, i: nat, j: nat)
    ensures BaseSlot(d, i) == BaseSlot(d, j) <==> i == j
    ensures MethodSlot(d, i) == MethodSlot(d, j) <==> i == j
    ensures BaseSlot(d, i) != MethodSlot(d, j)
  {
    var bi := "base_" + NatToDecimal(i);
    var bj := "base_" + NatToDecimal(j);
    if BaseSlot(d, i) == BaseSlot(d, j) {
      SuffixCancel(bi, bj, "$: !compex/base");
      assert NatToDecimal(i) == bi[5..] && NatToDecimal(j) == bj[5..];
      NatToDecimalInjective(i, j);
    }
    var mi := "method_" + NatToDecimal(i);
    var mj := "method_" + NatToDecimal(j);
    if MethodSlot(d, i) == MethodSlot(d, j) {
      SuffixCancel(mi, mj, "$: !compex/method");
      assert NatToDecimal(i) == mi[7..] && NatToDecimal(j) == mj[7..];
      NatToDecimalInjective(i, j);
    }
    assert BaseSlot(d, i).text[0] == 'b';
    assert MethodSlot(d, j).text[0] == 'm';
  }

  lemma SuffixCancel(a: string, b: string, s: string)
    requires a + s == b + s
    ensures a == b
  {
    assert |a| == |b|;
    assert a == (a + s)[..|a|];
    assert b == (b + s)[..|b|];
  }

  /** The fields' entries at indentation `k`, in declaration order: each
      field's slot with its entry one level deeper. */
  function FieldsText(k: nat, fs: seq<FieldD>): seq<Line>
    decreases |fs|
  {
    if |fs| == 0 then []
    else FieldsText(k, fs[..|fs| - 1]) + ([FieldSlot(k, fs[|fs| - 1])] + FieldText(k, fs[|fs| - 1]))
  }

  lemma FieldsTextStep(k: nat, fs: seq<FieldD>, i: nat)
    requires i < |fs|
    ensures FieldsText(k, fs[..i + 1]) == FieldsText(k, fs[..i]) + ([FieldSlot(k, fs[i])] + FieldText(k, fs[i]))
  {
    assert fs[..i + 1][..i] == fs[..i];
  }

  /** The field entries lie at `k` or deeper, and at `k` they show the
      fields' slots in declaration order. */
  lemma {:induction false} FieldsTextShape(k: nat, fs: seq<FieldD>)
    ensures AtLeast(FieldsText(k, fs), k)
    ensures AtDepth(FieldsText(k, fs), k) == FieldSlots(k, fs)
    decreases |fs|
  {
    if |fs| > 0 {
      var n := |fs| - 1;
      FieldsTextShape(k, fs[..n]);
      FieldTextShape(k, fs[n]);
      AppendBlock(FieldsText(k, fs[..n]), FieldSlot(k, fs[n]), FieldText(k, fs[n]), k);
    }
  }

  /** The field loop of `_HandleRecordDecl`: each field as
      `<name>: !compex/field` with its entry one level deeper. */
  method HandleFields(c: Consumer, fs: seq<FieldD>) returns (r: Out)
    ensures r.c == c
    ensures r.lines == FieldsText(c.indent, fs)
  {
    var k := c.indent;
    var cur := c;
    var lines := [];
    var i := 0;
    while i < |fs|
      invariant i <= |fs| && cur == c
      invariant lines == FieldsText(k, fs[..i])
    {
      var h := Indent(cur, fs[i].name + ": !compex/field");
      var e := HandleFieldDecl(cur, fs[i]);
      FieldsTextStep(k, fs, i);
      lines := lines + ([h] + e.lines);
      cur := e.c;
      i := i + 1;
    }
    assert fs[..i] == fs;
    r := Out(cur, lines);
  }

  /** The bases' entries at indentation `k`: `base_<n>$` with the base's
      entry, numbered from 0 in order. */
  function BasesText(k: nat, bs: seq<BaseSpec>): seq<Line>
    decreases |bs|
  {
    if |bs| == 0 then []
    else BasesText(k, bs[..|bs| - 1]) + ([BaseSlot(k, |bs| - 1)] + BaseText(k, bs[|bs| - 1]))
  }

  lemma BasesTextStep(k: nat, bs: seq<BaseSpec>, i: nat)
    requires i < |bs|
    ensures BasesText(k, bs[..i + 1]) == BasesText(k, bs[..i]) + ([BaseSlot(k, i)] + BaseText(k, bs[i]))
  {
    assert bs[..i + 1][..i] == bs[..i];
  }

  /** The base entries lie at `k` or deeper, and at `k` they show the slots
      `base_0$` to `base_<n-1>$` in order. */
  lemma {:induction false} BasesTextShape(k: nat, bs: seq<BaseSpec>)
    ensures AtLeast(BasesText(k, bs), k)
    ensures AtDepth(BasesText(k, bs), k) == BaseSlots(k, |bs|)
    decreases |bs|
  {
    if |bs| > 0 {
      var n := |bs| - 1;
      BasesTextShape(k, bs[..n]);
      BaseAppend(BasesText(k, bs[..n]), k, n, bs[n]);
    }
  }

  /** Appending the entry of base number `i` keeps the slots in order. */
  lemma BaseAppend(before: seq<Line>, k: nat, i: nat, b: BaseSpec)
    requires AtLeast(before, k) && AtDepth(before, k) == BaseSlots(k, i)
    ensures AtLeast(before + ([BaseSlot(k, i)] + BaseText(k, b)), k)
    ensures AtDepth(before + ([BaseSlot(k, i)] + BaseText(k, b)), k) == BaseSlots(k, i + 1)
  {
    var body := BaseText(k, b);
    assert AllAt(body, k + 1);
    SameDepth(body, k + 1, k);
    AppendBlock(before, BaseSlot(k, i), body, k);
  }

  /** The base loop of `_HandleRecordDecl`: `base_<i>$` with the base's
      entry, the counter starting at 0. */
  method HandleBases(c: Consumer, bs: seq<BaseSpec>) returns (r: Out)
    ensures r.c == c
    ensures r.lines == BasesText(c.indent, bs)
  {
    var k := c.indent;
    var cur := c;
    var lines := [];
    var i := 0;
    while i < |bs|
      invariant i <= |bs| && cur == c
      invariant lines == BasesText(k, bs[..i])
    {
      var h := Indent(cur, "base_" + NatToDecimal(i) + "$: !compex/base");
      var e := HandleBaseSpecifier(cur, bs[i]);
      BasesTextStep(k, bs, i);
      lines := lines + ([h] + e.lines);
      cur := e.c;
      i := i + 1;
    }
    assert bs[..i] == bs;
    r := Out(cur, lines);
  }

  /** The entries of functions `fs` at indentation `k`: `method_<n>$` with
      the function's entry, numbered on from `from`. */
  function MethodsText(k: nat, from: nat, fs: seq<FunctionD>): seq<Line>
    decreases |fs|
  {
    if |fs| == 0 then []
    else MethodsText(k, from, fs[..|fs| - 1]) + ([MethodSlot(k, from + |fs| - 1)] + FunctionText(k, fs[|fs| - 1]))
  }

  lemma MethodsTextStep(k: nat, from: nat, fs: seq<FunctionD>, j: nat)
    requires j < |fs|
    ensures MethodsText(k, from, fs[..j + 1]) ==
            MethodsText(k, from, fs[..j]) + ([MethodSlot(k, from + j)] + FunctionText(k, fs[j]))
  {
    assert fs[..j + 1][..j] == fs[..j];
  }

  /** The slots `method_<from>$` to `method_<from+n-1>$`. */
  function MethodSlotsFrom(d: nat, from: nat, n: nat): (r: seq<Line>)
    ensures |r| == n
    ensures forall i :: 0 <= i < n ==> r[i] == MethodSlot(d, from + i)
  {
    if n == 0 then [] else MethodSlotsFrom(d, from, n - 1) + [MethodSlot(d, from + n - 1)]
  }

  /** The first `a` slots followed by `b` more are the slots up to
      `method_<a+b-1>$`. */
  lemma {:induction false} MethodSlotsJoin(d: nat, a: nat, b: nat)
    ensures MethodSlotsFrom(d, 0, a) + MethodSlotsFrom(d, a, b) == MethodSlots(d, a + b)
    decreases b
  {
    if b == 0 {
      assert MethodSlotsFrom(d, 0, a) + [] == MethodSlotsFrom(d, 0, a);
    } else {
      MethodSlotsJoin(d, a, b - 1);
      ConcatAssoc(MethodSlotsFrom(d, 0, a), MethodSlotsFrom(d, a, b - 1), [MethodSlot(d, a + b - 1)]);
    }
  }

  /** Method entries numbered on from `from` lie at `k` or deeper, and at
      `k` show the slots `method_<from>$` onwards without a gap. */
  lemma {:induction false} MethodsTextShape(k: nat, from: nat, fs: seq<FunctionD>)
    ensures AtLeast(MethodsText(k, from, fs), k)
    ensures AtDepth(MethodsText(k, from, fs), k) == MethodSlotsFrom(k, from, |fs|)
    decreases |fs|
  {
    if |fs| > 0 {
      var n := |fs| - 1;
      MethodsTextShape(k, from, fs[..n]);
      MethodAppend(MethodsText(k, from, fs[..n]), k, from, n, fs[n]);
    }
  }

  /** Appending the entry of method number `from + n` keeps the slots in
      order. */
  lemma MethodAppend(before: seq<Line>, k: nat, from: nat, n: nat, f: FunctionD)
    requires AtLeast(before, k) && AtDepth(before, k) == MethodSlotsFrom(k, from, n)
    ensures AtLeast(before + ([MethodSlot(k, from + n)] + FunctionText(k, f)), k)
    ensures AtDepth(before + ([MethodSlot(k, from + n)] + FunctionText(k, f)), k) == MethodSlotsFrom(k, from, n + 1)
  {
    FunctionTextShape(k, f);
    AppendBlock(before, MethodSlot(k, from + n), FunctionText(k, f), k);
  }

  /** The constructors' entries, then the methods' on the same counter. */
  lemma CtorsThenMethods(k: nat, cs: seq<FunctionD>, ms: seq<FunctionD>)
    ensures AtLeast(MethodsText(k, 0, cs) + MethodsText(k, |cs|, ms), k)
    ensures AtDepth(MethodsText(k, 0, cs) + MethodsText(k, |cs|, ms), k) == MethodSlots(k, |cs| + |ms|)
  {
    MethodsTextShape(k, 0, cs);
    MethodsTextShape(k, |cs|, ms);
    TopConcat(MethodsText(k, 0, cs), MethodsText(k, |cs|, ms), k,
              MethodSlotsFrom(k, 0, |cs|), MethodSlotsFrom(k, |cs|, |ms|));
    MethodSlotsJoin(k, |cs|, |ms|);
  }

  /** Two runs of lines, each at `k` or deeper, show at `k` what each
      shows, in turn. */
  lemma TopConcat(x: seq<Line>, y: seq<Line>, k: nat, tx: seq<Line>, ty: seq<Line>)
    requires AtLeast(x, k) && AtDepth(x, k) == tx
    requires AtLeast(y, k) && AtDepth(y, k) == ty
    ensures AtLeast(x + y, k) && AtDepth(x + y, k) == tx + ty
  {
    AtDepthConcat(x, y, k);
    AtLeastConcat(x, y, k);
  }

  /** One of the constructor and method loops of `_HandleRecordDecl`:
      `method_<i>$` with the function's entry, the shared counter going on
      from `i`. */
  method AppendMethods(c: Consumer, lines: seq<Line>, i: nat, fs: seq<FunctionD>) returns (r: Out)
    ensures r.c == c
    ensures r.lines == lines + MethodsText(c.indent, i, fs)
  {
    var k := c.indent;
    var cur := c;
    var out := lines;
    var n := i;
    var j := 0;
    while j < |fs|
      invariant j <= |fs| && n == i + j && cur == c
      invariant out == lines + MethodsText(k, i, fs[..j])
    {
      var h := Indent(cur, "method_" + NatToDecimal(n) + "$: !compex/method");
      var e := HandleFunctionDecl(cur, fs[j]);
      MethodsTextJoin(lines, out, h, e.lines, k, i, fs, j);
      out := out + ([h] + e.lines);
      cur := e.c;
      n := n + 1;
      j := j + 1;
    }
    assert fs[..j] == fs;
    r := Out(cur, out);
  }

  /** One more function entry extends the text the method loop has written. */
  lemma MethodsTextJoin(lines: seq<Line>, out: seq<Line>, h: Line, body: seq<Line>, k: nat, i: nat, fs: seq<FunctionD>, j: nat)
    requires j < |fs|
    requires out == lines + MethodsText(k, i, fs[..j])
    requires h == MethodSlot(k, i + j) && body == FunctionText(k, fs[j])
    ensures out + ([h] + body) == lines + MethodsText(k, i, fs[..j + 1])
  {
    MethodsTextStep(k, i, fs, j);
    ConcatAssoc(lines, MethodsText(k, i, fs[..j]), [h] + body);
  }

  /** The constructor and method loops of `_HandleRecordDecl`: one counter
      starting at 0 runs through the constructors and then the methods. */
  method HandleMethods(c: Consumer, ctors: seq<FunctionD>, methods: seq<FunctionD>) returns (r: Out)
    ensures r.c == c
    ensures r.lines == MethodsText(c.indent, 0, ctors) + MethodsText(c.indent, |ctors|, methods)
  {
    var none: seq<Line> := [];
    var first := AppendMethods(c, none, 0, ctors);
    assert first.lines == MethodsText(c.indent, 0, ctors) by {
      assert none + MethodsText(c.indent, 0, ctors) == MethodsText(c.indent, 0, ctors);
    }
    r := AppendMethods(first.c, first.lines, |ctors|, methods);
  }

  function BaseCount(d: RecordDef): nat {
    if d.cxx.Some? then |d.cxx.value.bases| else 0
  }

  function MethodCount(d: RecordDef): nat {
    if d.cxx.Some? then |d.cxx.value.ctors| + |d.cxx.value.methods| else 0
  }

  /** The slots a C++ record has beyond its fields: bases, then methods. */
  function CxxSlots(k: nat, d: RecordDef): seq<Line> {
    BaseSlots(k, BaseCount(d)) + MethodSlots(k, MethodCount(d))
  }

  /** The lines a record body writes at its own level. */
  function RecordOutline(k: nat, d: RecordDef): seq<Line> {
    LocationLines(k, d.loc) + FieldSlots(k, d.fields) + CxxSlots(k, d) + [Line(k, "attrs:")]
  }

  /** What a C++ record writes at indentation `k` beyond its fields: the
      bases, then the constructors and methods on one counter. */
  function CxxText(k: nat, d: RecordDef): seq<Line> {
    if d.cxx.Some? then
      BasesText(k, d.cxx.value.bases)
        + (MethodsText(k, 0, d.cxx.value.ctors) + MethodsText(k, |d.cxx.value.ctors|, d.cxx.value.methods))
    else []
  }

  /** The C++ part of a record lies at `k` or deeper, and at `k` shows the
      base slots from `base_0$`, then the method slots from `method_0$` on
      one counter through constructors and methods; a plain C record has
      none. */
  lemma CxxTextShape(k: nat, d: RecordDef)
    ensures AtLeast(CxxText(k, d), k)
    ensures AtDepth(CxxText(k, d), k) == CxxSlots(k, d)
  {
    if d.cxx.Some? {
      var x := d.cxx.value;
      BasesTextShape(k, x.bases);
      CtorsThenMethods(k, x.ctors, x.methods);
      CxxJoin(k, BasesText(k, x.bases), MethodsText(k, 0, x.ctors) + MethodsText(k, |x.ctors|, x.methods), d);
    } else {
      assert BaseSlots(k, 0) + MethodSlots(k, 0) == [];
    }
  }

  /** The bases followed by the methods of a C++ record. */
  lemma CxxJoin(k: nat, bases: seq<Line>, methods: seq<Line>, d: RecordDef)
    requires d.cxx.Some?
    requires AtLeast(bases, k) && AtDepth(bases, k) == BaseSlots(k, |d.cxx.value.bases|)
    requires AtLeast(methods, k) && AtDepth(methods, k) == MethodSlots(k, |d.cxx.value.ctors| + |d.cxx.value.methods|)
    ensures AtLeast(bases + methods, k) && AtDepth(bases + methods, k) == CxxSlots(k, d)
  {
    AtDepthConcat(bases, methods, k);
    AtLeastConcat(bases, methods, k);
  }

  /** The C++ part of `_HandleRecordDecl`: the bases, then the constructors
      and methods; nothing for a plain C record. */
  method HandleCxx(c: Consumer, d: RecordDef) returns (r: Out)
    ensures r.c == c
    ensures r.lines == CxxText(c.indent, d)
  {
    if d.cxx.Some? {
      var bases := HandleBases(c, d.cxx.value.bases);
      var methods := HandleMethods(bases.c, d.cxx.value.ctors, d.cxx.value.methods);
      r := Out(methods.c, bases.lines + methods.lines);
    } else {
      r := Out(c, []);
    }
  }

  /** A record definition's body below indentation `k`. */
  function RecordText(k: nat, d: RecordDef): seq<Line> {
    LocationLines(k + 1, d.loc) + FieldsText(k + 1, d.fields) + CxxText(k + 1, d) + AttrsText(k + 1, d.attrs)
  }

  /** A record body lies below `k`, has at least the two location lines and
      `attrs:`, and one level deeper shows its outline: the location, the
      field slots, the base and method slots, `attrs:`. */
  lemma RecordTextShape(k: nat, d: RecordDef)
    ensures |RecordText(k, d)| >= 3
    ensures AtLeast(RecordText(k, d), k + 1)
    ensures AtDepth(RecordText(k, d), k + 1) == RecordOutline(k + 1, d)
  {
    var j := k + 1;
    var loc := LocationLines(j, d.loc);
    var fields := FieldsText(j, d.fields);
    var cxx := CxxText(j, d);
    var attrs := AttrsText(j, d.attrs);
    FieldsTextShape(j, d.fields);
    CxxTextShape(j, d);
    AttrsTextShape(j, d.attrs);
    RecordJoin(j, loc, fields, cxx, attrs, d);
  }

  lemma RecordJoin(k: nat, loc: seq<Line>, fields: seq<Line>, cxx: seq<Line>, attrs: seq<Line>, d: RecordDef)
    requires loc == LocationLines(k, d.loc)
    requires AtLeast(fields, k) && AtDepth(fields, k) == FieldSlots(k, d.fields)
    requires AtLeast(cxx, k) && AtDepth(cxx, k) == CxxSlots(k, d)
    requires |attrs| > 0 && AtLeast(attrs, k) && AtDepth(attrs, k) == [Line(k, "attrs:")]
    ensures |loc + fields + cxx + attrs| >= 3
    ensures AtLeast(loc + fields + cxx + attrs, k)
    ensures AtDepth(loc + fields + cxx + attrs, k) == RecordOutline(k, d)
  {
    var lf := loc + fields;
    var lfc := lf + cxx;
    HeadThen(loc, fields, k);
    AtDepthConcat(lf, cxx, k);
    AtDepthConcat(lfc, attrs, k);
    AtLeastConcat(lf, cxx, k);
    AtLeastConcat(lfc, attrs, k);
  }

  /** `_HandleRecordDecl`: one level deeper, the location, the fields in
      declaration order, and for a C++ record the bases and then the
      constructors and methods; the attributes last. */
  method HandleRecordDecl(c: Consumer, d: RecordDef) returns (r: Out)
    ensures r.c == c
    ensures r.lines == RecordText(c.indent, d)
  {
    var inner := Enter(c);
    var loc := LocationLines(inner.indent, d.loc);
    var fields := HandleFields(inner, d.fields);
    var cxx := HandleCxx(fields.c, d);
    var attrs := HandleAttrs(cxx.c, d.attrs);
    r := Out(Leave(attrs.c), loc + fields.lines + cxx.lines + attrs.lines);
  }

  // ---------------------------------------------------------------------
  // Declarations.

  /** The header line a named declaration gets, if any. */
  function Header(d: nat, nd: NamedDecl): seq<Line> {
    match nd
    case RecordKind(name, _) => [Line(d, name + ": !compex/struct")]
    case FunctionKind(f) => [Line(d, f.name + ": !compex/function")]
    case OtherKind(_) => []
  }

  /** Everything a named declaration writes at indentation `k`: its header,
      then the body of a defined record or of a function. */
  function NamedText(k: nat, nd: NamedDecl): seq<Line> {
    match nd
    case RecordKind(name, definition) =>
      [Line(k, name + ": !compex/struct")] + (if definition.Some? then RecordText(k, definition.value) else [])
    case FunctionKind(f) => [Line(k, f.name + ": !compex/function")] + FunctionText(k, f)
    case OtherKind(_) => []
  }

  /** A named declaration shows only its header at its own level: a record
      always gets one and a body only when defined, a function gets one and
      its entry, any other kind writes nothing at all. */
  lemma NamedTextShape(k: nat, nd: NamedDecl)
    ensures AtLeast(NamedText(k, nd), k)
    ensures AtDepth(NamedText(k, nd), k) == Header(k, nd)
    ensures nd.OtherKind? <==> NamedText(k, nd) == []
    ensures nd.RecordKind? ==> (|NamedText(k, nd)| == 1 <==> nd.definition.None?)
    ensures nd.RecordKind? && nd.definition.Some? ==>
              AtDepth(NamedText(k, nd), k + 1) == RecordOutline(k + 1, nd.definition.value)
    ensures nd.FunctionKind? ==> AtDepth(NamedText(k, nd), k + 1) == FunctionOutline(k + 1, nd.f)
  {
    match nd
    case RecordKind(name, definition) =>
      var h := Line(k, name + ": !compex/struct");
      if definition.Some? {
        RecordTextShape(k, definition.value);
        Block(h, RecordText(k, definition.value), k);
      } else {
        Block(h, [], k);
        assert [h] + [] == [h];
      }
    case FunctionKind(f) =>
      FunctionTextShape(k, f);
      Block(Line(k, f.name + ": !compex/function"), FunctionText(k, f), k);
    case OtherKind(_) =>
  }

  /** `_HandleNamedDecl`: a record always gets its header and a body only
      when it is defined; a function gets a header and its entry; any other
      kind writes nothing. */
  method HandleNamedDecl(c: Consumer, nd: NamedDecl) returns (r: Out)
    ensures r.c == c
    ensures r.lines == NamedText(c.indent, nd)
  {
    match nd
    case RecordKind(name, definition) =>
      var h := Indent(c, name + ": !compex/struct");
      if definition.Some? {
        var body := HandleRecordDecl(c, definition.value);
        r := Out(body.c, [h] + body.lines);
      } else {
        assert [h] + [] == [h];
        r := Out(c, [h]);
      }
    case FunctionKind(f) =>
      var h := Indent(c, f.name + ": !compex/function");
      var body := HandleFunctionDecl(c, f);
      r := Out(body.c, [h] + body.lines);
    case OtherKind(_) =>
      r := Out(c, []);
  }

  /** The header a declaration of a group gets: none when it is not named. */
  function DeclHeader(d: nat, x: Decl): seq<Line> {
    if x.Named? then Header(d, x.d) else []
  }

  /** The headers a group writes at the consumer's level, in order. */
  function GroupHeaders(d: nat, dg: seq<Decl>): seq<Line>
    decreases |dg|
  {
    if |dg| == 0 then [] else GroupHeaders(d, dg[..|dg| - 1]) + DeclHeader(d, dg[|dg| - 1])
  }

  /** What one declaration of a group writes: nothing when it is not named. */
  function DeclText(k: nat, x: Decl): seq<Line> {
    if x.Named? then NamedText(k, x.d) else []
  }

  /** Everything a group writes at indentation `k`, declaration by
      declaration. */
  function GroupText(k: nat, dg: seq<Decl>): seq<Line>
    decreases |dg|
  {
    if |dg| == 0 then [] else GroupText(k, dg[..|dg| - 1]) + DeclText(k, dg[|dg| - 1])
  }

  lemma GroupTextStep(k: nat, dg: seq<Decl>, i: nat)
    requires i < |dg|
    ensures GroupText(k, dg[..i + 1]) == GroupText(k, dg[..i]) + DeclText(k, dg[i])
  {
    assert dg[..i + 1][..i] == dg[..i];
  }

  /** A group's lines lie at the consumer's level or deeper, show there
      exactly the headers of its declarations in order, and are empty
      exactly when no declaration gets a header. */
  lemma {:induction false} GroupTextShape(k: nat, dg: seq<Decl>)
    ensures AtLeast(GroupText(k, dg), k)
    ensures AtDepth(GroupText(k, dg), k) == GroupHeaders(k, dg)
    ensures GroupText(k, dg) == [] <==> GroupHeaders(k, dg) == []
    decreases |dg|
  {
    if |dg| > 0 {
      var n := |dg| - 1;
      GroupTextShape(k, dg[..n]);
      DeclTextShape(k, dg[n]);
      TopConcat(GroupText(k, dg[..n]), DeclText(k, dg[n]), k, GroupHeaders(k, dg[..n]), DeclHeader(k, dg[n]));
    }
  }

  /** One declaration of a group shows its header, if any, at the group's
      level, and writes nothing exactly when it gets no header. */
  lemma DeclTextShape(k: nat, x: Decl)
    ensures AtLeast(DeclText(k, x), k)
    ensures AtDepth(DeclText(k, x), k) == DeclHeader(k, x)
    ensures DeclText(k, x) == [] <==> DeclHeader(k, x) == []
  {
    if x.Named? {
      NamedTextShape(k, x.d);
    }
  }

  /** What `HandleTopLevelDecl` leaves behind: the consumer, the lines and
      the value it returns. */
  datatype TopOut = TopOut(c: Consumer, lines: seq<Line>, result: bool)

  /** `HandleTopLevelDecl`: every named declaration of the group in order,
      the others skipped; the result is always true. */
  method HandleTopLevelDecl(c: Consumer, dg: seq<Decl>) returns (r: TopOut)
    ensures r.result
    ensures r.c == c
    ensures r.lines == GroupText(c.indent, dg)
  {
    var k := c.indent;
    var cur := c;
    var lines := [];
    var i := 0;
    while i < |dg|
      invariant i <= |dg| && cur == c
      invariant lines == GroupText(k, dg[..i])
    {
      var e: seq<Line> := [];
      if dg[i].Named? {
        var o := HandleNamedDecl(cur, dg[i].d);
        e := o.lines;
        cur := o.c;
      }
      GroupTextStep(k, dg, i);
      lines := lines + e;
      i := i + 1;
    }
    assert dg[..i] == dg;
    r := TopOut(cur, lines, true);
  }

  lemma GroupHeadersSnoc(d: nat, a: seq<Decl>, x: Decl)
    ensures GroupHeaders(d, a + [x]) == GroupHeaders(d, a) + DeclHeader(d, x)
  {
    var ax := a + [x];
    assert ax[..|ax| - 1] == a && ax[|ax| - 1] == x;
  }

  /** The headers of two groups handled in turn are the headers of their
      concatenation. */
  lemma {:induction false} GroupHeadersConcat(d: nat, a: seq<Decl>, b: seq<Decl>)
    ensures GroupHeaders(d, a + b) == GroupHeaders(d, a) + GroupHeaders(d, b)
    decreases |b|
  {
    if |b| == 0 {
      assert a + b == a;
    } else {
      var n := |b| - 1;
      var init, x := b[..n], b[n];
      assert b == init + [x];
      assert a + b == (a + init) + [x];
      GroupHeadersSnoc(d, a + init, x);
      GroupHeadersSnoc(d, init, x);
      GroupHeadersConcat(d, a, init);
      ConcatAssoc(GroupHeaders(d, a), GroupHeaders(d, init), DeclHeader(d, x));
    }
  }

  /** A declaration that is not named leaves no trace among the headers. */
  lemma UnnamedSkipped(d: nat, a: seq<Decl>, b: seq<Decl>)
    ensures GroupHeaders(d, a + [Unnamed] + b) == GroupHeaders(d, a + b)
  {
    GroupHeadersConcat(d, a + [Unnamed], b);
    GroupHeadersConcat(d, a, b);
    assert (a + [Unnamed])[..|a|] == a;
  }
}

=== FILE: clang_reader.dfy ===
/** Reading the Clang plugin's document back. Each reader takes the lines a
    handler writes and recovers the declaration data they were written
    from; the round-trip lemmas show that the handlers print everything
    they are given, unambiguously, and that the document splits back into
    one entry per field, parameter, base and declaration, in order. */
module ClangReader {
  import opened Common
  import opened Decimal
  import opened ClangTree
  import opened ClangEmitter

  // ---------------------------------------------------------------------
  // Text.

  /** `s` without the prefix `p`, when it starts with `p`. */
  function StripPrefix(p: string, s: string): (r: Option<string>)
    ensures r.Some? <==> |p| <= |s| && s[..|p|] == p
    ensures r.Some? ==> s == p + r.value
  {
    if |p| <= |s| && s[..|p|] == p then Some(s[|p|..]) else None
  }

  lemma StripPrefixOf(p: string, x: string)
    ensures StripPrefix(p, p + x) == Some(x)
  {
    assert (p + x)[..|p|] == p;
    assert (p + x)[|p|..] == x;
  }

  /** `s` without the suffix `p`, when it ends with `p`. */
  function StripSuffix(s: string, p: string): (r: Option<string>)
    ensures r.Some? <==> |p| <= |s| && s[|s| - |p|..] == p
    ensures r.Some? ==> s == r.value + p
  {
    if |p| <= |s| && s[|s| - |p|..] == p then Some(s[..|s| - |p|]) else None
  }

  lemma StripSuffixOf(x: string, p: string)
    ensures StripSuffix(x + p, p) == Some(x)
  {
    assert (x + p)[|x + p| - |p|..] == p;
    assert (x + p)[..|x + p| - |p|] == x;
  }

  /** The value of a `<key><value>` line at depth `d`. */
  function Value(d: nat, key: string, l: Line): (r: Option<string>)
    ensures r.Some? ==> l == Line(d, key + r.value)
  {
    if l.depth == d then StripPrefix(key, l.text) else None
  }

  lemma ValueOf(d: nat, key: string, x: string)
    ensures Value(d, key, Line(d, key + x)) == Some(x)
  {
    StripPrefixOf(key, x);
  }

  /** A number written in decimal. */
  function ReadNumber(s: string): (r: Option<nat>)
    ensures r.Some? ==> |s| > 0
  {
    if |s| > 0 && forall i :: 0 <= i < |s| ==> IsDigit(s[i]) then Some(DecimalValue(s)) else None
  }

  lemma ReadNumberOf(n: nat)
    ensures ReadNumber(NatToDecimal(n)) == Some(n)
  {
    DecimalRoundTrip(n);
  }

  /** A `<key><number>` line at depth `d`. */
  function NumberValue(d: nat, key: string, l: Line): Option<nat> {
    match Value(d, key, l)
    case Some(s) => ReadNumber(s)
    case None => None
  }

  lemma NumberValueOf(d: nat, key: string, n: nat)
    ensures NumberValue(d, key, Line(d, key + NatToDecimal(n))) == Some(n)
  {
    ValueOf(d, key, NatToDecimal(n));
    ReadNumberOf(n);
  }

  // ---------------------------------------------------------------------
  // Entries.

  /** An entry of a mapping or list: its line and the deeper lines under it. */
  datatype Chunk = Chunk(head: Line, body: seq<Line>)

  /** How many of the leading lines lie deeper than `k`. */
  function Deeper(k: nat, lines: seq<Line>): (n: nat)
    ensures n <= |lines|
    ensures AtLeast(lines[..n], k + 1)
    ensures n < |lines| ==> lines[n].depth <= k
    decreases |lines|
  {
    if |lines| == 0 || lines[0].depth <= k then 0
    else
      var n := 1 + Deeper(k, lines[1..]);
      assert forall j :: 1 <= j < n ==> lines[..n][j] == lines[1..][..n - 1][j - 1];
      n
  }

  /** Lines cut into entries at depth `k`: each line with the deeper lines
      that follow it. */
  function Entries(k: nat, lines: seq<Line>): seq<Chunk>
    decreases |lines|
  {
    if |lines| == 0 then []
    else
      var n := Deeper(k, lines[1..]);
      [Chunk(lines[0], lines[1..1 + n])] + Entries(k, lines[1 + n..])
  }

  /** Lines deeper than `k` followed by a line at `k` or shallower, or by
      nothing: the deeper run is exactly the first part. */
  lemma {:induction false} DeeperOf(k: nat, body: seq<Line>, rest: seq<Line>)
    requires AtLeast(body, k + 1)
    requires |rest| == 0 || rest[0].depth <= k
    ensures Deeper(k, body + rest) == |body|
    decreases |body|
  {
    if |body| == 0 {
      assert body + rest == rest;
    } else {
      assert (body + rest)[1..] == body[1..] + rest;
      DeeperOf(k, body[1..], rest);
    }
  }

  /** An entry: a line, the deeper lines under it, then lines that start
      the next entry. */
  lemma EntriesCons(k: nat, h: Line, body: seq<Line>, rest: seq<Line>)
    requires AtLeast(body, k + 1)
    requires |rest| == 0 || rest[0].depth <= k
    ensures Entries(k, [h] + body + rest) == [Chunk(h, body)] + Entries(k, rest)
  {
    var l := [h] + body + rest;
    assert l[1..] == body + rest;
    DeeperOf(k, body, rest);
    assert l[1..1 + |body|] == body;
    assert l[1 + |body|..] == rest;
  }

  /** The lines written after an entry do not change how it is cut, as
      long as they start a new entry. */
  lemma {:induction false} EntriesAppend(k: nat, a: seq<Line>, b: seq<Line>)
    requires |b| == 0 || b[0].depth <= k
    ensures Entries(k, a + b) == Entries(k, a) + Entries(k, b)
    decreases |a|
  {
    if |a| == 0 {
      assert a + b == b;
    } else {
      var n := Deeper(k, a[1..]);
      var body := a[1..1 + n];
      var rest := a[1 + n..];
      FirstEntry(k, a, n, body, rest);
      EntriesAppend(k, rest, b);
      AppendAfterFirst(k, a[0], body, rest, b);
    }
  }

  /** The first entry of `a`: its line, the deeper run, and the rest. */
  lemma FirstEntry(k: nat, a: seq<Line>, n: nat, body: seq<Line>, rest: seq<Line>)
    requires |a| > 0 && n == Deeper(k, a[1..])
    requires body == a[1..1 + n] && rest == a[1 + n..]
    ensures a == [a[0]] + body + rest
    ensures AtLeast(body, k + 1)
    ensures |rest| == 0 || rest[0].depth <= k
  {
    assert body == a[1..][..n];
    if |rest| > 0 {
      assert rest[0] == a[1..][n];
    }
  }

  /** Two runs that each open at depth `k` or above open so together. */
  lemma OpensConcat(k: nat, rest: seq<Line>, b: seq<Line>)
    requires |rest| == 0 || rest[0].depth <= k
    requires |b| == 0 || b[0].depth <= k
    ensures |rest + b| == 0 || (rest + b)[0].depth <= k
  {
    if |rest| > 0 {
      assert (rest + b)[0] == rest[0];
    }
  }

  /** Appending after the entries of `[h] + body + rest`, where the rest
      already splits apart from what follows. */
  lemma AppendAfterFirst(k: nat, h: Line, body: seq<Line>, rest: seq<Line>, b: seq<Line>)
    requires AtLeast(body, k + 1)
    requires |rest| == 0 || rest[0].depth <= k
    requires |b| == 0 || b[0].depth <= k
    requires Entries(k, rest + b) == Entries(k, rest) + Entries(k, b)
    ensures Entries(k, [h] + body + rest + b) == Entries(k, [h] + body + rest) + Entries(k, b)
  {
    var c := [Chunk(h, body)];
    ConcatAssoc([h] + body, rest, b);
    OpensConcat(k, rest, b);
    EntriesCons(k, h, body, rest);
    EntriesCons(k, h, body, rest + b);
    ChunksAssoc(c, Entries(k, rest), Entries(k, b));
  }

  /** The first entry starts at the first line. */
  lemma EntriesHead(k: nat, lines: seq<Line>)
    requires |lines| > 0
    ensures |Entries(k, lines)| > 0 && Entries(k, lines)[0].head == lines[0]
  {
  }

  lemma ChunksAssoc(x: seq<Chunk>, y: seq<Chunk>, z: seq<Chunk>)
    ensures x + (y + z) == (x + y) + z
  {
  }

  /** One entry: a line with deeper lines under it. */
  lemma EntriesOne(k: nat, h: Line, body: seq<Line>)
    requires AtLeast(body, k + 1)
    ensures Entries(k, [h] + body) == [Chunk(h, body)]
  {
    var none: seq<Line> := [];
    EntriesCons(k, h, body, none);
    assert [h] + body + none == [h] + body;
  }

  /** Lines whose entries start at `d` or shallower start there. */
  lemma Opens(d: nat, x: seq<Line>, cs: seq<Chunk>)
    requires Entries(d, x) == cs
    requires |cs| > 0 ==> cs[0].head.depth <= d
    ensures |x| == 0 || x[0].depth <= d
  {
    if |x| > 0 {
      EntriesHead(d, x);
    }
  }

  /** Two runs of entries written one after the other. */
  lemma EntriesJoin(d: nat, a: seq<Line>, b: seq<Line>, ca: seq<Chunk>, cb: seq<Chunk>)
    requires Entries(d, a) == ca && Entries(d, b) == cb
    requires |cb| > 0 ==> cb[0].head.depth <= d
    ensures Entries(d, a + b) == ca + cb
  {
    Opens(d, b, cb);
    EntriesAppend(d, a, b);
  }

  // ---------------------------------------------------------------------
  // Attributes.

  /** The attribute entries below `attrs:` at indentation `k`. */
  function ReadAttrEntries(k: nat, lines: seq<Line>): Option<seq<Attr>>
    decreases |lines|
  {
    if |lines| < 2 || lines[0] != Line(k + 1, "-") then
      (if |lines| == 0 then Some([]) else None)
    else match Value(k + 2, "name: ", lines[1])
      case None => None
      case Some(name) =>
        var value := if |lines| > 2 then Value(k + 2, "value: ", lines[2]) else None;
        var skip := if value.Some? then 3 else 2;
        match ReadAttrEntries(k, lines[skip..])
        case None => None
        case Some(rest) => Some([Attr(name, value)] + rest)
  }

  /** An attribute block: `attrs:` and the entries. */
  function ReadAttrs(k: nat, lines: seq<Line>): Option<seq<Attr>> {
    if |lines| > 0 && lines[0] == Line(k, "attrs:") then ReadAttrEntries(k, lines[1..]) else None
  }

  lemma {:induction false} AttrEntriesRoundTrip(k: nat, attrs: seq<Attr>)
    ensures ReadAttrEntries(k, AttrEntries(k, attrs)) == Some(attrs)
    decreases |attrs|
  {
    if |attrs| > 0 {
      AttrEntriesRoundTrip(k, attrs[1..]);
      AttrEntryRead(k, attrs[0], AttrEntries(k, attrs[1..]), attrs[1..]);
      assert [attrs[0]] + attrs[1..] == attrs;
    }
  }

  /** One attribute entry read back ahead of the others. */
  lemma AttrEntryRead(k: nat, a: Attr, rest: seq<Line>, more: seq<Attr>)
    requires ReadAttrEntries(k, rest) == Some(more)
    ensures ReadAttrEntries(k, AttrEntry(k, a) + rest) == Some([a] + more)
  {
    var lines := AttrEntry(k, a) + rest;
    ValueOf(k + 2, "name: ", a.spelling);
    if a.annotation.Some? {
      ValueOf(k + 2, "value: ", a.annotation.value);
      assert lines[3..] == rest;
    } else {
      assert lines[2..] == rest;
      if |rest| > 0 {
        assert rest[0] == Line(k + 1, "-");
      }
    }
  }

  /** `_HandleAttrs` loses nothing: every attribute's spelling and, for an
      annotation, its value, in order, are read back from the block. */
  lemma AttrsRoundTrip(k: nat, attrs: seq<Attr>)
    ensures ReadAttrs(k, AttrsText(k, attrs)) == Some(attrs)
  {
    AttrEntriesRoundTrip(k, attrs);
    assert AttrsText(k, attrs)[1..] == AttrEntries(k, attrs);
  }

  /** Entries appended one at a time are cut back one at a time. */
  lemma EntriesSnoc(k: nat, before: seq<Line>, h: Line, body: seq<Line>)
    requires h.depth <= k && AtLeast(body, k + 1)
    ensures Entries(k, before + ([h] + body)) == Entries(k, before) + [Chunk(h, body)]
  {
    EntriesOne(k, h, body);
    EntriesAppend(k, before, [h] + body);
  }

  /** The attribute entries lie one and two levels below `attrs:`. */
  lemma {:induction false} AttrEntriesBelow(k: nat, attrs: seq<Attr>)
    ensures AtLeast(AttrEntries(k, attrs), k + 1)
    decreases |attrs|
  {
    if |attrs| > 0 {
      AttrEntriesBelow(k, attrs[1..]);
      AtLeastConcat(AttrEntry(k, attrs[0]), AttrEntries(k, attrs[1..]), k + 1);
    }
  }

  // ---------------------------------------------------------------------
  // Lists of entries.

  /** Every entry read in turn by `read`, which is given the entry's
      position; nothing when any of them does not read. */
  function ReadEach<T>(cs: seq<Chunk>, read: (nat, Chunk) -> Option<T>): (r: Option<seq<T>>)
    ensures r.Some? ==> |r.value| == |cs|
    decreases |cs|
  {
    if |cs| == 0 then Some([])
    else match (ReadEach(cs[..|cs| - 1], read), read(|cs| - 1, cs[|cs| - 1]))
      case (Some(xs), Some(x)) => Some(xs + [x])
      case _ => None
  }

  /** Entries that each read back as the matching value read back as all
      the values, in order. */
  lemma {:induction false} ReadEachOf<T>(cs: seq<Chunk>, read: (nat, Chunk) -> Option<T>, xs: seq<T>)
    requires |cs| == |xs|
    requires forall i :: 0 <= i < |cs| ==> read(i, cs[i]) == Some(xs[i])
    ensures ReadEach(cs, read) == Some(xs)
    decreases |cs|
  {
    if |cs| > 0 {
      var n := |cs| - 1;
      ReadEachOf(cs[..n], read, xs[..n]);
      assert xs[..n] + [xs[n]] == xs;
    }
  }

  // ---------------------------------------------------------------------
  // Parameters, fields and bases.

  /** A parameter's entry below indentation `k`. */
  function ReadParam(k: nat, lines: seq<Line>): Option<ParamD> {
    if |lines| < 2 then None
    else match (Value(k + 1, "name: ", lines[0]), Value(k + 1, "type: ", lines[1]), ReadAttrs(k + 1, lines[2..]))
      case (Some(name), Some(ty), Some(attrs)) => Some(ParamD(name, ty, attrs))
      case _ => None
  }

  /** `_HandleParamDecl` loses nothing: the name, type and attributes are
      read back from the entry. */
  lemma ParamRoundTrip(k: nat, p: ParamD)
    ensures ReadParam(k, ParamText(k, p)) == Some(p)
  {
    ValueOf(k + 1, "name: ", p.name);
    ValueOf(k + 1, "type: ", p.ty);
    AttrsRoundTrip(k + 1, p.attrs);
    assert ParamText(k, p)[2..] == AttrsText(k + 1, p.attrs);
  }

  /** One `- !compex/param` item of an `args:` scope. */
  function ParamReader(k: nat): (nat, Chunk) -> Option<ParamD> {
    (i: nat, c: Chunk) => if c.head == Line(k, "- !compex/param") then ReadParam(k, c.body) else None
  }

  /** The parameter items of an `args:` scope. */
  function ReadParams(k: nat, lines: seq<Line>): Option<seq<ParamD>> {
    ReadEach(Entries(k, lines), ParamReader(k))
  }

  /** The parameter items as entries: `- !compex/param` over each
      parameter's entry. */
  function ParamChunks(k: nat, ps: seq<ParamD>): (r: seq<Chunk>)
    ensures |r| == |ps|
    ensures forall i :: 0 <= i < |ps| ==> r[i] == Chunk(Line(k, "- !compex/param"), ParamText(k, ps[i]))
    decreases |ps|
  {
    if |ps| == 0 then [] else ParamChunks(k, ps[..|ps| - 1]) + [Chunk(Line(k, "- !compex/param"), ParamText(k, ps[|ps| - 1]))]
  }

  /** The parameter items split back into one entry per parameter. */
  lemma {:induction false} ParamsEntries(k: nat, ps: seq<ParamD>)
    ensures Entries(k, ParamsText(k, ps)) == ParamChunks(k, ps)
    decreases |ps|
  {
    if |ps| > 0 {
      var n := |ps| - 1;
      ParamsEntries(k, ps[..n]);
      ParamBelow(k, ps[n]);
      EntriesSnoc(k, ParamsText(k, ps[..n]), Line(k, "- !compex/param"), ParamText(k, ps[n]));
    }
  }

  lemma ParamBelow(k: nat, p: ParamD)
    ensures AtLeast(ParamText(k, p), k + 1)
  {
    ParamTextShape(k, p);
  }

  /** The parameter loop loses nothing: the items split back into one entry
      per parameter, in order, and each reads back as its parameter. */
  lemma ParamsRoundTrip(k: nat, ps: seq<ParamD>)
    ensures ReadParams(k, ParamsText(k, ps)) == Some(ps)
  {
    var cs := ParamChunks(k, ps);
    ParamsEntries(k, ps);
    forall i | 0 <= i < |cs|
      ensures ParamReader(k)(i, cs[i]) == Some(ps[i])
    {
      ParamRoundTrip(k, ps[i]);
    }
    ReadEachOf(cs, ParamReader(k), ps);
  }

  /** A field's entry below indentation `k`. */
  function ReadField(k: nat, lines: seq<Line>): Option<FieldD> {
    if |lines| < 5 then None
    else match (Value(k + 1, "name: ", lines[0]), Value(k + 1, "type: ", lines[1]),
                NumberValue(k + 1, "size: ", lines[2]), NumberValue(k + 1, "align: ", lines[3]),
                NumberValue(k + 1, "offset: ", lines[4]), ReadAttrs(k + 1, lines[5..]))
      case (Some(name), Some(ty), Some(size), Some(align), Some(offset), Some(attrs)) =>
        Some(FieldD(name, ty, size, align, offset, attrs))
      case _ => None
  }

  /** `_HandleFieldDecl` loses nothing: the name, type, size, alignment,
      offset and attributes are read back from the entry. */
  lemma FieldRoundTrip(k: nat, f: FieldD)
    ensures ReadField(k, FieldText(k, f)) == Some(f)
  {
    ValueOf(k + 1, "name: ", f.name);
    ValueOf(k + 1, "type: ", f.ty);
    NumberValueOf(k + 1, "size: ", f.size);
    NumberValueOf(k + 1, "align: ", f.align);
    NumberValueOf(k + 1, "offset: ", f.offset);
    AttrsRoundTrip(k + 1, f.attrs);
    assert FieldText(k, f)[5..] == AttrsText(k + 1, f.attrs);
  }

  /** A field's slot line: its name. */
  function ReadFieldSlot(k: nat, l: Line): Option<string> {
    if l.depth == k then StripSuffix(l.text, ": !compex/field") else None
  }

  /** One field entry: the slot must name the field it holds. */
  function ReadFieldChunk(k: nat, c: Chunk): Option<FieldD> {
    match (ReadFieldSlot(k, c.head), ReadField(k, c.body))
    case (Some(name), Some(f)) => if name == f.name then Some(f) else None
    case _ => None
  }

  lemma FieldChunkRoundTrip(k: nat, f: FieldD)
    ensures ReadFieldChunk(k, Chunk(FieldSlot(k, f), FieldText(k, f))) == Some(f)
  {
    StripSuffixOf(f.name, ": !compex/field");
    FieldRoundTrip(k, f);
  }

  function FieldReader(k: nat): (nat, Chunk) -> Option<FieldD> {
    (i: nat, c: Chunk) => ReadFieldChunk(k, c)
  }

  /** The field entries: each field's slot over its entry. */
  function FieldChunks(k: nat, fs: seq<FieldD>): (r: seq<Chunk>)
    ensures |r| == |fs|
    ensures forall i :: 0 <= i < |fs| ==> r[i] == Chunk(FieldSlot(k, fs[i]), FieldText(k, fs[i]))
    decreases |fs|
  {
    if |fs| == 0 then [] else FieldChunks(k, fs[..|fs| - 1]) + [Chunk(FieldSlot(k, fs[|fs| - 1]), FieldText(k, fs[|fs| - 1]))]
  }

  /** The field entries split back into one entry per field. */
  lemma {:induction false} FieldsEntries(k: nat, fs: seq<FieldD>)
    ensures Entries(k, FieldsText(k, fs)) == FieldChunks(k, fs)
    decreases |fs|
  {
    if |fs| > 0 {
      var n := |fs| - 1;
      FieldsEntries(k, fs[..n]);
      FieldBelow(k, fs[n]);
      EntriesSnoc(k, FieldsText(k, fs[..n]), FieldSlot(k, fs[n]), FieldText(k, fs[n]));
    }
  }

  lemma FieldBelow(k: nat, f: FieldD)
    ensures AtLeast(FieldText(k, f), k + 1)
  {
    FieldTextShape(k, f);
  }

  /** The field entries read back as the fields, in declaration order. */
  lemma FieldChunksRead(k: nat, fs: seq<FieldD>)
    ensures ReadEach(FieldChunks(k, fs), FieldReader(k)) == Some(fs)
  {
    var cs := FieldChunks(k, fs);
    forall i | 0 <= i < |cs|
      ensures FieldReader(k)(i, cs[i]) == Some(fs[i])
    {
      FieldChunkRoundTrip(k, fs[i]);
    }
    ReadEachOf(cs, FieldReader(k), fs);
  }

  /** The field loop loses nothing: the entries split back into one per
      field, in declaration order, each slot naming its field. */
  lemma FieldsRoundTrip(k: nat, fs: seq<FieldD>)
    ensures ReadEach(Entries(k, FieldsText(k, fs)), FieldReader(k)) == Some(fs)
  {
    FieldsEntries(k, fs);
    FieldChunksRead(k, fs);
  }

  /** A base's entry below indentation `k`. */
  function ReadBase(k: nat, lines: seq<Line>): Option<BaseSpec> {
    if |lines| == 0 || |lines| > 2 then None
    else match Value(k + 1, "type: ", lines[0])
      case None => None
      case Some(ty) =>
        if |lines| == 1 then Some(BaseSpec(ty, false))
        else if lines[1] == Line(k + 1, "virtual: true") then Some(BaseSpec(ty, true))
        else None
  }

  /** `_HandleBaseSpecifier` loses nothing: the type and whether the base
      is virtual are read back from the entry. */
  lemma BaseRoundTrip(k: nat, b: BaseSpec)
    ensures ReadBase(k, BaseText(k, b)) == Some(b)
  {
    ValueOf(k + 1, "type: ", b.ty);
  }

  /** A base slot's number. */
  function ReadBaseSlot(k: nat, l: Line): Option<nat> {
    if l.depth != k then None
    else match StripPrefix("base_", l.text)
      case None => None
      case Some(s) =>
        match StripSuffix(s, "$: !compex/base")
        case None => None
        case Some(num) => ReadNumber(num)
  }

  lemma BaseSlotRoundTrip(k: nat, i: nat)
    ensures ReadBaseSlot(k, BaseSlot(k, i)) == Some(i)
  {
    var num := NatToDecimal(i);
    assert BaseSlot(k, i).text == "base_" + (num + "$: !compex/base");
    StripPrefixOf("base_", num + "$: !compex/base");
    StripSuffixOf(num, "$: !compex/base");
    ReadNumberOf(i);
  }

  /** One base entry: its slot must carry its position. */
  function BaseReader(k: nat): (nat, Chunk) -> Option<BaseSpec> {
    (i: nat, c: Chunk) => if ReadBaseSlot(k, c.head) == Some(i) then ReadBase(k, c.body) else None
  }

  /** The base entries: `base_<i>$` over each base's entry. */
  function BaseChunks(k: nat, bs: seq<BaseSpec>): (r: seq<Chunk>)
    ensures |r| == |bs|
    ensures forall i :: 0 <= i < |bs| ==> r[i] == Chunk(BaseSlot(k, i), BaseText(k, bs[i]))
    decreases |bs|
  {
    if |bs| == 0 then [] else BaseChunks(k, bs[..|bs| - 1]) + [Chunk(BaseSlot(k, |bs| - 1), BaseText(k, bs[|bs| - 1]))]
  }

  /** The base entries split back into one entry per base. */
  lemma {:induction false} BasesEntries(k: nat, bs: seq<BaseSpec>)
    ensures Entries(k, BasesText(k, bs)) == BaseChunks(k, bs)
    decreases |bs|
  {
    if |bs| > 0 {
      var n := |bs| - 1;
      var body := BaseText(k, bs[n]);
      BasesEntries(k, bs[..n]);
      assert AllAt(body, k + 1);
      EntriesSnoc(k, BasesText(k, bs[..n]), BaseSlot(k, n), body);
    }
  }

  /** The base entries read back as the bases, numbered from 0. */
  lemma BaseChunksRead(k: nat, bs: seq<BaseSpec>)
    ensures ReadEach(BaseChunks(k, bs), BaseReader(k)) == Some(bs)
  {
    var cs := BaseChunks(k, bs);
    forall i | 0 <= i < |cs|
      ensures BaseReader(k)(i, cs[i]) == Some(bs[i])
    {
      BaseSlotRoundTrip(k, i);
      BaseRoundTrip(k, bs[i]);
    }
    ReadEachOf(cs, BaseReader(k), bs);
  }

  /** The base loop loses nothing: the entries split back into one per
      base, in order, numbered from 0. */
  lemma BasesRoundTrip(k: nat, bs: seq<BaseSpec>)
    ensures ReadEach(Entries(k, BasesText(k, bs)), BaseReader(k)) == Some(bs)
  {
    BasesEntries(k, bs);
    BaseChunksRead(k, bs);
  }

  // ---------------------------------------------------------------------
  // Functions.

  /** What a function entry records of a function: its name, the keys that
      hold for it in the order they are written, its parameters and its
      attributes. */
  datatype FunctionView = FunctionView(name: string, keys: seq<Key>, params: seq<ParamD>, attrs: seq<Attr>)

  function ViewOf(f: FunctionD): FunctionView {
    FunctionView(f.name, FunctionKeys(f), f.params, f.attrs)
  }

  /** A key line: a line at `d` with nothing under it. */
  function KeyReader(d: nat): (nat, Chunk) -> Option<Key> {
    (i: nat, c: Chunk) => if c.head.depth == d && c.body == [] then KeyOfText(c.head.text) else None
  }

  /** The key lines as entries, each with nothing under it. */
  function KeyChunks(d: nat, keys: seq<Key>): (r: seq<Chunk>)
    ensures |r| == |keys|
    ensures forall i :: 0 <= i < |keys| ==> r[i] == Chunk(Line(d, KeyText(keys[i])), [])
  {
    if |keys| == 0 then [] else [Chunk(Line(d, KeyText(keys[0])), [])] + KeyChunks(d, keys[1..])
  }

  /** Key lines split into one entry per key. */
  lemma {:induction false} KeyEntries(d: nat, keys: seq<Key>)
    ensures Entries(d, KeyLines(d, keys)) == KeyChunks(d, keys)
  {
    if |keys| > 0 {
      var rest := KeyLines(d, keys[1..]);
      var none: seq<Line> := [];
      KeyEntries(d, keys[1..]);
      EntriesCons(d, Line(d, KeyText(keys[0])), none, rest);
      assert [Line(d, KeyText(keys[0]))] + none + rest == KeyLines(d, keys);
    }
  }

  /** A `name:` line with nothing under it. */
  function NameChunk(d: nat, c: Chunk): Option<string> {
    if c.body == [] then Value(d, "name: ", c.head) else None
  }

  /** `args:` with the parameter items under it. */
  function ArgsChunk(d: nat, c: Chunk): Option<seq<ParamD>> {
    if c.head == Line(d, "args:") then ReadParams(d + 1, c.body) else None
  }

  /** `attrs:` with the attribute entries under it. */
  function AttrsChunk(d: nat, c: Chunk): Option<seq<Attr>> {
    if c.head == Line(d, "attrs:") then ReadAttrEntries(d, c.body) else None
  }

  /** A function's entries one level below `k`: `name:`, the keys, `args:`
      and `attrs:`, in that order. */
  function ReadFunctionChunks(k: nat, cs: seq<Chunk>): Option<FunctionView> {
    if |cs| < 3 then None
    else
      var n := |cs|;
      match (NameChunk(k + 1, cs[0]), ReadEach(cs[1..n - 2], KeyReader(k + 1)),
             ArgsChunk(k + 1, cs[n - 2]), AttrsChunk(k + 1, cs[n - 1]))
      case (Some(name), Some(keys), Some(ps), Some(attrs)) => Some(FunctionView(name, keys, ps, attrs))
      case _ => None
  }

  /** A function's entry below indentation `k`. */
  function ReadFunction(k: nat, lines: seq<Line>): Option<FunctionView> {
    ReadFunctionChunks(k, Entries(k + 1, lines))
  }

  /** A function's entry splits into `name:`, one entry per key, `args:`
      holding the parameter items, and `attrs:` holding the attributes. */
  lemma FunctionEntries(k: nat, f: FunctionD)
    ensures Entries(k + 1, FunctionText(k, f)) ==
            [Chunk(Line(k + 1, "name: " + f.name), [])] + KeyChunks(k + 1, FunctionKeys(f))
              + [Chunk(Line(k + 1, "args:"), ParamsText(k + 2, f.params))]
              + [Chunk(Line(k + 1, "attrs:"), AttrEntries(k + 1, f.attrs))]
  {
    var d := k + 1;
    var name := Line(d, "name: " + f.name);
    var keys := KeyLines(d, FunctionKeys(f));
    var params := ParamsText(d + 1, f.params);
    var head := [name] + keys;
    var args := [Line(d, "args:")] + params;
    var attrs := AttrsText(d, f.attrs);
    var hc := [Chunk(name, [])] + KeyChunks(d, FunctionKeys(f));
    var ac := [Chunk(Line(d, "args:"), params)];
    var tc := [Chunk(Line(d, "attrs:"), AttrEntries(d, f.attrs))];
    ConcatAssoc(head, [Line(d, "args:")], params);
    assert FunctionText(k, f) == (head + args) + attrs;
    HeadEntries(d, name, FunctionKeys(f));
    ParamsTextShape(d + 1, f.params);
    EntriesOne(d, Line(d, "args:"), params);
    EntriesJoin(d, head, args, hc, ac);
    AttrEntriesBelow(d, f.attrs);
    EntriesOne(d, Line(d, "attrs:"), AttrEntries(d, f.attrs));
    EntriesJoin(d, head + args, attrs, hc + ac, tc);
  }

  /** A line with nothing under it followed by key lines. */
  lemma HeadEntries(d: nat, name: Line, keys: seq<Key>)
    requires name.depth == d
    ensures Entries(d, [name] + KeyLines(d, keys)) == [Chunk(name, [])] + KeyChunks(d, keys)
  {
    var none: seq<Line> := [];
    KeyEntries(d, keys);
    EntriesCons(d, name, none, KeyLines(d, keys));
    assert [name] + none + KeyLines(d, keys) == [name] + KeyLines(d, keys);
  }

  lemma KeyChunksRead(d: nat, keys: seq<Key>)
    ensures ReadEach(KeyChunks(d, keys), KeyReader(d)) == Some(keys)
  {
    var kc := KeyChunks(d, keys);
    forall i | 0 <= i < |kc|
      ensures KeyReader(d)(i, kc[i]) == Some(keys[i])
    {
      KeyRoundTrip(keys[i]);
    }
    ReadEachOf(kc, KeyReader(d), keys);
  }

  /** The four parts of a function's entry read back as its view. */
  lemma FunctionChunksRead(k: nat, cs: seq<Chunk>, name: Chunk, kc: seq<Chunk>, args: Chunk, attrs: Chunk, v: FunctionView)
    requires cs == [name] + kc + [args] + [attrs]
    requires NameChunk(k + 1, name) == Some(v.name)
    requires ReadEach(kc, KeyReader(k + 1)) == Some(v.keys)
    requires ArgsChunk(k + 1, args) == Some(v.params)
    requires AttrsChunk(k + 1, attrs) == Some(v.attrs)
    ensures ReadFunctionChunks(k, cs) == Some(v)
  {
    assert cs[0] == name && cs[|cs| - 2] == args && cs[|cs| - 1] == attrs;
    assert cs[1..|cs| - 2] == kc;
  }

  /** `_HandleFunctionDecl` loses nothing a function entry records: the
      name, the keys in order, the parameters and the attributes are read
      back. */
  lemma FunctionRoundTrip(k: nat, f: FunctionD)
    ensures ReadFunction(k, FunctionText(k, f)) == Some(ViewOf(f))
  {
    var d := k + 1;
    FunctionEntries(k, f);
    ValueOf(d, "name: ", f.name);
    KeyChunksRead(d, FunctionKeys(f));
    ParamsRoundTrip(d + 1, f.params);
    AttrEntriesRoundTrip(d, f.attrs);
    FunctionChunksRead(k, Entries(d, FunctionText(k, f)),
      Chunk(Line(d, "name: " + f.name), []), KeyChunks(d, FunctionKeys(f)),
      Chunk(Line(d, "args:"), ParamsText(d + 1, f.params)),
      Chunk(Line(d, "attrs:"), AttrEntries(d, f.attrs)), ViewOf(f));
  }

  // ---------------------------------------------------------------------
  // Methods.

  /** A method slot's number. */
  function ReadMethodSlot(k: nat, l: Line): Option<nat> {
    if l.depth != k then None
    else match StripPrefix("method_", l.text)
      case None => None
      case Some(s) =>
        match StripSuffix(s, "$: !compex/method")
        case None => None
        case Some(num) => ReadNumber(num)
  }

  lemma MethodSlotRoundTrip(k: nat, i: nat)
    ensures ReadMethodSlot(k, MethodSlot(k, i)) == Some(i)
  {
    var num := NatToDecimal(i);
    assert MethodSlot(k, i).text == "method_" + (num + "$: !compex/method");
    StripPrefixOf("method_", num + "$: !compex/method");
    StripSuffixOf(num, "$: !compex/method");
    ReadNumberOf(i);
  }

  /** One method entry of a run numbered on from `from`: its slot must
      carry its number. */
  function MethodReader(k: nat, from: nat): (nat, Chunk) -> Option<FunctionView> {
    (i: nat, c: Chunk) => ReadMethod(k, from, i, c)
  }

  /** Method entry `i` of a run numbered on from `from`. */
  function ReadMethod(k: nat, from: nat, i: nat, c: Chunk): Option<FunctionView> {
    if ReadMethodSlot(k, c.head) == Some(from + i) then ReadFunction(k, c.body) else None
  }

  /** The method entries numbered on from `from`: `method_<n>$` over each
      function's entry. */
  function MethodChunks(k: nat, from: nat, fs: seq<FunctionD>): (r: seq<Chunk>)
    ensures |r| == |fs|
    decreases |fs|
  {
    if |fs| == 0 then []
    else MethodChunks(k, from, fs[..|fs| - 1]) + [Chunk(MethodSlot(k, from + |fs| - 1), FunctionText(k, fs[|fs| - 1]))]
  }

  /** The entry of method number `from + i`. */
  lemma {:induction false} MethodChunkAt(k: nat, from: nat, fs: seq<FunctionD>, i: nat)
    requires i < |fs|
    ensures MethodChunks(k, from, fs)[i] == Chunk(MethodSlot(k, from + i), FunctionText(k, fs[i]))
    decreases |fs|
  {
    var init := fs[..|fs| - 1];
    if i < |init| {
      MethodChunkAt(k, from, init, i);
      assert init[i] == fs[i];
    }
    MethodChunksLast(k, from, fs);
    SnocAt(MethodChunks(k, from, fs), MethodChunks(k, from, init),
           Chunk(MethodSlot(k, from + |fs| - 1), FunctionText(k, fs[|fs| - 1])), i,
           Chunk(MethodSlot(k, from + i), FunctionText(k, fs[i])));
  }

  /** Item `i` of a run with one item appended. */
  lemma SnocAt<T>(c: seq<T>, ci: seq<T>, x: T, i: nat, y: T)
    requires c == ci + [x] && i < |c|
    requires i < |ci| ==> ci[i] == y
    requires i == |ci| ==> x == y
    ensures c[i] == y
  {
  }

  /** The views of functions, in order. */
  function Views(fs: seq<FunctionD>): (r: seq<FunctionView>)
    ensures |r| == |fs|
    ensures forall i :: 0 <= i < |fs| ==> r[i] == ViewOf(fs[i])
  {
    if |fs| == 0 then [] else [ViewOf(fs[0])] + Views(fs[1..])
  }

  lemma FunctionBelow(k: nat, f: FunctionD)
    ensures AtLeast(FunctionText(k, f), k + 1)
  {
    FunctionTextShape(k, f);
  }

  /** The method entries split back into one entry per function. */
  lemma {:induction false} MethodsEntries(k: nat, from: nat, fs: seq<FunctionD>)
    ensures Entries(k, MethodsText(k, from, fs)) == MethodChunks(k, from, fs)
    decreases |fs|
  {
    if |fs| > 0 {
      MethodsEntries(k, from, fs[..|fs| - 1]);
      MethodEntryAppend(k, from, fs);
    }
  }

  /** The last function's entry appended to the method entries of the
      others. */
  lemma MethodEntryAppend(k: nat, from: nat, fs: seq<FunctionD>)
    requires |fs| > 0
    requires Entries(k, MethodsText(k, from, fs[..|fs| - 1])) == MethodChunks(k, from, fs[..|fs| - 1])
    ensures Entries(k, MethodsText(k, from, fs)) == MethodChunks(k, from, fs)
  {
    var init := fs[..|fs| - 1];
    var slot := MethodSlot(k, from + |fs| - 1);
    var body := FunctionText(k, fs[|fs| - 1]);
    MethodsTextLast(k, from, fs);
    MethodChunksLast(k, from, fs);
    FunctionBelow(k, fs[|fs| - 1]);
    EntriesStep(k, MethodsText(k, from, fs), MethodsText(k, from, init), MethodChunks(k, from, fs), MethodChunks(k, from, init),
                slot, body);
  }

  /** One more entry at the end of lines already split into entries. */
  lemma EntriesStep(k: nat, t: seq<Line>, ti: seq<Line>, c: seq<Chunk>, ci: seq<Chunk>, h: Line, body: seq<Line>)
    requires t == ti + ([h] + body) && c == ci + [Chunk(h, body)]
    requires Entries(k, ti) == ci
    requires h.depth <= k && AtLeast(body, k + 1)
    ensures Entries(k, t) == c
  {
    EntriesSnoc(k, ti, h, body);
  }

  /** The last function's entry closes the method entries. */
  lemma MethodChunksLast(k: nat, from: nat, fs: seq<FunctionD>)
    requires |fs| > 0
    ensures MethodChunks(k, from, fs) ==
            MethodChunks(k, from, fs[..|fs| - 1]) + [Chunk(MethodSlot(k, from + |fs| - 1), FunctionText(k, fs[|fs| - 1]))]
  {
  }

  /** An entry under a slot carrying the right number that reads as a
      function's view. */
  lemma MethodChunkOf(k: nat, from: nat, i: nat, c: Chunk, v: FunctionView)
    requires ReadMethodSlot(k, c.head) == Some(from + i)
    requires ReadFunction(k, c.body) == Some(v)
    ensures MethodReader(k, from)(i, c) == Some(v)
  {
    assert ReadMethod(k, from, i, c) == Some(v);
  }

  /** One method entry reads back as its function's view. */
  lemma MethodChunkRoundTrip(k: nat, from: nat, i: nat, f: FunctionD)
    ensures MethodReader(k, from)(i, Chunk(MethodSlot(k, from + i), FunctionText(k, f))) == Some(ViewOf(f))
  {
    MethodSlotRoundTrip(k, from + i);
    FunctionRoundTrip(k, f);
    MethodChunkOf(k, from, i, Chunk(MethodSlot(k, from + i), FunctionText(k, f)), ViewOf(f));
  }

  /** The method entries read back as the functions' views, numbered on
      from `from`. */
  lemma MethodChunksRead(k: nat, from: nat, fs: seq<FunctionD>)
    ensures ReadEach(MethodChunks(k, from, fs), MethodReader(k, from)) == Some(Views(fs))
  {
    var cs := MethodChunks(k, from, fs);
    var vs := Views(fs);
    forall i | 0 <= i < |cs|
      ensures MethodReader(k, from)(i, cs[i]) == Some(vs[i])
    {
      MethodChunkAt(k, from, fs, i);
      MethodChunkRoundTrip(k, from, i, fs[i]);
    }
    ReadEachOf(cs, MethodReader(k, from), vs);
  }

  /** The last function's entry closes a run of method entries. */
  lemma MethodsTextLast(k: nat, from: nat, fs: seq<FunctionD>)
    requires |fs| > 0
    ensures MethodsText(k, from, fs) ==
            MethodsText(k, from, fs[..|fs| - 1]) + ([MethodSlot(k, from + |fs| - 1)] + FunctionText(k, fs[|fs| - 1]))
  {
  }

  /** Appending one item to the second of two runs appends it to their
      concatenation. */
  lemma SnocJoin<T>(cs: seq<T>, ms: seq<T>)
    requires |ms| > 0
    ensures (cs + ms)[..|cs + ms| - 1] == cs + ms[..|ms| - 1]
    ensures (cs + ms)[|cs + ms| - 1] == ms[|ms| - 1]
  {
  }

  lemma JoinStep(x: seq<Line>, y: seq<Line>, yi: seq<Line>, z: seq<Line>, zi: seq<Line>, tail: seq<Line>)
    requires y == yi + tail && z == zi + tail && x + yi == zi
    ensures x + y == z
  {
    ConcatAssoc(x, yi, tail);
  }

  /** The constructor loop and the method loop, sharing one counter,
      write what one loop over the constructors then the methods would. */
  lemma {:induction false} MethodRunsJoin(k: nat, cs: seq<FunctionD>, ms: seq<FunctionD>)
    ensures MethodsText(k, 0, cs) + MethodsText(k, |cs|, ms) == MethodsText(k, 0, cs + ms)
    decreases |ms|
  {
    if |ms| == 0 {
      assert cs + ms == cs;
    } else {
      var init := ms[..|ms| - 1];
      MethodRunsJoin(k, cs, init);
      var tail := [MethodSlot(k, |cs| + |ms| - 1)] + FunctionText(k, ms[|ms| - 1]);
      MethodsTextLast(k, |cs|, ms);
      JoinedLast(k, cs, ms);
      JoinStep(MethodsText(k, 0, cs), MethodsText(k, |cs|, ms), MethodsText(k, |cs|, init),
               MethodsText(k, 0, cs + ms), MethodsText(k, 0, cs + init), tail);
    }
  }

  /** The last method's entry closes the joined run. */
  lemma JoinedLast(k: nat, cs: seq<FunctionD>, ms: seq<FunctionD>)
    requires |ms| > 0
    ensures MethodsText(k, 0, cs + ms) ==
            MethodsText(k, 0, cs + ms[..|ms| - 1]) + ([MethodSlot(k, |cs| + |ms| - 1)] + FunctionText(k, ms[|ms| - 1]))
  {
    MethodsTextLast(k, 0, cs + ms);
    SnocJoin(cs, ms);
  }

  /** The views of two runs of functions, one after the other. */
  lemma ViewsJoin(cs: seq<FunctionD>, ms: seq<FunctionD>)
    ensures Views(cs + ms) == Views(cs) + Views(ms)
  {
    var l := Views(cs + ms);
    var r := Views(cs) + Views(ms);
    forall i | 0 <= i < |l|
      ensures l[i] == r[i]
    {
      if i < |cs| {
        assert (cs + ms)[i] == cs[i];
      } else {
        assert (cs + ms)[i] == ms[i - |cs|];
      }
    }
  }

  /** The constructor and method loops of `_HandleRecordDecl` lose nothing:
      their entries split back into one per function, numbered from 0
      through constructors and methods alike, and read back as the
      functions' views in order. */
  lemma MethodsRoundTrip(k: nat, cs: seq<FunctionD>, ms: seq<FunctionD>)
    ensures ReadEach(Entries(k, MethodsText(k, 0, cs) + MethodsText(k, |cs|, ms)), MethodReader(k, 0)) == Some(Views(cs) + Views(ms))
  {
    MethodRunsJoin(k, cs, ms);
    MethodsEntries(k, 0, cs + ms);
    MethodChunksRead(k, 0, cs + ms);
    ViewsJoin(cs, ms);
  }


  // ---------------------------------------------------------------------
  // Records.

  /** What a record body records of a definition: the location, the
      fields, the bases and the views of the constructors and methods in
      the order they are written, and the attributes. A plain C record and
      a C++ record with no bases, constructors or methods write the same. */
  datatype RecordView = RecordView(loc: Loc, fields: seq<FieldD>, bases: seq<BaseSpec>, functions: seq<FunctionView>, attrs: seq<Attr>)

  function BasesOf(d: RecordDef): seq<BaseSpec> {
    if d.cxx.Some? then d.cxx.value.bases else []
  }


  function RecordViewOf(d: RecordDef): RecordView {
    RecordView(d.loc, d.fields, BasesOf(d), Views(FunctionsOf(d)), d.attrs)
  }

  /** The number of leading entries that satisfy `p`. */
  function Run(cs: seq<Chunk>, p: Chunk -> bool): (n: nat)
    ensures n <= |cs|
  {
    if |cs| == 0 || !p(cs[0]) then 0 else 1 + Run(cs[1..], p)
  }

  /** A run of entries satisfying `p` ended by one that does not, or by
      nothing. */
  lemma {:induction false} RunOf(xs: seq<Chunk>, ys: seq<Chunk>, p: Chunk -> bool)
    requires forall i :: 0 <= i < |xs| ==> p(xs[i])
    requires |ys| == 0 || !p(ys[0])
    ensures Run(xs + ys, p) == |xs|
  {
    if |xs| == 0 {
      assert xs + ys == ys;
    } else {
      assert (xs + ys)[1..] == xs[1..] + ys;
      RunOf(xs[1..], ys, p);
    }
  }

  /** Whether an entry is headed by a field slot. */
  function FieldHead(d: nat): Chunk -> bool {
    (c: Chunk) => ReadFieldSlot(d, c.head).Some?
  }

  /** Whether an entry is headed by a base slot. */
  function BaseHead(d: nat): Chunk -> bool {
    (c: Chunk) => ReadBaseSlot(d, c.head).Some?
  }

  /** Slot lines of the three kinds never pass for one another: a field
      slot ends in `field`, a base slot in `base`, a method slot in
      `method`, and only a base slot starts with `base_`. */
  lemma SlotKinds(d: nat, i: nat, j: nat)
    ensures ReadFieldSlot(d, BaseSlot(d, i)).None?
    ensures ReadFieldSlot(d, MethodSlot(d, j)).None?
    ensures ReadBaseSlot(d, MethodSlot(d, j)).None?
  {
    var b := BaseSlot(d, i).text;
    var m := MethodSlot(d, j).text;
    var bn := "base_" + NatToDecimal(i);
    var mn := "method_" + NatToDecimal(j);
    assert b == bn + "$: !compex/base";
    assert m == mn + "$: !compex/method";
    assert b[|b| - 1] == 'e';
    assert m[|m| - 2] == 'o';
    assert m[0] == 'm';
  }

  /** The location lines of `_HandleLocation`, each with nothing under it. */
  function ReadLoc(d: nat, file: Chunk, line: Chunk): Option<Loc> {
    if file.body != [] || line.body != [] then None
    else match (Value(d, "$srcFile: ", file.head), NumberValue(d, "$srcLine: ", line.head))
      case (Some(f), Some(n)) => Some(Loc(f, n))
      case _ => None
  }

  /** The entries of a record between its location and its attributes: a
      run of fields, a run of bases, then the constructors and methods. */
  function ReadMembers(d: nat, mid: seq<Chunk>): Option<(seq<FieldD>, seq<BaseSpec>, seq<FunctionView>)> {
    var nf := Run(mid, FieldHead(d));
    var rest := mid[nf..];
    var nb := Run(rest, BaseHead(d));
    match (ReadEach(mid[..nf], FieldReader(d)), ReadEach(rest[..nb], BaseReader(d)), ReadEach(rest[nb..], MethodReader(d, 0)))
    case (Some(fs), Some(bs), Some(vs)) => Some((fs, bs, vs))
    case _ => None
  }

  /** A record's entries one level below `k`. */
  function ReadRecordChunks(k: nat, cs: seq<Chunk>): Option<RecordView> {
    if |cs| < 3 then None
    else
      var d := k + 1;
      var n := |cs|;
      match (ReadLoc(d, cs[0], cs[1]), ReadMembers(d, cs[2..n - 1]), AttrsChunk(d, cs[n - 1]))
      case (Some(loc), Some(m), Some(attrs)) => Some(RecordView(loc, m.0, m.1, m.2, attrs))
      case _ => None
  }

  /** A record body below indentation `k`. */
  function ReadRecord(k: nat, lines: seq<Line>): Option<RecordView> {
    ReadRecordChunks(k, Entries(k + 1, lines))
  }

  /** The constructors, then the methods. */
  function FunctionsOf(d: RecordDef): seq<FunctionD> {
    if d.cxx.Some? then d.cxx.value.ctors + d.cxx.value.methods else []
  }

  /** The first function entry is `method_0$`. */
  lemma FunctionChunksHead(d: nat, rd: RecordDef)
    requires |FunctionsOf(rd)| > 0
    ensures MethodChunks(d, 0, FunctionsOf(rd))[0].head == MethodSlot(d, 0)
  {
    MethodChunkAt(d, 0, FunctionsOf(rd), 0);
  }

  /** The entries of the C++ part: the bases, then the functions. */
  function CxxChunks(d: nat, rd: RecordDef): seq<Chunk> {
    BaseChunks(d, BasesOf(rd)) + MethodChunks(d, 0, FunctionsOf(rd))
  }

  /** The C++ part opens with an entry at its own depth. */
  lemma CxxOpens(d: nat, rd: RecordDef)
    requires |CxxChunks(d, rd)| > 0
    ensures CxxChunks(d, rd)[0].head.depth == d
  {
    if |BasesOf(rd)| > 0 {
      assert CxxChunks(d, rd)[0].head == BaseSlot(d, 0);
    } else {
      FunctionChunksHead(d, rd);
      assert CxxChunks(d, rd)[0].head == MethodSlot(d, 0);
    }
  }

  function LocChunks(d: nat, loc: Loc): seq<Chunk> {
    [Chunk(Line(d, "$srcFile: " + loc.file), []), Chunk(Line(d, "$srcLine: " + NatToDecimal(loc.line)), [])]
  }

  /** The C++ part splits into one entry per base and one per function. */
  lemma CxxEntries(d: nat, rd: RecordDef)
    ensures Entries(d, CxxText(d, rd)) == CxxChunks(d, rd)
  {
    if rd.cxx.Some? {
      var x := rd.cxx.value;
      var ms := MethodsText(d, 0, x.ctors) + MethodsText(d, |x.ctors|, x.methods);
      BasesEntries(d, x.bases);
      MethodRunsJoin(d, x.ctors, x.methods);
      MethodsEntries(d, 0, FunctionsOf(rd));
      if |MethodChunks(d, 0, FunctionsOf(rd))| > 0 {
        FunctionChunksHead(d, rd);
      }
      EntriesJoin(d, BasesText(d, x.bases), ms, BaseChunks(d, x.bases), MethodChunks(d, 0, FunctionsOf(rd)));
    } else {
      assert BaseChunks(d, []) + [] == [];
    }
  }

  lemma LocEntries(d: nat, loc: Loc)
    ensures Entries(d, LocationLines(d, loc)) == LocChunks(d, loc)
  {
    var l := LocationLines(d, loc);
    var none: seq<Line> := [];
    EntriesCons(d, l[0], none, [l[1]]);
    EntriesOne(d, l[1], none);
    assert [l[1]] + none == [l[1]];
    assert [l[0]] + none + [l[1]] == l;
  }

  /** A record body splits into the two location entries, one entry per
      field, the C++ part's entries and `attrs:`. */
  lemma RecordEntries(k: nat, rd: RecordDef)
    ensures Entries(k + 1, RecordText(k, rd)) ==
            LocChunks(k + 1, rd.loc) + FieldChunks(k + 1, rd.fields) + CxxChunks(k + 1, rd)
              + [Chunk(Line(k + 1, "attrs:"), AttrEntries(k + 1, rd.attrs))]
  {
    var d := k + 1;
    var loc := LocationLines(d, rd.loc);
    var fields := FieldsText(d, rd.fields);
    var cxx := CxxText(d, rd);
    var attrs := AttrsText(d, rd.attrs);
    var lc := LocChunks(d, rd.loc);
    var fc := FieldChunks(d, rd.fields);
    var xc := CxxChunks(d, rd);
    var ac := [Chunk(Line(d, "attrs:"), AttrEntries(d, rd.attrs))];
    LocEntries(d, rd.loc);
    FieldsEntries(d, rd.fields);
    EntriesJoin(d, loc, fields, lc, fc);
    CxxEntries(d, rd);
    if |xc| > 0 {
      CxxOpens(d, rd);
    }
    EntriesJoin(d, loc + fields, cxx, lc + fc, xc);
    AttrEntriesBelow(d, rd.attrs);
    EntriesOne(d, Line(d, "attrs:"), AttrEntries(d, rd.attrs));
    EntriesJoin(d, loc + fields + cxx, attrs, lc + fc + xc, ac);
  }

  /** The members read as a run of fields, then a run of bases, then
      the functions. */
  lemma ReadMembersOf(d: nat, fc: seq<Chunk>, bc: seq<Chunk>, mc: seq<Chunk>,
                      fs: seq<FieldD>, bs: seq<BaseSpec>, vs: seq<FunctionView>)
    requires Run(fc + (bc + mc), FieldHead(d)) == |fc|
    requires Run(bc + mc, BaseHead(d)) == |bc|
    requires ReadEach(fc, FieldReader(d)) == Some(fs)
    requires ReadEach(bc, BaseReader(d)) == Some(bs)
    requires ReadEach(mc, MethodReader(d, 0)) == Some(vs)
    ensures ReadMembers(d, fc + (bc + mc)) == Some((fs, bs, vs))
  {
    var mid := fc + (bc + mc);
    assert mid[..|fc|] == fc && mid[|fc|..] == bc + mc;
    assert (bc + mc)[..|bc|] == bc && (bc + mc)[|bc|..] == mc;
  }

  /** The field entries form a run that the C++ part does not extend. */
  lemma FieldRun(d: nat, rd: RecordDef)
    ensures Run(FieldChunks(d, rd.fields) + CxxChunks(d, rd), FieldHead(d)) == |rd.fields|
  {
    var fc := FieldChunks(d, rd.fields);
    var xc := CxxChunks(d, rd);
    forall i | 0 <= i < |fc|
      ensures FieldHead(d)(fc[i])
    {
      StripSuffixOf(rd.fields[i].name, ": !compex/field");
    }
    if |xc| > 0 {
      SlotKinds(d, 0, 0);
      if |BasesOf(rd)| > 0 {
        assert xc[0].head == BaseSlot(d, 0);
      } else {
        FunctionChunksHead(d, rd);
        assert xc[0].head == MethodSlot(d, 0);
      }
    }
    RunOf(fc, xc, FieldHead(d));
  }

  /** The base entries form a run that the functions do not extend. */
  lemma BaseRun(d: nat, rd: RecordDef)
    ensures Run(CxxChunks(d, rd), BaseHead(d)) == |BasesOf(rd)|
  {
    var bc := BaseChunks(d, BasesOf(rd));
    var mc := MethodChunks(d, 0, FunctionsOf(rd));
    forall i | 0 <= i < |bc|
      ensures BaseHead(d)(bc[i])
    {
      BaseSlotRoundTrip(d, i);
    }
    if |mc| > 0 {
      FunctionChunksHead(d, rd);
      SlotKinds(d, 0, 0);
    }
    RunOf(bc, mc, BaseHead(d));
  }

  /** Between the location and the attributes, a record's entries read
      back as its fields, its bases and its functions' views. */
  lemma MembersRead(d: nat, rd: RecordDef)
    ensures ReadMembers(d, FieldChunks(d, rd.fields) + CxxChunks(d, rd)) ==
            Some((rd.fields, BasesOf(rd), Views(FunctionsOf(rd))))
  {
    FieldRun(d, rd);
    BaseRun(d, rd);
    FieldChunksRead(d, rd.fields);
    BaseChunksRead(d, BasesOf(rd));
    MethodChunksRead(d, 0, FunctionsOf(rd));
    ReadMembersOf(d, FieldChunks(d, rd.fields), BaseChunks(d, BasesOf(rd)), MethodChunks(d, 0, FunctionsOf(rd)),
                  rd.fields, BasesOf(rd), Views(FunctionsOf(rd)));
  }

  /** A record's entries: the location, the members and `attrs:`. */
  lemma ReadRecordChunksOf(k: nat, file: Chunk, line: Chunk, mid: seq<Chunk>, ac: Chunk,
                           loc: Loc, m: (seq<FieldD>, seq<BaseSpec>, seq<FunctionView>), attrs: seq<Attr>)
    requires ReadLoc(k + 1, file, line) == Some(loc)
    requires ReadMembers(k + 1, mid) == Some(m)
    requires AttrsChunk(k + 1, ac) == Some(attrs)
    ensures ReadRecordChunks(k, [file, line] + mid + [ac]) == Some(RecordView(loc, m.0, m.1, m.2, attrs))
  {
    var cs := [file, line] + mid + [ac];
    assert cs[0] == file && cs[1] == line && cs[|cs| - 1] == ac;
    assert cs[2..|cs| - 1] == mid;
  }

  lemma LocRead(d: nat, loc: Loc)
    ensures ReadLoc(d, LocChunks(d, loc)[0], LocChunks(d, loc)[1]) == Some(loc)
  {
    ValueOf(d, "$srcFile: ", loc.file);
    NumberValueOf(d, "$srcLine: ", loc.line);
  }

  /** A record's entries, as its body splits into them, read back as its
      view. */
  lemma RecordChunksRead(k: nat, rd: RecordDef)
    ensures ReadRecordChunks(k, LocChunks(k + 1, rd.loc) + FieldChunks(k + 1, rd.fields) + CxxChunks(k + 1, rd)
                                + [Chunk(Line(k + 1, "attrs:"), AttrEntries(k + 1, rd.attrs))]) == Some(RecordViewOf(rd))
  {
    var d := k + 1;
    var lc := LocChunks(d, rd.loc);
    var fc := FieldChunks(d, rd.fields);
    var xc := CxxChunks(d, rd);
    var ac := Chunk(Line(d, "attrs:"), AttrEntries(d, rd.attrs));
    assert lc + fc + xc + [ac] == [lc[0], lc[1]] + (fc + xc) + [ac];
    LocRead(d, rd.loc);
    MembersRead(d, rd);
    AttrEntriesRoundTrip(d, rd.attrs);
    ReadRecordChunksOf(k, lc[0], lc[1], fc + xc, ac, rd.loc, (rd.fields, BasesOf(rd), Views(FunctionsOf(rd))), rd.attrs);
  }

  /** `_HandleRecordDecl` loses nothing a record body records: the
      location, every field in declaration order, the bases in order, the
      constructors and then the methods on one counter, and the attributes
      are read back. */
  lemma RecordRoundTrip(k: nat, rd: RecordDef)
    ensures ReadRecord(k, RecordText(k, rd)) == Some(RecordViewOf(rd))
  {
    RecordEntries(k, rd);
    RecordChunksRead(k, rd);
  }

  // ---------------------------------------------------------------------
  // Named declarations and groups.

  /** What a named declaration's entry records: a record's name and, when
      defined, its view; or a function's view. */
  datatype NamedView = StructView(name: string, def: Option<RecordView>) | FnView(fn: FunctionView)

  /** The view of a named declaration; the kinds the consumer does not
      handle have none. */
  function NamedViewOf(nd: NamedDecl): Option<NamedView> {
    match nd
    case RecordKind(name, def) => Some(StructView(name, if def.Some? then Some(RecordViewOf(def.value)) else None))
    case FunctionKind(f) => Some(FnView(ViewOf(f)))
    case OtherKind(_) => None
  }

  /** A declaration's entry at depth `k`: `<name>: !compex/struct` with the
      record's body under it when defined, or `<name>: !compex/function`
      with a function's entry under it that carries the same name. */
  function ReadNamed(k: nat, c: Chunk): Option<NamedView> {
    if c.head.depth != k then None
    else match StripSuffix(c.head.text, ": !compex/struct")
      case Some(name) =>
        if c.body == [] then Some(StructView(name, None))
        else (match ReadRecord(k, c.body)
              case Some(v) => Some(StructView(name, Some(v)))
              case None => None)
      case None =>
        match StripSuffix(c.head.text, ": !compex/function")
        case Some(name) =>
          (match ReadFunction(k, c.body)
           case Some(v) => if v.name == name then Some(FnView(v)) else None
           case None => None)
        case None => None
  }

  /** The text a named declaration writes, read as exactly one entry. */
  function ReadNamedText(k: nat, lines: seq<Line>): Option<NamedView> {
    var cs := Entries(k, lines);
    if |cs| == 1 then ReadNamed(k, cs[0]) else None
  }

  /** A function's header never reads as a record's: the two tags differ
      in their last letter. */
  lemma FunctionHeaderNotStruct(name: string)
    ensures StripSuffix(name + ": !compex/function", ": !compex/struct") == None
  {
    var s := name + ": !compex/function";
    var p := ": !compex/struct";
    assert s[|s| - 1] == 'n' && p[|p| - 1] == 't';
    assert |p| <= |s| ==> s[|s| - |p|..][|p| - 1] == s[|s| - 1];
  }

  lemma StructChunkOf(k: nat, name: string, body: seq<Line>, v: RecordView)
    requires body != [] && ReadRecord(k, body) == Some(v)
    ensures ReadNamed(k, Chunk(Line(k, name + ": !compex/struct"), body)) == Some(StructView(name, Some(v)))
  {
    StripSuffixOf(name, ": !compex/struct");
  }

  lemma FnChunkOf(k: nat, name: string, body: seq<Line>, v: FunctionView)
    requires ReadFunction(k, body) == Some(v) && v.name == name
    ensures ReadNamed(k, Chunk(Line(k, name + ": !compex/function"), body)) == Some(FnView(v))
  {
    FunctionHeaderNotStruct(name);
    StripSuffixOf(name, ": !compex/function");
  }

  /** The entry a named declaration writes, if any. */
  function NamedChunks(k: nat, nd: NamedDecl): seq<Chunk> {
    match nd
    case RecordKind(name, def) =>
      [Chunk(Line(k, name + ": !compex/struct"), if def.Some? then RecordText(k, def.value) else [])]
    case FunctionKind(f) => [Chunk(Line(k, f.name + ": !compex/function"), FunctionText(k, f))]
    case OtherKind(_) => []
  }

  /** A named declaration's text is its one entry, or nothing. */
  lemma NamedEntries(k: nat, nd: NamedDecl)
    ensures Entries(k, NamedText(k, nd)) == NamedChunks(k, nd)
  {
    match nd
    case RecordKind(name, def) =>
      var body := if def.Some? then RecordText(k, def.value) else [];
      if def.Some? {
        RecordTextShape(k, def.value);
      }
      EntriesOne(k, Line(k, name + ": !compex/struct"), body);
    case FunctionKind(f) =>
      FunctionTextShape(k, f);
      EntriesOne(k, Line(k, f.name + ": !compex/function"), FunctionText(k, f));
    case OtherKind(_) =>
  }

  /** A named declaration's entry reads back as its view. */
  lemma NamedChunkRead(k: nat, nd: NamedDecl)
    ensures |NamedChunks(k, nd)| == (if nd.OtherKind? then 0 else 1)
    ensures !nd.OtherKind? ==> ReadNamed(k, NamedChunks(k, nd)[0]) == NamedViewOf(nd)
  {
    match nd
    case RecordKind(name, def) =>
      if def.Some? {
        RecordTextShape(k, def.value);
        RecordRoundTrip(k, def.value);
        StructChunkOf(k, name, RecordText(k, def.value), RecordViewOf(def.value));
      } else {
        StripSuffixOf(name, ": !compex/struct");
      }
    case FunctionKind(f) =>
      FunctionRoundTrip(k, f);
      FnChunkOf(k, f.name, FunctionText(k, f), ViewOf(f));
    case OtherKind(_) =>
  }

  /** `_HandleNamedDecl` loses nothing: a record's entry reads back as its
      name and, when defined, its view, a function's as its view, and the
      other kinds write nothing to read. */
  lemma NamedRoundTrip(k: nat, nd: NamedDecl)
    ensures ReadNamedText(k, NamedText(k, nd)) == NamedViewOf(nd)
  {
    NamedEntries(k, nd);
    NamedChunkRead(k, nd);
  }

  /** The entries a group declaration writes. */
  function DeclChunks(k: nat, x: Decl): seq<Chunk> {
    if x.Named? then NamedChunks(k, x.d) else []
  }

  /** The view of a group declaration, if the consumer writes one. */
  function DeclViews(x: Decl): seq<NamedView> {
    if x.Named? && NamedViewOf(x.d).Some? then [NamedViewOf(x.d).value] else []
  }

  /** The entries of a group, declaration by declaration. */
  function GroupChunks(k: nat, dg: seq<Decl>): seq<Chunk>
    decreases |dg|
  {
    if |dg| == 0 then [] else GroupChunks(k, dg[..|dg| - 1]) + DeclChunks(k, dg[|dg| - 1])
  }

  /** The views of the records and functions of a group, in order. */
  function GroupViews(dg: seq<Decl>): seq<NamedView>
    decreases |dg|
  {
    if |dg| == 0 then [] else GroupViews(dg[..|dg| - 1]) + DeclViews(dg[|dg| - 1])
  }

  /** A declaration entry at depth `k`, wherever it stands. */
  function DeclReader(k: nat): (nat, Chunk) -> Option<NamedView> {
    (i: nat, c: Chunk) => ReadNamed(k, c)
  }

  /** A group's document at depth `k`: one declaration entry after
      another. */
  function ReadGroup(k: nat, lines: seq<Line>): Option<seq<NamedView>> {
    ReadEach(Entries(k, lines), DeclReader(k))
  }

  lemma DeclEntries(k: nat, x: Decl)
    ensures Entries(k, DeclText(k, x)) == DeclChunks(k, x)
    ensures |DeclChunks(k, x)| > 0 ==> DeclChunks(k, x)[0].head.depth == k
  {
    if x.Named? {
      NamedEntries(k, x.d);
    }
  }

  /** A group's text splits into the entries of its declarations. */
  lemma {:induction false} GroupEntries(k: nat, dg: seq<Decl>)
    ensures Entries(k, GroupText(k, dg)) == GroupChunks(k, dg)
    decreases |dg|
  {
    if |dg| > 0 {
      var n := |dg| - 1;
      GroupEntries(k, dg[..n]);
      DeclEntries(k, dg[n]);
      assert GroupText(k, dg) == GroupText(k, dg[..n]) + DeclText(k, dg[n]);
      assert GroupChunks(k, dg) == GroupChunks(k, dg[..n]) + DeclChunks(k, dg[n]);
      EntriesJoin(k, GroupText(k, dg[..n]), DeclText(k, dg[n]), GroupChunks(k, dg[..n]), DeclChunks(k, dg[n]));
    }
  }

  /** One more entry read after the others. */
  lemma ReadEachSnoc<T>(cs: seq<Chunk>, c: Chunk, read: (nat, Chunk) -> Option<T>, xs: seq<T>, x: T)
    requires ReadEach(cs, read) == Some(xs) && read(|cs|, c) == Some(x)
    ensures ReadEach(cs + [c], read) == Some(xs + [x])
  {
    var all := cs + [c];
    assert |all| - 1 == |cs| && all[..|cs|] == cs && all[|cs|] == c;
  }

  /** A declaration's entries, read after others, add its view. */
  lemma DeclRead(k: nat, x: Decl, cs: seq<Chunk>, vs: seq<NamedView>)
    requires ReadEach(cs, DeclReader(k)) == Some(vs)
    ensures ReadEach(cs + DeclChunks(k, x), DeclReader(k)) == Some(vs + DeclViews(x))
  {
    if x.Named? {
      NamedChunkRead(k, x.d);
    }
    if DeclChunks(k, x) == [] {
      assert cs + [] == cs;
      assert vs + [] == vs;
    } else {
      var c := DeclChunks(k, x)[0];
      assert DeclChunks(k, x) == [c];
      ReadEachSnoc(cs, c, DeclReader(k), vs, NamedViewOf(x.d).value);
    }
  }

  lemma GroupLast(k: nat, dg: seq<Decl>)
    requires |dg| > 0
    ensures GroupChunks(k, dg) == GroupChunks(k, dg[..|dg| - 1]) + DeclChunks(k, dg[|dg| - 1])
    ensures GroupViews(dg) == GroupViews(dg[..|dg| - 1]) + DeclViews(dg[|dg| - 1])
  {
  }

  /** The entries of a group read back as the views of its records and
      functions, in order. */
  lemma {:induction false} GroupChunksRead(k: nat, dg: seq<Decl>)
    ensures ReadEach(GroupChunks(k, dg), DeclReader(k)) == Some(GroupViews(dg))
    decreases |dg|
  {
    if |dg| > 0 {
      var n := |dg| - 1;
      GroupChunksRead(k, dg[..n]);
      GroupLast(k, dg);
      DeclRead(k, dg[n], GroupChunks(k, dg[..n]), GroupViews(dg[..n]));
    }
  }

  /** `HandleTopLevelDecl` loses nothing: the document a group writes
      reads back as the views of its records and functions, in order, and
      the declarations it skips leave nothing behind. */
  lemma GroupRoundTrip(k: nat, dg: seq<Decl>)
    ensures ReadGroup(k, GroupText(k, dg)) == Some(GroupViews(dg))
  {
    GroupEntries(k, dg);
    GroupChunksRead(k, dg);
  }
}

=== FILE: clang_tree.dfy ===
/** The part of Clang's AST the consumer walks. Every AST query
    (`getTypeInfo`, `getFieldOffset`, the source manager, `isConstexpr`,
    ...) is replaced by a field holding its answer. */
module ClangTree {
  import opened Common

  /** An attribute: its spelling, and the annotation string when it is an
      `AnnotateAttr`. */
  datatype Attr = Attr(spelling: string, annotation: Option<string>)

  /** A source location as the source manager reports it. */
  datatype Loc = Loc(file: string, line: nat)

  /** A `FieldDecl` with its type spelling, size and alignment in bits and
      bit offset. */
  datatype FieldD = FieldD(name: string, ty: string, size: nat, align: nat, offset: nat, attrs: seq<Attr>)

  /** A `ParmVarDecl`. */
  datatype ParamD = ParamD(name: string, ty: string, attrs: seq<Attr>)

  /** A `CXXBaseSpecifier`. */
  datatype BaseSpec = BaseSpec(ty: string, isVirtual: bool)

  /** Predicates every `FunctionDecl` answers. */
  datatype FnQual = Constexpr | Deleted | ExternC | NoReturn | Variadic | Implicit

  /** Predicates only a `CXXMethodDecl` answers. */
  datatype MethodQual = Static | Const | Virtual

  /** Predicates only a `CXXConstructorDecl` answers. */
  datatype CtorQual = Explicit | DefaultCtor | CopyCtor | MoveCtor

  /** What kind of member function a method is. */
  datatype MethodKind = Ordinary | Ctor(cq: set<CtorQual>) | Dtor

  /** Whether a function is a `CXXMethodDecl`, and of which kind. */
  datatype Role = FreeFunction | Member(mq: set<MethodQual>, kind: MethodKind)

  datatype FunctionD = FunctionD(name: string, quals: set<FnQual>, role: Role, params: seq<ParamD>, attrs: seq<Attr>)

  /** The C++ part of a definition (`CXXRecordDecl`): its bases, its
      constructors, and its methods as `methods()` lists them. */
  datatype CxxPart = CxxPart(bases: seq<BaseSpec>, ctors: seq<FunctionD>, methods: seq<FunctionD>)

  /** A record definition (`getDefinition()`). */
  datatype RecordDef = RecordDef(loc: Loc, fields: seq<FieldD>, cxx: Option<CxxPart>, attrs: seq<Attr>)

  /** A `NamedDecl` by the kinds the consumer distinguishes: `Record` and
      `CXXRecord`, `Function`, and everything else. */
  datatype NamedDecl =
    | RecordKind(name: string, definition: Option<RecordDef>)
    | FunctionKind(f: FunctionD)
    | OtherKind(name: string)

  /** A declaration of a top-level group: named or not. */
  datatype Decl = Unnamed | Named(d: NamedDecl)

  predicate IsCtor(f: FunctionD) {
    f.role.Member? && f.role.kind.Ctor?
  }

  predicate IsDtor(f: FunctionD) {
    f.role.Member? && f.role.kind.Dtor?
  }

  predicate HasMethodQual(f: FunctionD, q: MethodQual) {
    f.role.Member? && q in f.role.mq
  }

  predicate HasCtorQual(f: FunctionD, q: CtorQual) {
    IsCtor(f) && q in f.role.kind.cq
  }
}

=== FILE: common.dfy ===
/** Shared vocabulary of both emitters: optional values and the
    indentation-scoped text lines the documents are made of. */
module Common {

  datatype Option<+T> = None | Some(value: T)

  /** One output line: a nesting depth and the text written after the
      indentation. Both plugins indent with two spaces per level. */
  datatype Line = Line(depth: nat, text: string)

  function Spaces(n: nat): (s: string)
    ensures |s| == n
    ensures forall i :: 0 <= i < n ==> s[i] == ' '
  {
    if n == 0 then "" else Spaces(n - 1) + " "
  }

  /** The characters a line occupies in the document (without its newline). */
  function Render(l: Line): (s: string)
    ensures |s| == 2 * l.depth + |l.text|
    ensures forall i :: 0 <= i < 2 * l.depth ==> s[i] == ' '
    ensures s[2 * l.depth..] == l.text
  {
    Spaces(2 * l.depth) + l.text
  }

  /** The whole document: every line rendered and terminated by a newline. */
  function RenderAll(lines: seq<Line>): (s: string)
    ensures |lines| == 0 ==> s == ""
  {
    if |lines| == 0 then "" else Render(lines[0]) + "\n" + RenderAll(lines[1..])
  }

  /** A line whose text does not start with a space is recovered from its
      rendering: the indentation fixes the depth, the rest is the text. */
  lemma RenderInjective(a: Line, b: Line)
    requires |a.text| > 0 && a.text[0] != ' '
    requires |b.text| > 0 && b.text[0] != ' '
    ensures Render(a) == Render(b) <==> a == b
  {
    var ra, rb := Render(a), Render(b);
    if a != b {
      if a.depth < b.depth {
        assert ra[2 * a.depth] == a.text[0] != rb[2 * a.depth];
      } else if b.depth < a.depth {
        assert rb[2 * b.depth] == b.text[0] != ra[2 * b.depth];
      } else {
        assert ra[2 * a.depth..] == a.text != b.text == rb[2 * b.depth..];
      }
    }
  }

  /** Documents written one after the other concatenate. */
  lemma {:induction false} RenderAllConcat(a: seq<Line>, b: seq<Line>)
    ensures RenderAll(a + b) == RenderAll(a) + RenderAll(b)
  {
    if |a| == 0 {
      assert a + b == b;
    } else {
      assert (a + b)[0] == a[0] && (a + b)[1..] == a[1..] + b;
      RenderAllConcat(a[1..], b);
      var h := Render(a[0]) + "\n";
      assert RenderAll(a + b) == h + RenderAll(a[1..] + b);
      assert h + (RenderAll(a[1..]) + RenderAll(b)) == (h + RenderAll(a[1..])) + RenderAll(b);
    }
  }

  /** The lines written at exactly depth `d`, in order. */
  function AtDepth(lines: seq<Line>, d: nat): (r: seq<Line>)
    ensures |r| <= |lines|
  {
    if |lines| == 0 then []
    else (if lines[0].depth == d then [lines[0]] else []) + AtDepth(lines[1..], d)
  }

  lemma {:induction false} AtDepthConcat(a: seq<Line>, b: seq<Line>, d: nat)
    ensures AtDepth(a + b, d) == AtDepth(a, d) + AtDepth(b, d)
  {
    if |a| == 0 {
      assert a + b == b;
    } else {
      var head := if a[0].depth == d then [a[0]] else [];
      assert (a + b)[0] == a[0] && (a + b)[1..] == a[1..] + b;
      AtDepthConcat(a[1..], b, d);
      assert head + (AtDepth(a[1..], d) + AtDepth(b, d)) == (head + AtDepth(a[1..], d)) + AtDepth(b, d);
    }
  }

  /** Lines all deeper than `d` contribute nothing at depth `d`. */
  lemma {:induction false} AtDepthDeeper(a: seq<Line>, d: nat)
    requires forall l :: l in a ==> l.depth > d
    ensures AtDepth(a, d) == []
  {
    if |a| != 0 {
      assert a[0] in a;
      assert forall l :: l in a[1..] ==> l in a;
      AtDepthDeeper(a[1..], d);
    }
  }

  /** Every line is at depth `d` or deeper. */
  predicate AtLeast(lines: seq<Line>, d: nat) {
    forall j :: 0 <= j < |lines| ==> lines[j].depth >= d
  }

  /** Every line is at depth `d` or shallower. */
  predicate AtMost(lines: seq<Line>, d: nat) {
    forall j :: 0 <= j < |lines| ==> lines[j].depth <= d
  }

  /** Every line is at depth `d`. */
  predicate AllAt(lines: seq<Line>, d: nat) {
    forall j :: 0 <= j < |lines| ==> lines[j].depth == d
  }

  lemma AtLeastConcat(a: seq<Line>, b: seq<Line>, d: nat)
    requires AtLeast(a, d) && AtLeast(b, d)
    ensures AtLeast(a + b, d)
  {
    forall j | 0 <= j < |a + b|
      ensures (a + b)[j].depth >= d
    {
      if j >= |a| {
        assert (a + b)[j] == b[j - |a|];
      }
    }
  }

  lemma AtMostConcat(a: seq<Line>, b: seq<Line>, d: nat)
    requires AtMost(a, d) && AtMost(b, d)
    ensures AtMost(a + b, d)
  {
    forall j | 0 <= j < |a + b|
      ensures (a + b)[j].depth <= d
    {
      if j >= |a| {
        assert (a + b)[j] == b[j - |a|];
      }
    }
  }

  lemma AtLeastNone(a: seq<Line>, d: nat)
    requires AtLeast(a, d + 1)
    ensures AtDepth(a, d) == []
  {
    AtDepthDeeper(a, d);
  }

  /** Number of occurrences of line `l`. */
  function Count(lines: seq<Line>, l: Line): (n: nat)
    ensures n <= |lines|
    ensures n == 0 <==> l !in lines
  {
    if |lines| == 0 then 0
    else (if lines[0] == l then 1 else 0) + Count(lines[1..], l)
  }

  lemma {:induction false} CountConcat(a: seq<Line>, b: seq<Line>, l: Line)
    ensures Count(a + b, l) == Count(a, l) + Count(b, l)
  {
    if |a| == 0 {
      assert a + b == b;
    } else {
      assert (a + b)[1..] == a[1..] + b;
      CountConcat(a[1..], b, l);
    }
  }

  /** Concatenation of line sequences is associative. */
  lemma ConcatAssoc(a: seq<Line>, b: seq<Line>, c: seq<Line>)
    ensures (a + b) + c == a + (b + c)
  {
  }

  /** Blocks of lines written one after another. */
  function Joined(bs: seq<seq<Line>>): (r: seq<Line>)
    ensures |bs| > 0 ==> r == bs[0] + Joined(bs[1..])
  {
    if |bs| == 0 then [] else bs[0] + Joined(bs[1..])
  }

  /** Every block is an entry: one line at depth `d` over deeper lines. */
  lemma JoinedCons(b: seq<Line>, bs: seq<seq<Line>>)
    ensures Joined([b] + bs) == b + Joined(bs)
  {
    assert ([b] + bs)[0] == b && ([b] + bs)[1..] == bs;
  }

  /** `tail` is the end of `lines`. */
  predicate EndsWith(lines: seq<Line>, tail: seq<Line>) {
    |lines| >= |tail| && lines[|lines| - |tail|..] == tail
  }

  predicate EntryBlocks(bs: seq<seq<Line>>, d: nat) {
    forall k :: 0 <= k < |bs| ==> |bs[k]| > 0 && bs[k][0].depth == d && AtLeast(bs[k][1..], d + 1)
  }

  lemma {:induction false} JoinedConcat(a: seq<seq<Line>>, b: seq<seq<Line>>)
    ensures Joined(a + b) == Joined(a) + Joined(b)
  {
    if |a| == 0 {
      assert a + b == b;
    } else {
      assert (a + b)[0] == a[0] && (a + b)[1..] == a[1..] + b;
      JoinedConcat(a[1..], b);
    }
  }

  /** Joined entries show, at depth `d`, exactly their first lines, in
      order, and nothing shallower. */
  lemma {:induction false} JoinedHeads(bs: seq<seq<Line>>, d: nat)
    requires EntryBlocks(bs, d)
    ensures |AtDepth(Joined(bs), d)| == |bs|
    ensures forall k :: 0 <= k < |bs| ==> AtDepth(Joined(bs), d)[k] == bs[k][0]
    ensures AtLeast(Joined(bs), d)
  {
    if |bs| > 0 {
      assert EntryBlocks(bs[1..], d) by {
        forall j | 0 <= j < |bs| - 1
          ensures |bs[1..][j]| > 0 && bs[1..][j][0].depth == d && AtLeast(bs[1..][j][1..], d + 1)
        {
          assert bs[1..][j] == bs[j + 1];
        }
      }
      JoinedHeads(bs[1..], d);
      HeadThenRest(bs[0], Joined(bs[1..]), d);
      forall k | 1 <= k < |bs|
        ensures AtDepth(Joined(bs), d)[k] == bs[k][0]
      {
        assert bs[1..][k - 1] == bs[k];
      }
    }
  }

  /** An entry followed by lines at depth `d` or deeper contributes just
      its first line at depth `d`. */
  lemma HeadThenRest(e: seq<Line>, rest: seq<Line>, d: nat)
    requires |e| > 0 && e[0].depth == d && AtLeast(e[1..], d + 1)
    requires AtLeast(rest, d)
    ensures AtDepth(e + rest, d) == [e[0]] + AtDepth(rest, d)
    ensures AtLeast(e + rest, d)
  {
    assert e == [e[0]] + e[1..];
    AtLeastNone(e[1..], d);
    AtDepthConcat([e[0]], e[1..], d);
    AtDepthConcat(e, rest, d);
    AtLeastConcat([e[0]], e[1..], d);
    AtLeastConcat(e, rest, d);
  }

  /** The `k`-th joined entry lies between the `k` entries before it and
      the entries after it: it is the block under the `k`-th line at
      depth `d`. */
  lemma JoinedEntry(bs: seq<seq<Line>>, d: nat, k: nat)
    requires EntryBlocks(bs, d) && k < |bs|
    ensures Joined(bs) == Joined(bs[..k]) + bs[k] + Joined(bs[k + 1..])
    ensures |AtDepth(Joined(bs[..k]), d)| == k
    ensures |AtDepth(Joined(bs), d)| == |bs| && AtDepth(Joined(bs), d)[k] == bs[k][0]
  {
    assert bs == bs[..k] + ([bs[k]] + bs[k + 1..]);
    JoinedConcat(bs[..k], [bs[k]] + bs[k + 1..]);
    assert ([bs[k]] + bs[k + 1..])[1..] == bs[k + 1..];
    assert EntryBlocks(bs[..k], d) by {
      forall j | 0 <= j < k
        ensures |bs[..k][j]| > 0 && bs[..k][j][0].depth == d && AtLeast(bs[..k][j][1..], d + 1)
      {
        assert bs[..k][j] == bs[j];
      }
    }
    JoinedHeads(bs[..k], d);
    JoinedHeads(bs, d);
  }
}

=== FILE: decimal.dfy ===
/** Decimal rendering of integers, as `%u`, `%d` and `operator<<` print them,
    with its inverse. Injectivity of the rendering is what makes generated
    names such as `unknown_<n>` and `anon_<n>$` collision-free. */
module Decimal {

  predicate IsDigit(c: char) {
    '0' <= c <= '9'
  }

  function DigitChar(d: nat): (c: char)
    requires d < 10
    ensures IsDigit(c)
    ensures c as int - '0' as int == d
  {
    "0123456789"[d]
  }

  function DigitValue(c: char): nat
    requires IsDigit(c)
  {
    c as int - '0' as int
  }

  /** `n` in base ten, most significant digit first, no leading zeros. */
  function NatToDecimal(n: nat): (s: string)
    ensures 1 <= |s|
    ensures forall i :: 0 <= i < |s| ==> IsDigit(s[i])
    ensures n < 10 <==> |s| == 1
  {
    if n < 10 then [DigitChar(n)] else NatToDecimal(n / 10) + [DigitChar(n % 10)]
  }

  /** Reads a string of digits back as a number. */
  function DecimalValue(s: string): nat
    requires forall i :: 0 <= i < |s| ==> IsDigit(s[i])
  {
    if |s| == 0 then 0 else DecimalValue(s[..|s| - 1]) * 10 + DigitValue(s[|s| - 1])
  }

  lemma {:induction false} DecimalRoundTrip(n: nat)
    ensures DecimalValue(NatToDecimal(n)) == n
  {
    if n >= 10 {
      var s := NatToDecimal(n);
      assert s[..|s| - 1] == NatToDecimal(n / 10);
      DecimalRoundTrip(n / 10);
    }
  }

  lemma NatToDecimalInjective(a: nat, b: nat)
    ensures NatToDecimal(a) == NatToDecimal(b) <==> a == b
  {
    if NatToDecimal(a) == NatToDecimal(b) {
      DecimalRoundTrip(a);
      DecimalRoundTrip(b);
    }
  }

  /** `%d` of a signed value: a minus sign, then the magnitude. */
  function IntToDecimal(i: int): (s: string)
    ensures 1 <= |s|
    ensures i >= 0 ==> s == NatToDecimal(i)
    ensures i < 0 ==> s[0] == '-' && s[1..] == NatToDecimal(-i)
  {
    if i < 0 then "-" + NatToDecimal(-i) else NatToDecimal(i)
  }

  lemma IntToDecimalInjective(a: int, b: int)
    ensures IntToDecimal(a) == IntToDecimal(b) <==> a == b
  {
    var sa, sb := IntToDecimal(a), IntToDecimal(b);
    if a != b {
      if a < 0 && b < 0 {
        NatToDecimalInjective(-a, -b);
        assert sa[1..] != sb[1..];
      } else if a >= 0 && b >= 0 {
        NatToDecimalInjective(a, b);
      } else if a < 0 {
        assert sa[0] == '-' && IsDigit(sb[0]);
      } else {
        assert sb[0] == '-' && IsDigit(sa[0]);
      }
    }
  }

  /** Two to the 32: the range of the plugins' `unsigned` counters. */
  const U32: nat := 0x1_0000_0000

  /** `++x` on a 32-bit unsigned counter. */
  function Next32(n: nat): (r: nat)
    ensures r < U32
    ensures n + 1 < U32 ==> r == n + 1
    ensures n + 1 == U32 ==> r == 0
  {
    (n + 1) % U32
  }

  /** Conversion of a 64-bit value to a 32-bit `int` on a two's-complement host. */
  function ToInt32(v: int): (r: int)
    ensures -0x8000_0000 <= r < 0x8000_0000
    ensures (r - v) % U32 == 0
    ensures -0x8000_0000 <= v < 0x8000_0000 ==> r == v
  {
    var w := v % U32;
    assert 0 <= v < U32 ==> w == v;
    assert 0 <= v + U32 && v < 0 ==> w == v + U32;
    if w >= 0x8000_0000 then w - U32 else w
  }

  /** `%u` of a value held in a 32-bit variable: the value modulo 2^32,
      so -1 prints as 4294967295. */
  function UnsignedText(v: int): (s: string)
    ensures forall i :: 0 <= i < |s| ==> IsDigit(s[i])
    ensures 0 <= v < U32 ==> s == NatToDecimal(v)
  {
    var w: nat := v % U32;
    assert 0 <= v < U32 ==> w == v;
    NatToDecimal(w)
  }

  /** Values 2^32 apart print alike through `%u`. */
  lemma UnsignedWraps(v: int)
    ensures UnsignedText(v + U32) == UnsignedText(v)
  {
    assert (v + U32) % U32 == v % U32;
  }

  /** `%d` of a value held in a 32-bit `int`. */
  function SignedText(v: int): (s: string)
    ensures -0x8000_0000 <= v < 0x8000_0000 ==> s == IntToDecimal(v)
  {
    IntToDecimal(ToInt32(v))
  }

  /** The sentinel -1 through `%u`. */
  lemma UnsignedMinusOne()
    ensures UnsignedText(-1) == "4294967295"
  {
    assert (-1) % U32 == 4294967295;
    assert NatToDecimal(4) == "4";
    assert NatToDecimal(42) == "42";
    assert NatToDecimal(429) == "429";
    assert NatToDecimal(4294) == "4294";
    assert NatToDecimal(42949) == "42949";
    assert NatToDecimal(429496) == "429496";
    assert NatToDecimal(4294967) == "4294967";
    assert NatToDecimal(42949672) == "42949672";
    assert NatToDecimal(429496729) == "429496729";
  }

  /** The sentinel -1 through `%d`. */
  lemma SignedMinusOne()
    ensures SignedText(-1) == "-1"
  {
    assert NatToDecimal(1) == "1";
  }
}

=== FILE: gcc_emitter.dfy ===
/** `_finish_type` of the GCC plugin: the struct record for a finished,
    tagged, complete record type, with its bases, fields and methods. */
module GccEmitter {
  import opened Common
  import opened Decimal
  import opened GccTree
  import opened GccTags
  import opened GccNames

  /** Output of one section: the state after it, its lines and its notes. */
  datatype Section = Section(st: GccState, lines: seq<Line>, log: seq<Diagnostic>)

  /** Output of a section that leaves the state alone: its lines and notes. */
  datatype Block = Block(lines: seq<Line>, log: seq<Diagnostic>)

  /** `_access_to_str`. */
  function AccessText(a: Access): string {
    match a
    case Public => "public"
    case Protected => "protected"
    case Private => "private"
  }

  /** Reads an access text back; the inverse of `AccessText`. */
  function AccessOfText(s: string): Option<Access> {
    if s == "public" then Some(Public)
    else if s == "protected" then Some(Protected)
    else if s == "private" then Some(Private)
    else None
  }

  /** Every access text reads back as its access. */
  lemma AccessRoundTrip(a: Access)
    ensures AccessOfText(AccessText(a)) == Some(a)
  {
  }

  /** So the three accesses print three different texts. */
  lemma AccessTextsDistinct(a: Access, b: Access)
    ensures AccessText(a) == AccessText(b) <==> a == b
  {
    AccessRoundTrip(a);
    AccessRoundTrip(b);
  }

  /** A host value that could not be resolved prints as the sentinel -1. */
  function OrSentinel(v: Option<int>): int {
    if v.Some? then v.value else -1
  }

  function NatOrSentinel(v: Option<nat>): int {
    if v.Some? then v.value else -1
  }

  // ---------------------------------------------------------------------
  // Reference lines.

  /** A `ref: *<id>` line of a base entry. */
  predicate IsRefLine(l: Line) {
    l.depth == 2 && |l.text| >= 6 && l.text[..6] == "ref: *"
  }

  /** Every back-reference in `lines` names an identity in `defined`. */
  predicate RefsDefined(lines: seq<Line>, defined: set<string>) {
    forall j :: 0 <= j < |lines| && IsRefLine(lines[j]) ==> lines[j].text[6..] in defined
  }

  predicate NoRefs(lines: seq<Line>) {
    forall j :: 0 <= j < |lines| ==> !IsRefLine(lines[j])
  }

  lemma RefsDefinedConcat(a: seq<Line>, b: seq<Line>, defined: set<string>)
    requires RefsDefined(a, defined) && RefsDefined(b, defined)
    ensures RefsDefined(a + b, defined)
  {
    forall j | 0 <= j < |a + b| && IsRefLine((a + b)[j])
      ensures (a + b)[j].text[6..] in defined
    {
      if j >= |a| {
        assert (a + b)[j] == b[j - |a|];
      }
    }
  }

  lemma NoRefsConcat(a: seq<Line>, b: seq<Line>)
    requires NoRefs(a) && NoRefs(b)
    ensures NoRefs(a + b)
  {
    forall j | 0 <= j < |a + b|
      ensures !IsRefLine((a + b)[j])
    {
      if j >= |a| {
        assert (a + b)[j] == b[j - |a|];
      }
    }
  }

  /** A line whose text does not start with `r` is no reference. */
  lemma NotRefLine(l: Line)
    requires |l.text| > 0 && l.text[0] != 'r'
    ensures !IsRefLine(l)
  {
    if |l.text| >= 6 {
      assert l.text[..6][0] == l.text[0];
    }
  }

  /** The last lines of `head + tail` are `tail`. */
  lemma MiddleIs(head: seq<Line>, mid: seq<Line>, tail: seq<Line>)
    ensures (head + mid + tail)[|head|..|head + mid + tail| - |tail|] == mid
  {
    assert (head + mid + tail)[|head|..|head + mid + tail| - |tail|] == (head + mid + tail)[|head|..][..|mid|];
  }

  lemma TailIs(head: seq<Line>, tail: seq<Line>)
    ensures (head + tail)[|head + tail| - |tail|..] == tail
  {
  }

  /** The lines of a tag block are no references. */
  lemma TagLinesNoRefs(lines: seq<Line>, ind: nat)
    requires forall l :: l in lines && l.depth == ind ==> l.text == "tags:"
    requires forall l :: l in lines && l.depth == ind + 1 ==> l.text == "-"
    requires forall l :: l in lines ==> ind <= l.depth <= ind + 2
    requires ind == 1 || ind == 2
    ensures NoRefs(lines)
  {
    forall j | 0 <= j < |lines|
      ensures !IsRefLine(lines[j])
    {
      assert lines[j] in lines;
      if lines[j].depth == 2 {
        assert lines[j].text == "tags:" || lines[j].text == "-";
        NotRefLine(lines[j]);
      }
    }
  }

  // ---------------------------------------------------------------------
  // Bases.

  function BaseSlot(i: nat): Line {
    Line(1, "base_" + NatToDecimal(i) + "$: !compex/base")
  }

  /** The slot lines `base_i..base_{i+n-1}`. */
  function BaseSlots(i: nat, n: nat): (r: seq<Line>)
    ensures |r| == n
    decreases n
  {
    if n == 0 then [] else [BaseSlot(i)] + BaseSlots(i + 1, n - 1)
  }

  /** One `base_<i>$` entry. */
  function EmitBase(st: GccState, hasAccessVector: bool, b: BaseInfo, i: nat): (r: Section)
    ensures r.st.defined == st.defined && r.st.counter == st.counter && r.log == []
    ensures b.ty.code == RecordType ==> r.st == st
    ensures r.st == MangleRef(st, b.ty).st
    ensures |r.lines| >= 3 && r.lines[0] == BaseSlot(i)
    ensures AllAt(r.lines[1..], 2)
    ensures !hasAccessVector ==> r.lines[1] == Line(2, "access: public")
    ensures hasAccessVector ==> r.lines[1] == Line(2, "access: " + AccessText(b.access))
    ensures Line(2, "virtual: true") in r.lines <==> b.isVirtual
    ensures Line(2, "name: " + b.ty.name) in r.lines
    ensures RefsDefined(r.lines, st.defined)
    ensures b.ty.code == RecordType ==>
              ((exists j :: 0 <= j < |r.lines| && IsRefLine(r.lines[j])) <==> RecordName(b.ty.name) in st.defined)
    ensures b.ty.code == RecordType && RecordName(b.ty.name) in st.defined ==>
              Line(2, "ref: *" + RecordName(b.ty.name)) in r.lines
    ensures b.ty.code == RecordType ==>
              forall j :: 0 <= j < |r.lines| && IsRefLine(r.lines[j]) ==> r.lines[j] == Line(2, "ref: *" + RecordName(b.ty.name))
  {
    var access := if hasAccessVector then b.access else Public;
    var look := MangleRef(st, b.ty);
    var accessLine := Line(2, "access: " + AccessText(access));
    var virt := if b.isVirtual then [Line(2, "virtual: true")] else [];
    var nameLine := Line(2, "name: " + b.ty.name);
    var refs := if look.ref.Some? then [Line(2, "ref: *" + look.ref.value)] else [];
    var lines := [BaseSlot(i), accessLine] + virt + [nameLine] + refs;
    BaseEntryFacts(i, accessLine, virt, nameLine, refs, b.isVirtual, look.ref, st.defined);
    PublicAccessLine();
    Section(look.st, lines, [])
  }

  lemma PublicAccessLine()
    ensures "access: " + AccessText(Public) == "access: public"
  {
  }

  lemma BaseEntryFacts(i: nat, accessLine: Line, virt: seq<Line>, nameLine: Line, refs: seq<Line>,
                       isVirtual: bool, ref: Option<string>, defined: set<string>)
    requires accessLine.depth == 2 && |accessLine.text| > 0 && accessLine.text[0] == 'a'
    requires nameLine.depth == 2 && |nameLine.text| > 0 && nameLine.text[0] == 'n'
    requires virt == if isVirtual then [Line(2, "virtual: true")] else []
    requires ref.Some? ==> ref.value in defined
    requires refs == if ref.Some? then [Line(2, "ref: *" + ref.value)] else []
    ensures var lines := [BaseSlot(i), accessLine] + virt + [nameLine] + refs;
            && |lines| >= 3 && lines[0] == BaseSlot(i) && lines[1] == accessLine
            && AllAt(lines[1..], 2)
            && (Line(2, "virtual: true") in lines <==> isVirtual)
            && RefsDefined(lines, defined)
            && ((exists j :: 0 <= j < |lines| && IsRefLine(lines[j])) <==> ref.Some?)
            && nameLine in lines
            && (ref.Some? ==> Line(2, "ref: *" + ref.value) in lines)
            && (forall j :: 0 <= j < |lines| && IsRefLine(lines[j]) ==> ref.Some? && lines[j] == Line(2, "ref: *" + ref.value))
  {
    var lines := [BaseSlot(i), accessLine] + virt + [nameLine] + refs;
    NotRefLine(accessLine);
    NotRefLine(nameLine);
    assert Line(2, "virtual: true").text[0] == 'v';
    NotRefLine(Line(2, "virtual: true"));
    assert !IsRefLine(BaseSlot(i));
    if ref.Some? {
      var l := Line(2, "ref: *" + ref.value);
      assert l.text[..6] == "ref: *";
      assert l.text[6..] == ref.value;
      assert lines[|lines| - 1] == l;
      assert Line(2, "virtual: true") != l by { assert l.text[0] == 'r'; }
    }
    forall j | 0 <= j < |lines| - |refs|
      ensures !IsRefLine(lines[j])
      ensures j >= 1 ==> lines[j].depth == 2
    {
      if j == 1 {
        assert lines[j] == accessLine;
      } else if 2 <= j < 2 + |virt| {
        assert lines[j] == virt[j - 2];
      } else if j == 2 + |virt| {
        assert lines[j] == nameLine;
      }
    }
    forall j | 0 <= j < |lines| - 1
      ensures lines[1..][j].depth == 2
    {
      if j + 1 >= |lines| - |refs| {
        assert lines[j + 1] == refs[j + 1 - (|lines| - |refs|)];
      }
    }
  }

  /** The `base_<i>$` entries, numbered from `i` in binfo order. */
  function EmitBases(st: GccState, hasAccessVector: bool, bases: seq<BaseInfo>, i: nat): (r: Section)
    ensures r.st.defined == st.defined && r.st.counter == st.counter && r.log == []
    ensures AtDepth(r.lines, 1) == BaseSlots(i, |bases|)
    ensures AtLeast(r.lines, 1)
    ensures RefsDefined(r.lines, st.defined)
    decreases |bases|
  {
    if |bases| == 0 then Section(st, [], [])
    else
      var e := EmitBase(st, hasAccessVector, bases[0], i);
      var rest := EmitBases(e.st, hasAccessVector, bases[1..], i + 1);
      HeadThenRest(e.lines, rest.lines, 1);
      RefsDefinedConcat(e.lines, rest.lines, st.defined);
      Section(rest.st, e.lines + rest.lines, [])
  }

  /** Every base of the list shows up in the emitted entries by name, and a
      record base whose anchor is already defined is referenced by it. */
  lemma {:induction false} EmitBasesNamed(st: GccState, hasAccessVector: bool, bases: seq<BaseInfo>, i: nat)
    ensures BasesNamed(bases, EmitBases(st, hasAccessVector, bases, i).lines, st.defined)
    decreases |bases|
  {
    if |bases| > 0 {
      var e := EmitBase(st, hasAccessVector, bases[0], i);
      var rest := EmitBases(e.st, hasAccessVector, bases[1..], i + 1);
      EmitBasesNamed(e.st, hasAccessVector, bases[1..], i + 1);
      assert EmitBases(st, hasAccessVector, bases, i).lines == e.lines + rest.lines;
      BasesJoin(bases, e.lines, rest.lines, st.defined);
    }
  }

  /** What every base entry of a list shows: its `name:` line, and the
      reference to a record base whose anchor is defined. */
  predicate BasesNamed(bases: seq<BaseInfo>, lines: seq<Line>, defined: set<string>) {
    forall j :: 0 <= j < |bases| ==>
      && Line(2, "name: " + bases[j].ty.name) in lines
      && (bases[j].ty.code == RecordType && RecordName(bases[j].ty.name) in defined ==>
            Line(2, "ref: *" + RecordName(bases[j].ty.name)) in lines)
  }

  /** A base entry followed by the entries of the remaining bases. */
  lemma BasesJoin(bases: seq<BaseInfo>, e: seq<Line>, rest: seq<Line>, defined: set<string>)
    requires |bases| > 0
    requires Line(2, "name: " + bases[0].ty.name) in e
    requires bases[0].ty.code == RecordType && RecordName(bases[0].ty.name) in defined ==>
               Line(2, "ref: *" + RecordName(bases[0].ty.name)) in e
    requires BasesNamed(bases[1..], rest, defined)
    ensures BasesNamed(bases, e + rest, defined)
  {
    forall j | 0 <= j < |bases|
      ensures && Line(2, "name: " + bases[j].ty.name) in e + rest
              && (bases[j].ty.code == RecordType && RecordName(bases[j].ty.name) in defined ==>
                    Line(2, "ref: *" + RecordName(bases[j].ty.name)) in e + rest)
    {
      if j > 0 {
        assert bases[1..][j - 1] == bases[j];
      }
    }
  }

  /** The state in which the `k`-th base is looked up: each lookup before
      it may have minted an `unk_` number. */
  function BaseStateBefore(st: GccState, bases: seq<BaseInfo>, k: nat): GccState
    requires k <= |bases|
    decreases k
  {
    if k == 0 then st else MangleRef(BaseStateBefore(st, bases, k - 1), bases[k - 1].ty).st
  }

  /** The entry of every base, the `k`-th numbered `i + k`. */
  function BaseEntries(st: GccState, hasAccessVector: bool, bases: seq<BaseInfo>, i: nat): (r: seq<seq<Line>>)
    ensures |r| == |bases|
    ensures forall k :: 0 <= k < |bases| ==> r[k] == BaseEntryAt(st, hasAccessVector, bases, i, k)
  {
    seq(|bases|, k requires 0 <= k < |bases| => BaseEntryAt(st, hasAccessVector, bases, i, k))
  }

  /** The entry of the `k`-th base, written in the state the bases before
      it left. */
  function BaseEntryAt(st: GccState, hasAccessVector: bool, bases: seq<BaseInfo>, i: nat, k: nat): seq<Line>
    requires k < |bases|
  {
    EmitBase(BaseStateBefore(st, bases, k), hasAccessVector, bases[k], i + k).lines
  }

  lemma {:induction false} BaseStateShift(st: GccState, bases: seq<BaseInfo>, k: nat)
    requires k < |bases|
    ensures BaseStateBefore(st, bases, k + 1) == BaseStateBefore(BaseStateBefore(st, bases, 1), bases[1..], k)
    decreases k
  {
    if k > 0 {
      BaseStateShift(st, bases, k - 1);
      assert bases[1..][k - 1] == bases[k];
    }
  }

  lemma BaseEntryShift(st: GccState, hasAccessVector: bool, bases: seq<BaseInfo>, i: nat, k: nat, st1: GccState)
    requires k + 1 < |bases| && st1 == BaseStateBefore(st, bases, 1)
    ensures BaseEntryAt(st, hasAccessVector, bases, i, k + 1) == BaseEntryAt(st1, hasAccessVector, bases[1..], i + 1, k)
  {
    BaseStateShift(st, bases, k);
    assert bases[1..][k] == bases[k + 1];
    assert i + (k + 1) == (i + 1) + k;
  }

  /** After the first base, the entries are those of the remaining bases
      written from the state the first one leaves. */
  lemma BaseEntriesShift(st: GccState, hasAccessVector: bool, bases: seq<BaseInfo>, i: nat, st1: GccState)
    requires 0 < |bases| && st1 == MangleRef(st, bases[0].ty).st
    ensures BaseEntries(st, hasAccessVector, bases, i)[1..] == BaseEntries(st1, hasAccessVector, bases[1..], i + 1)
  {
    var es := BaseEntries(st, hasAccessVector, bases, i);
    var tail := BaseEntries(st1, hasAccessVector, bases[1..], i + 1);
    assert st1 == BaseStateBefore(st, bases, 1);
    forall k | 0 <= k < |bases| - 1
      ensures es[1..][k] == tail[k]
    {
      BaseEntryShift(st, hasAccessVector, bases, i, k, st1);
    }
  }

  /** The base section is the bases' own entries, one after another. */
  lemma {:induction false} BasesEntryWise(st: GccState, hasAccessVector: bool, bases: seq<BaseInfo>, i: nat)
    ensures EmitBases(st, hasAccessVector, bases, i).lines == Joined(BaseEntries(st, hasAccessVector, bases, i))
    decreases |bases|
  {
    if |bases| > 0 {
      var es := BaseEntries(st, hasAccessVector, bases, i);
      var e := EmitBase(st, hasAccessVector, bases[0], i);
      BasesEntryWise(e.st, hasAccessVector, bases[1..], i + 1);
      BaseEntriesShift(st, hasAccessVector, bases, i, e.st);
      assert es[0] == e.lines by {
        assert BaseStateBefore(st, bases, 0) == st;
      }
      assert Joined(es) == es[0] + Joined(es[1..]);
      assert EmitBases(st, hasAccessVector, bases, i).lines
          == e.lines + EmitBases(e.st, hasAccessVector, bases[1..], i + 1).lines;
    }
  }

  /** The `k`-th base, in binfo order, owns the entry under the `k`-th
      depth-1 line `base_<i + k>$`: the entry gives its access (public
      without an access vector), says `virtual: true` exactly when it is a
      virtual base, and names it. */
  lemma BaseEntriesInOrder(st: GccState, hasAccessVector: bool, bases: seq<BaseInfo>, i: nat)
    ensures var es := BaseEntries(st, hasAccessVector, bases, i);
            && EmitBases(st, hasAccessVector, bases, i).lines == Joined(es)
            && EntryBlocks(es, 1)
            && forall k :: 0 <= k < |bases| ==>
                 && es[k][0] == BaseSlot(i + k)
                 && es[k][1] == Line(2, "access: " + AccessText(if hasAccessVector then bases[k].access else Public))
                 && (Line(2, "virtual: true") in es[k] <==> bases[k].isVirtual)
                 && Line(2, "name: " + bases[k].ty.name) in es[k]
  {
    BasesEntryWise(st, hasAccessVector, bases, i);
    var es := BaseEntries(st, hasAccessVector, bases, i);
    forall k | 0 <= k < |bases|
      ensures && es[k][0] == BaseSlot(i + k)
              && es[k][1] == Line(2, "access: " + AccessText(if hasAccessVector then bases[k].access else Public))
              && (Line(2, "virtual: true") in es[k] <==> bases[k].isVirtual)
              && Line(2, "name: " + bases[k].ty.name) in es[k]
              && |es[k]| > 0 && es[k][0].depth == 1 && AtLeast(es[k][1..], 2)
    {
      BaseEntryShown(BaseStateBefore(st, bases, k), hasAccessVector, bases[k], i + k);
    }
  }

  /** One base's entry, stated without its state. */
  lemma BaseEntryShown(st: GccState, hasAccessVector: bool, b: BaseInfo, number: nat)
    ensures var e := EmitBase(st, hasAccessVector, b, number).lines;
            && e[0] == BaseSlot(number)
            && e[1] == Line(2, "access: " + AccessText(if hasAccessVector then b.access else Public))
            && (Line(2, "virtual: true") in e <==> b.isVirtual)
            && Line(2, "name: " + b.ty.name) in e
            && |e| > 0 && e[0].depth == 1 && AtLeast(e[1..], 2)
  {
    PublicAccessLine();
  }

  // ---------------------------------------------------------------------
  // Fields.

  /** The slot name of the n-th anonymous field. */
  function AnonName(n: nat): string {
    "anon_" + NatToDecimal(n) + "$"
  }

  lemma AnonNamesDistinct(a: nat, b: nat)
    ensures AnonName(a) == AnonName(b) <==> a == b
  {
    if AnonName(a) == AnonName(b) {
      var sa := NatToDecimal(a);
      var sb := NatToDecimal(b);
      assert AnonName(a) == "anon_" + sa + "$";
      assert sa == AnonName(a)[5..|AnonName(a)| - 1];
      assert sb == AnonName(b)[5..|AnonName(b)| - 1];
      NatToDecimalInjective(a, b);
    }
  }

  datatype FieldOut = FieldOut(counter: nat, lines: seq<Line>, log: seq<Diagnostic>)

  function FieldHeader(slot: string): Line {
    Line(1, slot + ": !compex/field")
  }

  /** The measurements of a field entry: `size` through the `%d` of an
      `int`, `offset` and `boffset` through the `%u` of an `unsigned`, each
      from the sentinel -1 when it cannot be resolved. */
  function FieldMeasures(f: Field): (r: seq<Line>)
    ensures |r| == 5
    ensures forall j :: 0 <= j < 5 ==> r[j].depth == 2 && |r[j].text| > 1 && r[j].text[0] in "sabo"
    ensures forall j :: 0 <= j < 5 && r[j].text[0] == 'b' ==> r[j].text[1] == 'o'
    ensures forall j :: 0 <= j < 5 && r[j].text[0] == 'a' ==> r[j].text[1] == 'l'
    ensures && "size: " <= r[0].text && "align: " <= r[1].text && "offset: " <= r[2].text
            && "boffset: " <= r[3].text && "oalign: " <= r[4].text
  {
    [ Measure("size: ", SignedText(OrSentinel(f.size))),
      Measure("align: ", NatToDecimal(f.align)),
      Measure("offset: ", UnsignedText(NatOrSentinel(f.offset))),
      Measure("boffset: ", UnsignedText(NatOrSentinel(f.bitOffset))),
      Measure("oalign: ", NatToDecimal(f.offsetAlign)) ]
  }

  /** A `<key><value>` line of a field entry. */
  function Measure(key: string, value: string): (l: Line)
    requires |key| > 1
    ensures l.depth == 2 && |l.text| > 1 && l.text[0] == key[0] && l.text[1] == key[1]
  {
    Line(2, key + value)
  }

  /** The measurements by position: `size` as the `%d` of the size cut to
      an `int`, `align` and `oalign` as their values, `offset` and
      `boffset` as the `%u` of the offsets cut to an `unsigned`. */
  lemma MeasuresPrinted(f: Field)
    ensures var r := FieldMeasures(f);
            && (f.size.Some? && -0x8000_0000 <= f.size.value < 0x8000_0000 ==>
                  r[0] == Line(2, "size: " + IntToDecimal(f.size.value)))
            && (f.size.Some? ==> r[0] == Line(2, "size: " + IntToDecimal(ToInt32(f.size.value))))
            && r[1] == Line(2, "align: " + NatToDecimal(f.align))
            && (f.offset.Some? ==> r[2] == Line(2, "offset: " + NatToDecimal(f.offset.value % U32)))
            && (f.offset.Some? && f.offset.value < U32 ==> r[2] == Line(2, "offset: " + NatToDecimal(f.offset.value)))
            && (f.bitOffset.Some? ==> r[3] == Line(2, "boffset: " + NatToDecimal(f.bitOffset.value % U32)))
            && r[4] == Line(2, "oalign: " + NatToDecimal(f.offsetAlign))
  {
  }

  /** A size that cannot be resolved prints as -1; an offset as 4294967295. */
  lemma UnresolvedMeasures(f: Field)
    ensures f.size.None? ==> FieldMeasures(f)[0] == Line(2, "size: -1")
    ensures f.offset.None? ==> FieldMeasures(f)[2] == Line(2, "offset: 4294967295")
    ensures f.bitOffset.None? ==> FieldMeasures(f)[3] == Line(2, "boffset: 4294967295")
  {
    SentinelTexts();
  }

  lemma SentinelTexts()
    ensures "size: " + SignedText(-1) == "size: -1"
    ensures "offset: " + UnsignedText(-1) == "offset: 4294967295"
    ensures "boffset: " + UnsignedText(-1) == "boffset: 4294967295"
  {
    SignedMinusOne();
    UnsignedMinusOne();
  }

  /** The numbers a reader recovers from the five measurement lines. */
  datatype MeasureValues = MeasureValues(size: int, align: nat, offset: nat, bitOffset: nat, offsetAlign: nat)

  /** Reads a decimal with an optional leading `-`. */
  function ReadSigned(s: string): Option<int> {
    if |s| > 0 && forall i :: 0 <= i < |s| ==> IsDigit(s[i]) then Some(DecimalValue(s))
    else if |s| > 1 && s[0] == '-' && forall i :: 0 <= i < |s[1..]| ==> IsDigit(s[1..][i]) then Some(-(DecimalValue(s[1..]) as int))
    else None
  }

  /** The number on a `<key><value>` line at depth `d`. */
  function ReadValue(d: nat, key: string, l: Line): Option<int> {
    if l.depth == d && |key| <= |l.text| && l.text[..|key|] == key then ReadSigned(l.text[|key|..]) else None
  }

  /** Reads the five measurement lines back, or fails. */
  function ReadMeasures(ls: seq<Line>): Option<MeasureValues> {
    if |ls| != 5 then None
    else
      var size := ReadValue(2, "size: ", ls[0]);
      var align := ReadValue(2, "align: ", ls[1]);
      var offset := ReadValue(2, "offset: ", ls[2]);
      var bitOffset := ReadValue(2, "boffset: ", ls[3]);
      var offsetAlign := ReadValue(2, "oalign: ", ls[4]);
      if size.Some? && align.Some? && offset.Some? && bitOffset.Some? && offsetAlign.Some?
         && align.value >= 0 && offset.value >= 0 && bitOffset.value >= 0 && offsetAlign.value >= 0
      then Some(MeasureValues(size.value, align.value, offset.value, bitOffset.value, offsetAlign.value))
      else None
  }

  lemma ReadsSigned(d: nat, key: string, i: int)
    ensures ReadValue(d, key, Line(d, key + IntToDecimal(i))) == Some(i)
  {
    var s := IntToDecimal(i);
    assert (key + s)[..|key|] == key && (key + s)[|key|..] == s;
    if i >= 0 {
      DecimalRoundTrip(i);
    } else {
      DecimalRoundTrip(-i);
      assert !IsDigit(s[0]);
      assert s[1..] == NatToDecimal(-i);
    }
  }

  lemma ReadsNatural(d: nat, key: string, n: nat)
    ensures ReadValue(d, key, Line(d, key + NatToDecimal(n))) == Some(n)
  {
    ReadsSigned(d, key, n);
  }

  /** A reader recovers what `_finish_type` prints for a field: the size
      cut to an `int`, the offsets cut to an `unsigned`, and the sentinel
      -1 (4294967295 unsigned) for what could not be resolved. */
  lemma MeasuresReadBack(f: Field)
    ensures ReadMeasures(FieldMeasures(f)) == Some(MeasureValues(
              if f.size.Some? then ToInt32(f.size.value) else -1,
              f.align,
              if f.offset.Some? then f.offset.value % U32 else U32 - 1,
              if f.bitOffset.Some? then f.bitOffset.value % U32 else U32 - 1,
              f.offsetAlign))
  {
    var size := if f.size.Some? then ToInt32(f.size.value) else -1;
    var offset: nat := if f.offset.Some? then f.offset.value % U32 else U32 - 1;
    var bitOffset: nat := if f.bitOffset.Some? then f.bitOffset.value % U32 else U32 - 1;
    MeasureTexts(f);
    ReadsSigned(2, "size: ", size);
    ReadsNatural(2, "align: ", f.align);
    ReadsNatural(2, "offset: ", offset);
    ReadsNatural(2, "boffset: ", bitOffset);
    ReadsNatural(2, "oalign: ", f.offsetAlign);
  }

  /** The measurement lines with the sentinels written out. */
  lemma MeasureTexts(f: Field)
    ensures FieldMeasures(f)[0] == Line(2, "size: " + IntToDecimal(if f.size.Some? then ToInt32(f.size.value) else -1))
    ensures FieldMeasures(f)[2] == Line(2, "offset: " + NatToDecimal(if f.offset.Some? then f.offset.value % U32 else U32 - 1))
    ensures FieldMeasures(f)[3] == Line(2, "boffset: " + NatToDecimal(if f.bitOffset.Some? then f.bitOffset.value % U32 else U32 - 1))
  {
    assert ToInt32(-1) == -1;
    assert (-1) % U32 == U32 - 1;
  }

  /** A `<key>: true` line written only when its predicate holds. */
  function FlagIf(b: bool, text: string): (r: seq<Line>)
    ensures forall l :: l in r ==> l == Line(2, text)
    ensures Line(2, text) in r <==> b
  {
    if b then [Line(2, text)] else []
  }

  /** How many of the three field predicates hold. */
  function FieldFlagCount(f: Field, anonymous: bool): nat {
    (if f.artificial then 1 else 0) + (if anonymous then 1 else 0) + (if f.bitfield then 1 else 0)
  }

  /** The position at which `_finish_type` asks a field predicate. */
  function FieldFlagRank(text: string): nat {
    if text == "artificial: true" then 0 else if text == "unknown: true" then 1 else 2
  }

  /** The predicates of a field entry: one line per predicate that holds. */
  function FieldFlags(f: Field, anonymous: bool): (r: seq<Line>)
    ensures forall l :: l in r ==> l.depth == 2 && |l.text| > 0 && l.text[0] in "aub"
    ensures Line(2, "artificial: true") in r <==> f.artificial
    ensures Line(2, "unknown: true") in r <==> anonymous
    ensures Line(2, "bitfield: true") in r <==> f.bitfield
    ensures |r| == FieldFlagCount(f, anonymous)
  {
    FieldFlagsFacts(f.artificial, anonymous, f.bitfield);
    FlagIf(f.artificial, "artificial: true") + FlagIf(anonymous, "unknown: true") + FlagIf(f.bitfield, "bitfield: true")
  }

  /** The predicate lines are written each once, in the order they are
      asked, and no other line is among them. */
  lemma FieldFlagsInOrder(f: Field, anonymous: bool)
    ensures var r := FieldFlags(f, anonymous);
            && (forall l :: l in r ==> l.text in {"artificial: true", "unknown: true", "bitfield: true"})
            && (forall a, b :: 0 <= a < b < |r| ==> FieldFlagRank(r[a].text) < FieldFlagRank(r[b].text))
  {
    FieldFlagsFacts(f.artificial, anonymous, f.bitfield);
  }

  lemma FieldFlagsFacts(x: bool, y: bool, z: bool)
    ensures var r := FlagIf(x, "artificial: true") + FlagIf(y, "unknown: true") + FlagIf(z, "bitfield: true");
            && (forall l :: l in r ==> l.depth == 2 && |l.text| > 0 && l.text[0] in "aub")
            && (forall l :: l in r ==> l.text in {"artificial: true", "unknown: true", "bitfield: true"})
            && (Line(2, "artificial: true") in r <==> x)
            && (Line(2, "unknown: true") in r <==> y)
            && (Line(2, "bitfield: true") in r <==> z)
            && |r| == (if x then 1 else 0) + (if y then 1 else 0) + (if z then 1 else 0)
            && (forall a, b :: 0 <= a < b < |r| ==> FieldFlagRank(r[a].text) < FieldFlagRank(r[b].text))
  {
    var ta, tu, tb := "artificial: true", "unknown: true", "bitfield: true";
    assert ta[0] == 'a' && tu[0] == 'u' && tb[0] == 'b';
    assert ta != tu && ta != tb && tu != tb;
    assert FieldFlagRank(ta) == 0 && FieldFlagRank(tu) == 1 && FieldFlagRank(tb) == 2;
    if x {
      if y { if z { } else { } } else { if z { } else { } }
    } else {
      if y { if z { } else { } } else { if z { } else { } }
    }
  }

  /** The depth-2 lines of a field entry that follow its optional `name:`. */
  function FieldBody(f: Field, anonymous: bool): (r: seq<Line>)
    ensures |r| >= 5 && r[..5] == FieldMeasures(f) && r[5..] == FieldFlags(f, anonymous)
    ensures forall l :: l in r ==> l.depth == 2 && |l.text| > 0 && l.text[0] !in "nr"
    ensures Line(2, "artificial: true") in r <==> f.artificial
    ensures Line(2, "unknown: true") in r <==> anonymous
    ensures Line(2, "bitfield: true") in r <==> f.bitfield
  {
    var m := FieldMeasures(f);
    var g := FieldFlags(f, anonymous);
    FieldBodyFacts(m, g, f, anonymous);
    m + g
  }

  lemma FieldBodyFacts(m: seq<Line>, g: seq<Line>, f: Field, anonymous: bool)
    requires |m| == 5
    requires forall j :: 0 <= j < 5 ==> m[j].depth == 2 && |m[j].text| > 1 && m[j].text[0] in "sabo"
    requires forall j :: 0 <= j < 5 && m[j].text[0] == 'b' ==> m[j].text[1] == 'o'
    requires forall j :: 0 <= j < 5 && m[j].text[0] == 'a' ==> m[j].text[1] == 'l'
    requires forall l :: l in g ==> l.depth == 2 && |l.text| > 0 && l.text[0] in "aub"
    requires Line(2, "artificial: true") in g <==> f.artificial
    requires Line(2, "unknown: true") in g <==> anonymous
    requires Line(2, "bitfield: true") in g <==> f.bitfield
    ensures forall l :: l in m + g ==> l.depth == 2 && |l.text| > 0 && l.text[0] !in "nr"
    ensures Line(2, "artificial: true") in m + g <==> f.artificial
    ensures Line(2, "unknown: true") in m + g <==> anonymous
    ensures Line(2, "bitfield: true") in m + g <==> f.bitfield
  {
    forall j | 0 <= j < 5
      ensures m[j] != Line(2, "unknown: true") && m[j] != Line(2, "bitfield: true")
      ensures m[j] != Line(2, "artificial: true")
    {
      assert "artificial: true"[0] == 'a' && "artificial: true"[1] == 'r';
      assert "unknown: true"[0] == 'u';
      assert "bitfield: true"[0] == 'b' && "bitfield: true"[1] == 'i';
    }
    forall l | l in m
      ensures l.depth == 2 && |l.text| > 0 && l.text[0] !in "nr"
    {
      var j :| 0 <= j < 5 && m[j] == l;
    }
  }

  /** One `FIELD_DECL`: only an anonymous field consumes a number. */
  function EmitField(counter: nat, f: Field, how: TagReading): (r: FieldOut)
    ensures |r.lines| > 0 && r.lines[0].depth == 1
    ensures f.name.None? ==> r.counter == Next32(counter)
    ensures f.name.Some? ==> r.counter == counter
    ensures AtLeast(r.lines[1..], 2)
    ensures NoRefs(r.lines)
    ensures var k := if f.name.Some? then 2 else 1;
            |r.lines| >= k + 5 && r.lines[k..k + 5] == FieldMeasures(f)
    ensures var tags := DumpTags(f.typeAttrs, 2, how);
            |r.lines| >= |tags.lines| && r.lines[|r.lines| - |tags.lines|..] == tags.lines && r.log == tags.log
    ensures Line(2, "artificial: true") in r.lines <==> f.artificial
    ensures var k := if f.name.Some? then 2 else 1;
            var n := |DumpTags(f.typeAttrs, 2, how).lines|;
            && |r.lines| == k + 5 + FieldFlagCount(f, f.name.None?) + n
            && r.lines[k + 5..|r.lines| - n] == FieldFlags(f, f.name.None?)
  {
    var anonymous := f.name.None?;
    var c := if anonymous then Next32(counter) else counter;
    var slot := if anonymous then AnonName(c) else f.name.value;
    FieldEntryLinesMeaning(slot, f, how);
    FieldOut(c, FieldEntryLines(slot, f, how), DumpTags(f.typeAttrs, 2, how).log)
  }

  /** The `name:` line, written only for a named field. */
  function NameLine(f: Field): seq<Line> {
    if f.name.None? then [] else [Line(2, "name: " + f.name.value)]
  }

  /** The entry of field `f` under the slot `slot`: the slot header, the
      `name:` line of a named field, the measures and predicates, and the
      tags of the field's type. */
  function FieldEntryLines(slot: string, f: Field, how: TagReading): seq<Line> {
    [FieldHeader(slot)] + NameLine(f) + FieldBody(f, f.name.None?) + DumpTags(f.typeAttrs, 2, how).lines
  }

  /** Where the measures and the predicates sit in a field entry. */
  lemma FieldEntryLayout(f: Field, slot: string, named: seq<Line>, tags: seq<Line>)
    requires named == if f.name.None? then [] else [Line(2, "name: " + f.name.value)]
    ensures var lines := [FieldHeader(slot)] + named + FieldBody(f, f.name.None?) + tags;
            var k := if f.name.Some? then 2 else 1;
            && |lines| >= k + 5 && lines[k..k + 5] == FieldMeasures(f)
            && |lines| == k + 5 + FieldFlagCount(f, f.name.None?) + |tags|
            && lines[k + 5..|lines| - |tags|] == FieldFlags(f, f.name.None?)
  {
    var head := [FieldHeader(slot)] + named;
    assert |head| == if f.name.Some? then 2 else 1;
    EntryLayout(head, FieldBody(f, f.name.None?), tags, FieldMeasures(f), FieldFlags(f, f.name.None?));
  }

  /** A head, then five measures and the predicates, then a tail. */
  lemma EntryLayout(head: seq<Line>, body: seq<Line>, tags: seq<Line>, m: seq<Line>, g: seq<Line>)
    requires |m| == 5 && |body| >= 5 && body[..5] == m && body[5..] == g
    ensures var lines := head + body + tags;
            var k := |head|;
            && |lines| >= k + 5 && lines[k..k + 5] == m
            && |lines| == k + 5 + |g| + |tags| && lines[k + 5..|lines| - |tags|] == g
  {
    MeasuresPlaced(head, body, tags, m);
    FlagsPlaced(head, body, tags, g);
  }

  lemma FlagsPlaced(head: seq<Line>, body: seq<Line>, tags: seq<Line>, g: seq<Line>)
    requires |body| >= 5 && body[5..] == g
    ensures var lines := head + body + tags;
            |lines| == |head| + 5 + |g| + |tags| && lines[|head| + 5..|lines| - |tags|] == g
  {
    var lines := head + body + tags;
    assert lines[|head| + 5..|lines| - |tags|] == body[5..];
  }

  lemma MeasuresPlaced(head: seq<Line>, body: seq<Line>, tags: seq<Line>, m: seq<Line>)
    requires |m| == 5 && |body| >= 5 && body[..5] == m
    ensures |head + body + tags| >= |head| + 5 && (head + body + tags)[|head|..|head| + 5] == m
  {
    assert forall j :: 0 <= j < 5 ==> (head + body + tags)[|head| + j] == body[j];
  }

  /** An anonymous field takes the next `anon_<n>$` slot, has no `name:`
      line and is marked `unknown: true`; a named field is keyed and
      labelled by its name. */
  lemma FieldEntryMeaning(counter: nat, f: Field, how: TagReading)
    ensures var r := EmitField(counter, f, how);
            f.name.None? ==>
              && r.lines[0] == FieldHeader(AnonName(r.counter))
              && Line(2, "unknown: true") in r.lines
              && forall j :: 0 <= j < |r.lines| && r.lines[j].depth == 2 ==> |r.lines[j].text| > 0 && r.lines[j].text[0] != 'n'
    ensures var r := EmitField(counter, f, how);
            f.name.Some? ==>
              && |r.lines| > 1 && r.lines[0] == FieldHeader(f.name.value)
              && r.lines[1] == Line(2, "name: " + f.name.value)
              && Line(2, "unknown: true") !in r.lines
    ensures Line(2, "bitfield: true") in EmitField(counter, f, how).lines <==> f.bitfield
    ensures Line(2, "artificial: true") in EmitField(counter, f, how).lines <==> f.artificial
  {
    var anonymous := f.name.None?;
    var c := if anonymous then Next32(counter) else counter;
    var slot := if anonymous then AnonName(c) else f.name.value;
    FieldEntryFacts(slot, NameLine(f), FieldBody(f, anonymous), DumpTags(f.typeAttrs, 2, how).lines, anonymous, f);
  }

  lemma FieldEntryFacts(slot: string, named: seq<Line>, body: seq<Line>, tags: seq<Line>, anonymous: bool, f: Field)
    requires anonymous <==> f.name.None?
    requires named == if anonymous then [] else [Line(2, "name: " + f.name.value)]
    requires forall l :: l in body ==> l.depth == 2 && |l.text| > 0 && l.text[0] !in "nr"
    requires Line(2, "artificial: true") in body <==> f.artificial
    requires Line(2, "unknown: true") in body <==> anonymous
    requires Line(2, "bitfield: true") in body <==> f.bitfield
    requires forall l :: l in tags ==> 2 <= l.depth <= 4
    requires forall l :: l in tags && l.depth == 2 ==> l.text == "tags:"
    requires forall l :: l in tags && l.depth == 3 ==> l.text == "-"
    ensures var lines := [FieldHeader(slot)] + named + body + tags;
            && |lines| > 0 && lines[0] == FieldHeader(slot)
            && (!anonymous ==> |lines| > 1 && lines[1] == Line(2, "name: " + f.name.value))
            && (anonymous ==> forall j :: 0 <= j < |lines| && lines[j].depth == 2 ==> |lines[j].text| > 0 && lines[j].text[0] != 'n')
            && (Line(2, "artificial: true") in lines <==> f.artificial)
            && (Line(2, "unknown: true") in lines <==> anonymous)
            && (Line(2, "bitfield: true") in lines <==> f.bitfield)
            && AtLeast(lines[1..], 2)
            && NoRefs(lines)
            && lines[|lines| - |tags|..] == tags
  {
    var lines := [FieldHeader(slot)] + named + body + tags;
    assert Line(2, "unknown: true") !in tags;
    assert Line(2, "bitfield: true") !in tags;
    assert Line(2, "artificial: true") !in tags;
    if !anonymous {
      assert Line(2, "name: " + f.name.value) != Line(2, "artificial: true") by {
        assert ("name: " + f.name.value)[0] == 'n';
      }
      assert Line(2, "name: " + f.name.value) != Line(2, "unknown: true") by {
        assert ("name: " + f.name.value)[0] == 'n';
      }
      assert Line(2, "name: " + f.name.value) != Line(2, "bitfield: true") by {
        assert ("name: " + f.name.value)[0] == 'n';
      }
    }
    forall j | 0 <= j < |lines|
      ensures !IsRefLine(lines[j])
      ensures j >= 1 ==> lines[j].depth >= 2
      ensures anonymous && lines[j].depth == 2 ==> |lines[j].text| > 0 && lines[j].text[0] != 'n'
    {
      var l := lines[j];
      if j == 0 {
      } else if j < 1 + |named| {
        assert l == Line(2, "name: " + f.name.value);
        assert l.text[0] == 'n';
        NotRefLine(l);
      } else if j < 1 + |named| + |body| {
        assert l == body[j - 1 - |named|];
        assert l in body;
        NotRefLine(l);
      } else {
        assert l == tags[j - 1 - |named| - |body|];
        assert l in tags;
        if l.depth == 2 {
          assert l.text == "tags:";
          NotRefLine(l);
        }
      }
    }
    assert forall j :: 0 <= j < |lines| - 1 ==> lines[1..][j] == lines[j + 1];
    TailIs([FieldHeader(slot)] + named + body, tags);
  }

  /** A field entry shows each measurement it cannot resolve as -1. */
  lemma UnresolvedFieldMeasures(counter: nat, f: Field, how: TagReading)
    ensures var lines := EmitField(counter, f, how).lines;
            && (f.size.None? ==> Line(2, "size: -1") in lines)
            && (f.offset.None? ==> Line(2, "offset: 4294967295") in lines)
            && (f.bitOffset.None? ==> Line(2, "boffset: 4294967295") in lines)
  {
    var m := FieldMeasures(f);
    UnresolvedMeasures(f);
    assert m[0] in m && m[2] in m && m[3] in m;
  }

  /** Number of `FIELD_DECL`s without a name. */
  function CountAnon(ms: seq<Member>): (n: nat)
    ensures n <= |ms|
  {
    if |ms| == 0 then 0
    else (if ms[0].FieldDecl? && ms[0].f.name.None? then 1 else 0) + CountAnon(ms[1..])
  }

  function CountFields(ms: seq<Member>): (n: nat)
    ensures n <= |ms|
  {
    if |ms| == 0 then 0 else (if ms[0].FieldDecl? then 1 else 0) + CountFields(ms[1..])
  }

  /** The `TYPE_FIELDS` walk: one entry per `FIELD_DECL`, `TYPE_DECL`s
      skipped silently, anything else skipped with a note. */
  function EmitFields(st: GccState, ms: seq<Member>, how: TagReading): (r: Section)
    ensures r.st.defined == st.defined && r.st.unk == st.unk
    ensures AtLeast(r.lines, 1)
    ensures NoRefs(r.lines)
    decreases |ms|
  {
    if |ms| == 0 then Section(st, [], [])
    else
      match ms[0]
      case FieldDecl(f) =>
        var e := EmitField(st.counter, f, how);
        var rest := EmitFields(st.(counter := e.counter), ms[1..], how);
        HeadThenRest(e.lines, rest.lines, 1);
        NoRefsConcat(e.lines, rest.lines);
        Section(rest.st, e.lines + rest.lines, e.log + rest.log)
      case TypeDecl =>
        EmitFields(st, ms[1..], how)
      case OtherMember(code) =>
        var rest := EmitFields(st, ms[1..], how);
        Section(rest.st, rest.lines, [UnexpectedMember(code)] + rest.log)
  }

  /** The `FIELD_DECL`s of a member chain. */
  function FieldsOnly(ms: seq<Member>): (r: seq<Member>)
    ensures forall j :: 0 <= j < |r| ==> r[j].FieldDecl?
  {
    if |ms| == 0 then []
    else (if ms[0].FieldDecl? then [ms[0]] else []) + FieldsOnly(ms[1..])
  }

  /** The notes for the members that are neither fields nor type declarations. */
  function UnexpectedNotes(ms: seq<Member>): seq<Diagnostic> {
    if |ms| == 0 then []
    else (if ms[0].OtherMember? then [UnexpectedMember(ms[0].code)] else []) + UnexpectedNotes(ms[1..])
  }

  /** One step of the walk over a chain that starts with a field. */
  lemma FieldFirst(st: GccState, ms: seq<Member>, how: TagReading)
    requires |ms| > 0 && ms[0].FieldDecl?
    ensures var e := EmitField(st.counter, ms[0].f, how);
            var rest := EmitFields(st.(counter := e.counter), ms[1..], how);
            && EmitFields(st, ms, how).lines == e.lines + rest.lines
            && EmitFields(st, ms, how).st == rest.st
            && EmitFields(st, ms, how).log == e.log + rest.log
  {
  }

  /** One step of the walk over a chain that starts with anything else. */
  lemma NonFieldFirst(st: GccState, ms: seq<Member>, how: TagReading)
    requires |ms| > 0 && !ms[0].FieldDecl?
    ensures EmitFields(st, ms, how).lines == EmitFields(st, ms[1..], how).lines
    ensures EmitFields(st, ms, how).st == EmitFields(st, ms[1..], how).st
    ensures |EmitFields(st, ms, how).log| == |EmitFields(st, ms[1..], how).log| + (if ms[0].OtherMember? then 1 else 0)
  {
  }

  /** Each field writes exactly one entry header at depth 1. */
  lemma {:induction false} OneEntryPerField(st: GccState, ms: seq<Member>, how: TagReading)
    ensures |AtDepth(EmitFields(st, ms, how).lines, 1)| == CountFields(ms)
    decreases |ms|
  {
    if |ms| > 0 {
      if ms[0].FieldDecl? {
        var e := EmitField(st.counter, ms[0].f, how);
        var rest := EmitFields(st.(counter := e.counter), ms[1..], how);
        FieldFirst(st, ms, how);
        HeadThenRest(e.lines, rest.lines, 1);
        OneEntryPerField(st.(counter := e.counter), ms[1..], how);
        assert CountFields(ms) == 1 + CountFields(ms[1..]);
      } else {
        NonFieldFirst(st, ms, how);
        OneEntryPerField(st, ms[1..], how);
        assert CountFields(ms) == CountFields(ms[1..]);
      }
    }
  }

  /** Without wrap-around, `_counter` advances by one per anonymous field. */
  lemma {:induction false} AnonymousFieldsNumbered(st: GccState, ms: seq<Member>, how: TagReading)
    requires st.counter + CountAnon(ms) < U32
    ensures EmitFields(st, ms, how).st.counter == st.counter + CountAnon(ms)
    decreases |ms|
  {
    if |ms| > 0 {
      if ms[0].FieldDecl? {
        var next := st.(counter := st.counter + (if ms[0].f.name.None? then 1 else 0));
        FieldSplit(st, next, ms, how);
        AnonymousFieldsNumbered(next, ms[1..], how);
      } else {
        NonFieldFirst(st, ms, how);
        AnonymousFieldsNumbered(st, ms[1..], how);
      }
    }
  }

  /** Members other than fields change neither the document nor the state:
      the walk over the whole chain writes what the walk over its fields
      alone writes. */
  lemma {:induction false} NonFieldMembersSkipped(st: GccState, ms: seq<Member>, how: TagReading)
    ensures EmitFields(st, ms, how).lines == EmitFields(st, FieldsOnly(ms), how).lines
    ensures EmitFields(st, ms, how).st == EmitFields(st, FieldsOnly(ms), how).st
    decreases |ms|
  {
    if |ms| > 0 {
      var fs := FieldsOnly(ms);
      if ms[0].FieldDecl? {
        assert fs == [ms[0]] + FieldsOnly(ms[1..]);
        assert fs[0] == ms[0] && fs[1..] == FieldsOnly(ms[1..]);
        var e := EmitField(st.counter, ms[0].f, how);
        FieldFirst(st, ms, how);
        FieldFirst(st, fs, how);
        NonFieldMembersSkipped(st.(counter := e.counter), ms[1..], how);
      } else {
        assert fs == FieldsOnly(ms[1..]);
        NonFieldFirst(st, ms, how);
        NonFieldMembersSkipped(st, ms[1..], how);
      }
    }
  }

  /** Only the unexpected members leave a note each, on top of the notes the
      fields' tags leave. */
  lemma {:induction false} NonFieldMembersNoted(st: GccState, ms: seq<Member>, how: TagReading)
    ensures |EmitFields(st, ms, how).log| == |EmitFields(st, FieldsOnly(ms), how).log| + |UnexpectedNotes(ms)|
    decreases |ms|
  {
    if |ms| > 0 {
      var fs := FieldsOnly(ms);
      if ms[0].FieldDecl? {
        assert fs == [ms[0]] + FieldsOnly(ms[1..]);
        assert fs[0] == ms[0] && fs[1..] == FieldsOnly(ms[1..]);
        var e := EmitField(st.counter, ms[0].f, how);
        FieldFirst(st, ms, how);
        FieldFirst(st, fs, how);
        NonFieldMembersNoted(st.(counter := e.counter), ms[1..], how);
      } else {
        assert fs == FieldsOnly(ms[1..]);
        NonFieldFirst(st, ms, how);
        NonFieldMembersNoted(st, ms[1..], how);
      }
    }
  }

  /** The fields of a member chain, in order. */
  function FieldList(ms: seq<Member>): (r: seq<Field>)
    ensures |r| == CountFields(ms)
  {
    if |ms| == 0 then []
    else (if ms[0].FieldDecl? then [ms[0].f] else []) + FieldList(ms[1..])
  }

  /** Number of fields without a name. */
  function AnonCount(fs: seq<Field>): (n: nat)
    ensures n <= |fs|
  {
    if |fs| == 0 then 0 else (if fs[0].name.None? then 1 else 0) + AnonCount(fs[1..])
  }

  lemma {:induction false} AnonCountConcat(a: seq<Field>, b: seq<Field>)
    ensures AnonCount(a + b) == AnonCount(a) + AnonCount(b)
  {
    if |a| == 0 {
      assert a + b == b;
    } else {
      assert (a + b)[0] == a[0] && (a + b)[1..] == a[1..] + b;
      AnonCountConcat(a[1..], b);
    }
  }

  lemma {:induction false} AnonCountOfList(ms: seq<Member>)
    ensures AnonCount(FieldList(ms)) == CountAnon(ms)
  {
    if |ms| > 0 {
      AnonCountOfList(ms[1..]);
      AnonCountConcat(if ms[0].FieldDecl? then [ms[0].f] else [], FieldList(ms[1..]));
    }
  }

  /** The slot of the `k`-th field: its name, or the `anon_<n>$` that
      counts it among the anonymous fields. */
  function FieldSlot(c: nat, fs: seq<Field>, k: nat): string
    requires k < |fs|
  {
    if fs[k].name.Some? then fs[k].name.value else AnonName(c + AnonCount(fs[..k + 1]))
  }

  /** The entry `e` is field `f`'s entry under the slot `slot`. */
  predicate FieldEntryShows(slot: string, f: Field, how: TagReading, e: seq<Line>) {
    e == FieldEntryLines(slot, f, how)
  }

  /** A field entry under `slot` is headed by the slot; a named field's
      `name:` comes second; the five measures follow, then exactly the
      predicate lines, then the tags of the field's type. `artificial:
      true`, `unknown: true` and `bitfield: true` are in it exactly when
      the field is artificial, anonymous, a bit-field. */
  lemma FieldEntryLinesMeaning(slot: string, f: Field, how: TagReading)
    ensures var e := FieldEntryLines(slot, f, how);
            var tags := DumpTags(f.typeAttrs, 2, how).lines;
            var k := if f.name.Some? then 2 else 1;
            && |e| > 0 && e[0] == FieldHeader(slot) && AtLeast(e[1..], 2) && NoRefs(e)
            && (f.name.Some? ==> e[1] == Line(2, "name: " + f.name.value))
            && |e| >= k + 5 && e[k..k + 5] == FieldMeasures(f)
            && |e| == k + 5 + FieldFlagCount(f, f.name.None?) + |tags|
            && e[k + 5..|e| - |tags|] == FieldFlags(f, f.name.None?)
            && e[|e| - |tags|..] == tags
            && (Line(2, "artificial: true") in e <==> f.artificial)
            && (Line(2, "unknown: true") in e <==> f.name.None?)
            && (Line(2, "bitfield: true") in e <==> f.bitfield)
  {
    var tags := DumpTags(f.typeAttrs, 2, how).lines;
    FieldEntryFacts(slot, NameLine(f), FieldBody(f, f.name.None?), tags, f.name.None?, f);
    FieldEntryLayout(f, slot, NameLine(f), tags);
  }

  /** A field entry shows its field, in the slot that follows `counter`. */
  lemma EmitFieldShows(counter: nat, f: Field, how: TagReading)
    requires f.name.None? ==> counter + 1 < U32
    ensures FieldEntryShows(NextSlot(counter, f), f, how, EmitField(counter, f, how).lines)
  {
    var slot := if f.name.None? then AnonName(Next32(counter)) else f.name.value;
    assert EmitField(counter, f, how).lines == FieldEntryLines(slot, f, how);
    assert slot == NextSlot(counter, f);
  }

  /** An entry that shows a field has the shape of a depth-1 entry. */
  lemma ShownFieldIsEntry(slot: string, f: Field, how: TagReading, e: seq<Line>)
    ensures FieldEntryShows(slot, f, how, e) ==> |e| > 0 && e[0].depth == 1 && AtLeast(e[1..], 2)
  {
    FieldEntryLinesMeaning(slot, f, how);
  }

  lemma AnonCountOne(f: Field)
    ensures AnonCount([f]) == if f.name.None? then 1 else 0
  {
    assert [f][1..] == [];
  }

  /** The slot a field takes when `counter` anonymous fields precede it. */
  function NextSlot(counter: nat, f: Field): string {
    if f.name.Some? then f.name.value else AnonName(counter + 1)
  }

  /** The blocks `entry` gives the fields `fs`, one by one, in the slots
      that number the anonymous ones on from `c`. */
  function EntriesBy(c: nat, fs: seq<Field>, entry: (string, Field) -> seq<Line>): (r: seq<seq<Line>>)
    ensures |r| == |fs|
    decreases |fs|
  {
    if |fs| == 0 then []
    else [entry(NextSlot(c, fs[0]), fs[0])] + EntriesBy(c + (if fs[0].name.None? then 1 else 0), fs[1..], entry)
  }

  /** The entries of the fields `fs`, numbering the anonymous ones on
      from `c`. */
  function FieldEntriesOf(c: nat, fs: seq<Field>, how: TagReading): seq<seq<Line>> {
    EntriesBy(c, fs, (slot, f) => FieldEntryLines(slot, f, how))
  }

  /** `es` are entries showing the fields `fs` one by one, numbering the
      anonymous ones on from `c`. */
  predicate FieldSectionShows(c: nat, fs: seq<Field>, how: TagReading, es: seq<seq<Line>>) {
    es == FieldEntriesOf(c, fs, how)
  }

  /** `lines` are the entries `es`, which show the fields `fs` numbering
      anonymous ones on from `c`. */
  predicate FieldSection(lines: seq<Line>, c: nat, fs: seq<Field>, how: TagReading, es: seq<seq<Line>>) {
    lines == Joined(es) && FieldSectionShows(c, fs, how, es)
  }

  /** One step of the walk over a chain that starts with a field. */
  lemma FieldSplit(st: GccState, next: GccState, ms: seq<Member>, how: TagReading)
    requires |ms| > 0 && ms[0].FieldDecl? && (ms[0].f.name.None? ==> st.counter + 1 < U32)
    requires next == st.(counter := st.counter + (if ms[0].f.name.None? then 1 else 0))
    ensures EmitFields(st, ms, how).lines == EmitField(st.counter, ms[0].f, how).lines + EmitFields(next, ms[1..], how).lines
    ensures EmitFields(st, ms, how).st == EmitFields(next, ms[1..], how).st
  {
    FieldCounterStep(st.counter, ms[0].f, how);
    FieldFirst(st, ms, how);
  }

  lemma FieldCounterStep(counter: nat, f: Field, how: TagReading)
    requires f.name.None? ==> counter + 1 < U32
    ensures EmitField(counter, f, how).counter == counter + (if f.name.None? then 1 else 0)
  {
  }

  /** Without wrap-around, the field section is the join of entries that
      show the fields of the chain one by one. */
  lemma {:induction false} FieldsAsEntries(st: GccState, ms: seq<Member>, how: TagReading)
    requires st.counter + CountAnon(ms) < U32
    ensures exists es :: FieldSection(EmitFields(st, ms, how).lines, st.counter, FieldList(ms), how, es)
    decreases |ms|
  {
    if |ms| == 0 {
      assert FieldSection(EmitFields(st, ms, how).lines, st.counter, FieldList(ms), how, []);
    } else if ms[0].FieldDecl? {
      var next := st.(counter := st.counter + (if ms[0].f.name.None? then 1 else 0));
      FieldsAsEntries(next, ms[1..], how);
      FieldsAsEntriesStep(st, next, ms, how);
    } else {
      FieldsAsEntries(st, ms[1..], how);
      SkippedAsEntries(st, ms, how);
    }
  }

  lemma FieldsAsEntriesStep(st: GccState, next: GccState, ms: seq<Member>, how: TagReading)
    requires |ms| > 0 && ms[0].FieldDecl? && (ms[0].f.name.None? ==> st.counter + 1 < U32)
    requires next == st.(counter := st.counter + (if ms[0].f.name.None? then 1 else 0))
    requires exists es :: FieldSection(EmitFields(next, ms[1..], how).lines, next.counter, FieldList(ms[1..]), how, es)
    ensures exists es :: FieldSection(EmitFields(st, ms, how).lines, st.counter, FieldList(ms), how, es)
  {
    var es: seq<seq<Line>> :| FieldSection(EmitFields(next, ms[1..], how).lines, next.counter, FieldList(ms[1..]), how, es);
    FieldEntryPrepended(st, next, ms, how, es);
  }

  /** The entry of the first field, put in front of the entries of the
      rest of the chain. */
  lemma FieldEntryPrepended(st: GccState, next: GccState, ms: seq<Member>, how: TagReading, es: seq<seq<Line>>)
    requires |ms| > 0 && ms[0].FieldDecl? && (ms[0].f.name.None? ==> st.counter + 1 < U32)
    requires next == st.(counter := st.counter + (if ms[0].f.name.None? then 1 else 0))
    ensures FieldSection(EmitFields(next, ms[1..], how).lines, next.counter, FieldList(ms[1..]), how, es)
            ==> FieldSection(EmitFields(st, ms, how).lines, st.counter, FieldList(ms), how,
                             [EmitField(st.counter, ms[0].f, how).lines] + es)
  {
    var f := ms[0].f;
    var e := EmitField(st.counter, f, how).lines;
    FieldSplit(st, next, ms, how);
    EmitFieldShows(st.counter, f, how);
    assert FieldList(ms) == [f] + FieldList(ms[1..]);
    FieldSectionCons(st.counter, next.counter, f, FieldList(ms[1..]), FieldList(ms), how, e, es,
                     EmitFields(st, ms, how).lines, EmitFields(next, ms[1..], how).lines);
  }

  /** One step of the walk over a chain that starts with anything but a
      field. */
  lemma SkippedAsEntries(st: GccState, ms: seq<Member>, how: TagReading)
    requires |ms| > 0 && !ms[0].FieldDecl?
    requires exists es :: FieldSection(EmitFields(st, ms[1..], how).lines, st.counter, FieldList(ms[1..]), how, es)
    ensures exists es :: FieldSection(EmitFields(st, ms, how).lines, st.counter, FieldList(ms), how, es)
  {
    NonFieldFirst(st, ms, how);
    assert FieldList(ms) == FieldList(ms[1..]);
  }

  /** Putting an entry that shows `f` in front of a section that shows `fs`
      gives a section that shows `[f] + fs`. */
  lemma FieldSectionCons(c: nat, c1: nat, f: Field, fs: seq<Field>, all: seq<Field>, how: TagReading,
                         e: seq<Line>, es: seq<seq<Line>>, lines: seq<Line>, rest: seq<Line>)
    ensures && c1 == c + (if f.name.None? then 1 else 0)
            && all == [f] + fs && lines == e + rest
            && FieldEntryShows(NextSlot(c, f), f, how, e) && FieldSection(rest, c1, fs, how, es)
            ==> FieldSection(lines, c, all, how, [e] + es)
  {
    if && c1 == c + (if f.name.None? then 1 else 0)
       && all == [f] + fs && lines == e + rest
       && FieldEntryShows(NextSlot(c, f), f, how, e) && FieldSection(rest, c1, fs, how, es)
    {
      FieldSectionPrepend(c, f, fs, how, e, es);
      JoinedCons(e, es);
    }
  }

  lemma FieldSectionPrepend(c: nat, f: Field, fs: seq<Field>, how: TagReading, e: seq<Line>, es: seq<seq<Line>>)
    requires FieldEntryShows(NextSlot(c, f), f, how, e)
    requires FieldSectionShows(c + (if f.name.None? then 1 else 0), fs, how, es)
    ensures FieldSectionShows(c, [f] + fs, how, [e] + es)
  {
    assert ([f] + fs)[0] == f && ([f] + fs)[1..] == fs;
  }

  lemma AnonCountStep(fs: seq<Field>, k: nat)
    requires 0 < k < |fs|
    ensures AnonCount(fs[..k + 1]) == (if fs[0].name.None? then 1 else 0) + AnonCount(fs[1..][..k])
  {
    assert fs[..k + 1] == [fs[0]] + fs[1..][..k];
    AnonCountConcat([fs[0]], fs[1..][..k]);
    AnonCountOne(fs[0]);
  }

  lemma FirstFieldSlot(c: nat, fs: seq<Field>)
    requires 0 < |fs|
    ensures FieldSlot(c, fs, 0) == NextSlot(c, fs[0])
  {
    assert fs[..1] == [fs[0]];
    AnonCountOne(fs[0]);
  }

  lemma LaterFieldSlot(c: nat, c1: nat, fs: seq<Field>, k: nat)
    requires 0 < k < |fs| && c1 == c + (if fs[0].name.None? then 1 else 0)
    ensures FieldSlot(c, fs, k) == FieldSlot(c1, fs[1..], k - 1)
  {
    AnonCountStep(fs, k);
    assert fs[1..][k - 1] == fs[k];
  }

  /** The slots of the fields `fs`, numbering anonymous ones on from
      `c + 1`. */
  function FieldSlots(c: nat, fs: seq<Field>): (r: seq<string>)
    ensures |r| == |fs|
    decreases |fs|
  {
    if |fs| == 0 then [] else [NextSlot(c, fs[0])] + FieldSlots(c + (if fs[0].name.None? then 1 else 0), fs[1..])
  }

  lemma {:induction false} FieldSlotsAt(c: nat, fs: seq<Field>, k: nat)
    requires k < |fs|
    ensures FieldSlots(c, fs)[k] == FieldSlot(c, fs, k)
    decreases k
  {
    if k == 0 {
      FirstFieldSlot(c, fs);
    } else {
      var c1 := c + (if fs[0].name.None? then 1 else 0);
      FieldSlotsAt(c1, fs[1..], k - 1);
      LaterFieldSlot(c, c1, fs, k);
    }
  }

  /** The `k`-th slot is the field's name, or the `anon_<n>$` that counts
      it among the anonymous fields. */
  lemma FieldSlotsNumbered(c: nat, fs: seq<Field>)
    ensures forall k :: 0 <= k < |fs| ==> FieldSlots(c, fs)[k] == FieldSlot(c, fs, k)
  {
    forall k | 0 <= k < |fs|
      ensures FieldSlots(c, fs)[k] == FieldSlot(c, fs, k)
    {
      FieldSlotsAt(c, fs, k);
    }
  }

  lemma FieldSlotsTail(c: nat, c1: nat, fs: seq<Field>, k: nat)
    requires 0 < k < |fs| && c1 == c + (if fs[0].name.None? then 1 else 0)
    ensures FieldSlots(c, fs)[k] == FieldSlots(c1, fs[1..])[k - 1]
  {
  }

  /** The `k`-th block is the one `entry` gives the `k`-th field in the
      `k`-th slot. */
  lemma {:induction false} EntriesByAt(c: nat, fs: seq<Field>, entry: (string, Field) -> seq<Line>, k: nat)
    requires k < |fs|
    ensures EntriesBy(c, fs, entry)[k] == entry(FieldSlots(c, fs)[k], fs[k])
    decreases k
  {
    if k > 0 {
      var c1 := c + (if fs[0].name.None? then 1 else 0);
      EntriesByAt(c1, fs[1..], entry, k - 1);
      FieldSlotsTail(c, c1, fs, k);
      assert fs[1..][k - 1] == fs[k];
    }
  }

  /** The `k`-th entry of a section that shows `fs` shows the `k`-th field
      in its slot. */
  lemma SectionShowsAt(c: nat, fs: seq<Field>, how: TagReading, es: seq<seq<Line>>, k: nat)
    ensures FieldSectionShows(c, fs, how, es) && k < |fs|
            ==> |es| == |fs| && FieldEntryShows(FieldSlots(c, fs)[k], fs[k], how, es[k])
  {
    if FieldSectionShows(c, fs, how, es) && k < |fs| {
      EntriesByAt(c, fs, (slot, f) => FieldEntryLines(slot, f, how), k);
    }
  }

  /** `lines` split into the entries `es`, one per field of `fs` and in
      order, each showing its field in its slot. */
  predicate FieldEntriesShown(lines: seq<Line>, c: nat, fs: seq<Field>, how: TagReading, es: seq<seq<Line>>) {
    && lines == Joined(es) && EntryBlocks(es, 1) && |es| == |fs|
    && forall k :: 0 <= k < |es| ==> FieldEntryShows(FieldSlots(c, fs)[k], fs[k], how, es[k])
  }

  /** The `k`-th entry of a section is an entry in its slot. */
  lemma FieldEntryAt(c: nat, fs: seq<Field>, how: TagReading, es: seq<seq<Line>>, k: nat)
    ensures FieldSectionShows(c, fs, how, es) && k < |fs|
            ==> && |es| == |fs| && FieldEntryShows(FieldSlots(c, fs)[k], fs[k], how, es[k])
                && |es[k]| > 0 && es[k][0].depth == 1 && AtLeast(es[k][1..], 2)
  {
    SectionShowsAt(c, fs, how, es, k);
    if FieldSectionShows(c, fs, how, es) && k < |fs| {
      ShownFieldIsEntry(FieldSlots(c, fs)[k], fs[k], how, es[k]);
    }
  }

  lemma FieldSectionShown(lines: seq<Line>, c: nat, fs: seq<Field>, how: TagReading, es: seq<seq<Line>>)
    requires FieldSection(lines, c, fs, how, es)
    ensures FieldEntriesShown(lines, c, fs, how, es)
  {
    forall k | 0 <= k < |es|
      ensures && FieldEntryShows(FieldSlots(c, fs)[k], fs[k], how, es[k])
              && |es[k]| > 0 && es[k][0].depth == 1 && AtLeast(es[k][1..], 2)
    {
      FieldEntryAt(c, fs, how, es, k);
    }
    assert EntryBlocks(es, 1);
  }

  /** Without wrap-around, the field section splits into one entry per
      field of the chain, in order, the `k`-th entry under the `k`-th
      depth-1 line. That line is keyed by the `k`-th slot: the field's
      name, or `anon_<n>$` where the field is the `n`-th anonymous one
      counted on from `_counter` (`FieldSlotsNumbered`); a named field
      repeats its name; the five measurements follow, then exactly the
      predicate lines (`artificial: true`, `unknown: true`, `bitfield:
      true` for the predicates that hold); the entry ends with the tags of
      the field's type. */
  lemma FieldEntriesInOrder(st: GccState, ms: seq<Member>, how: TagReading)
    requires st.counter + CountAnon(ms) < U32
    ensures exists es :: FieldEntriesShown(EmitFields(st, ms, how).lines, st.counter, FieldList(ms), how, es)
  {
    FieldsAsEntries(st, ms, how);
    var es: seq<seq<Line>> :| FieldSection(EmitFields(st, ms, how).lines, st.counter, FieldList(ms), how, es);
    FieldSectionShown(EmitFields(st, ms, how).lines, st.counter, FieldList(ms), how, es);
  }

  /** Without wrap-around, the `k`-th depth-1 line of the field section
      is the header of the `k`-th field of the chain, in that field's
      slot. */
  lemma FieldHeadersInOrder(st: GccState, ms: seq<Member>, how: TagReading)
    requires st.counter + CountAnon(ms) < U32
    ensures var hs := AtDepth(EmitFields(st, ms, how).lines, 1);
            && |hs| == CountFields(ms)
            && forall k :: 0 <= k < |hs| ==> hs[k] == FieldHeader(FieldSlot(st.counter, FieldList(ms), k))
  {
    FieldEntriesInOrder(st, ms, how);
    var es: seq<seq<Line>> :| FieldEntriesShown(EmitFields(st, ms, how).lines, st.counter, FieldList(ms), how, es);
    JoinedHeads(es, 1);
    FieldSlotsNumbered(st.counter, FieldList(ms));
  }

  // ---------------------------------------------------------------------
  // Methods.

  /** The line written for a method predicate that holds. */
  function FlagLine(f: MethodFlag): string {
    match f
    case Virtual => "virtual: true"
    case Artificial => "artificial: true"
    case Const => "const: true"
    case Static => "static: true"
    case Constructor => "constructor: true"
    case Destructor => "destructor: true"
    case CopyConstructor => "copy_constructor: true"
    case BaseConstructor => "base_constructor: true"
    case CompleteConstructor => "complete_constructor: true"
    case CompleteDestructor => "complete_destructor: true"
    case Operator => "operator: true"
    case CastOperator => "cast_operator: true"
    case Thunk => "thunk: true"
    case Nothrow => "nothrow: true"
  }

  /** The order in which `_finish_type` asks the method predicates. */
  const FlagOrder: seq<MethodFlag> :=
    [ Virtual, Artificial, Const, Static, Constructor, Destructor, CopyConstructor,
      BaseConstructor, CompleteConstructor, CompleteDestructor, Operator,
      CastOperator, Thunk, Nothrow ]

  function FlagLines(flags: set<MethodFlag>, order: seq<MethodFlag>): (r: seq<Line>)
    ensures forall j :: 0 <= j < |r| ==> r[j].depth == 2 && |r[j].text| > 0 && r[j].text[0] != 'r'
  {
    if |order| == 0 then []
    else
      FlagLineIsNotOther(order[0], "");
      (if order[0] in flags then [Line(2, FlagLine(order[0]))] else []) + FlagLines(flags, order[1..])
  }

  /** Reads a predicate line back, dispatching on its first letter; the
      inverse of `FlagLine`. */
  function FlagOfLine(s: string): Option<MethodFlag> {
    if |s| == 0 then None
    else if s[0] == 'c' then
      if s == "const: true" then Some(Const)
      else if s == "constructor: true" then Some(Constructor)
      else if s == "copy_constructor: true" then Some(CopyConstructor)
      else if s == "complete_constructor: true" then Some(CompleteConstructor)
      else if s == "complete_destructor: true" then Some(CompleteDestructor)
      else if s == "cast_operator: true" then Some(CastOperator)
      else None
    else if s[0] == 'a' then
      if s == "artificial: true" then Some(Artificial) else None
    else if s[0] == 'b' then
      if s == "base_constructor: true" then Some(BaseConstructor) else None
    else if s[0] == 'd' then
      if s == "destructor: true" then Some(Destructor) else None
    else if s[0] == 's' then
      if s == "static: true" then Some(Static) else None
    else if s[0] == 't' then
      if s == "thunk: true" then Some(Thunk) else None
    else if s == "virtual: true" then Some(Virtual)
    else if s == "operator: true" then Some(Operator)
    else if s == "nothrow: true" then Some(Nothrow)
    else None
  }

  /** Every predicate line reads back as its predicate. */
  lemma FlagRoundTrip(f: MethodFlag)
    ensures FlagOfLine(FlagLine(f)) == Some(f)
  {
  }

  /** So no two predicates share a line. */
  lemma FlagLinesDistinct(f: MethodFlag, g: MethodFlag)
    ensures FlagLine(f) == FlagLine(g) <==> f == g
  {
    FlagRoundTrip(f);
    FlagRoundTrip(g);
  }

  /** Every predicate is asked. */
  lemma FlagListed(f: MethodFlag)
    ensures f in FlagOrder
  {
    match f
    case Virtual => assert FlagOrder[0] == f;
    case Artificial => assert FlagOrder[1] == f;
    case Const => assert FlagOrder[2] == f;
    case Static => assert FlagOrder[3] == f;
    case Constructor => assert FlagOrder[4] == f;
    case Destructor => assert FlagOrder[5] == f;
    case CopyConstructor => assert FlagOrder[6] == f;
    case BaseConstructor => assert FlagOrder[7] == f;
    case CompleteConstructor => assert FlagOrder[8] == f;
    case CompleteDestructor => assert FlagOrder[9] == f;
    case Operator => assert FlagOrder[10] == f;
    case CastOperator => assert FlagOrder[11] == f;
    case Thunk => assert FlagOrder[12] == f;
    case Nothrow => assert FlagOrder[13] == f;
  }

  /** Each predicate's line is written exactly when it holds. */
  lemma {:induction false} FlagLinesExact(flags: set<MethodFlag>, order: seq<MethodFlag>, f: MethodFlag)
    ensures Line(2, FlagLine(f)) in FlagLines(flags, order) <==> f in flags && f in order
  {
    if |order| > 0 {
      FlagLinesExact(flags, order[1..], f);
      FlagLinesDistinct(f, order[0]);
      var first := if order[0] in flags then [Line(2, FlagLine(order[0]))] else [];
      assert FlagLines(flags, order) == first + FlagLines(flags, order[1..]);
      assert f in order <==> f == order[0] || f in order[1..];
    }
  }

  /** A predicate line is neither the `name:` nor the `asm:` line, nor a tag line. */
  lemma FlagLineIsNotOther(f: MethodFlag, x: string)
    ensures FlagLine(f) != "name: " + x && FlagLine(f) != "asm: " + x && FlagLine(f) != "tags:"
    ensures FlagLine(f)[0] != 'r'
  {
    var t := FlagLine(f);
    assert ("name: " + x)[0] == 'n' && ("name: " + x)[1] == 'a';
    assert ("asm: " + x)[0] == 'a' && ("asm: " + x)[1] == 's';
    assert t[0] != 'n' || t[1] != 'a';
    assert t[0] != 'a' || t[1] != 's';
  }

  function MethodHeader(i: nat): Line {
    Line(1, "method_" + NatToDecimal(i) + "$: !compex/method")
  }

  /** The slot lines `method_i..method_{i+n-1}`. */
  function MethodSlots(i: nat, n: nat): (r: seq<Line>)
    ensures |r| == n
    decreases n
  {
    if n == 0 then [] else [MethodHeader(i)] + MethodSlots(i + 1, n - 1)
  }

  /** One `FUNCTION_DECL` as `method_<i>$`. */
  function EmitMethod(i: nat, m: Method, how: TagReading): (r: Block)
    ensures |r.lines| >= 3
    ensures r.lines[0] == MethodHeader(i)
    ensures r.lines[1] == Line(2, "name: " + m.name) && r.lines[2] == Line(2, "asm: " + m.asmName)
    ensures forall f :: Line(2, FlagLine(f)) in r.lines <==> f in m.flags
    ensures AtLeast(r.lines[1..], 2)
    ensures NoRefs(r.lines)
    ensures var tags := DumpTags(m.typeAttrs, 2, how);
            |r.lines| >= |tags.lines| && r.lines[|r.lines| - |tags.lines|..] == tags.lines && r.log == tags.log
    ensures var n := |DumpTags(m.typeAttrs, 2, how).lines|;
            && |r.lines| == 3 + |m.flags| + n
            && r.lines[3..|r.lines| - n] == FlagLines(m.flags, FlagOrder)
            && FlagRun(r.lines[3..|r.lines| - n], m.flags)
  {
    var flags := FlagLines(m.flags, FlagOrder);
    var tags := DumpTags(m.typeAttrs, 2, how);
    var lines := [MethodHeader(i), Line(2, "name: " + m.name), Line(2, "asm: " + m.asmName)] + flags + tags.lines;
    MethodEntryFacts(i, m, flags, tags.lines);
    MethodFlagsPlaced([MethodHeader(i), Line(2, "name: " + m.name), Line(2, "asm: " + m.asmName)], m, flags, tags.lines);
    TailIs([MethodHeader(i), Line(2, "name: " + m.name), Line(2, "asm: " + m.asmName)] + flags, tags.lines);
    Block(lines, tags.log)
  }

  lemma MethodEntryFacts(i: nat, m: Method, flags: seq<Line>, tags: seq<Line>)
    requires flags == FlagLines(m.flags, FlagOrder)
    requires forall l :: l in tags ==> 2 <= l.depth <= 4
    requires forall l :: l in tags && l.depth == 2 ==> l.text == "tags:"
    ensures var lines := [MethodHeader(i), Line(2, "name: " + m.name), Line(2, "asm: " + m.asmName)] + flags + tags;
            && |lines| >= 3 && lines[0] == MethodHeader(i)
            && lines[1] == Line(2, "name: " + m.name) && lines[2] == Line(2, "asm: " + m.asmName)
            && (forall f :: Line(2, FlagLine(f)) in lines <==> f in m.flags)
            && AtLeast(lines[1..], 2)
            && NoRefs(lines)
  {
    var head := [MethodHeader(i), Line(2, "name: " + m.name), Line(2, "asm: " + m.asmName)];
    assert head + flags + tags == head + (flags + tags);
    forall f
      ensures Line(2, FlagLine(f)) in head + flags + tags <==> f in m.flags
    {
      FlagWritten(m.flags, f);
      MethodFlagExact(head, m, flags, tags, f);
    }
    MethodLinesNoRefs(head, flags, tags);
  }

  /** Between the three head lines and the tags of a method entry lie
      exactly its predicate lines. */
  lemma MethodFlagsPlaced(head: seq<Line>, m: Method, flags: seq<Line>, tags: seq<Line>)
    requires |head| == 3 && flags == FlagLines(m.flags, FlagOrder)
    ensures var lines := head + flags + tags;
            && |lines| == 3 + |m.flags| + |tags|
            && lines[3..|lines| - |tags|] == flags
            && FlagRun(lines[3..|lines| - |tags|], m.flags)
  {
    FlagLinesCount(m.flags);
    MiddleIs(head, flags, tags);
  }

  /** Over the full test order, a predicate's line is written exactly when
      the predicate holds. */
  lemma FlagWritten(flags: set<MethodFlag>, f: MethodFlag)
    ensures Line(2, FlagLine(f)) in FlagLines(flags, FlagOrder) <==> f in flags
  {
    FlagLinesExact(flags, FlagOrder, f);
    FlagListed(f);
  }

  /** The position at which `_finish_type` asks a predicate. */
  function FlagRank(f: MethodFlag): (r: nat)
    ensures r < |FlagOrder| && FlagOrder[r] == f
  {
    match f
    case Virtual => 0
    case Artificial => 1
    case Const => 2
    case Static => 3
    case Constructor => 4
    case Destructor => 5
    case CopyConstructor => 6
    case BaseConstructor => 7
    case CompleteConstructor => 8
    case CompleteDestructor => 9
    case Operator => 10
    case CastOperator => 11
    case Thunk => 12
    case Nothrow => 13
  }

  /** `ls` are the lines of exactly the predicates in `flags`: every line
      reads back as one of them, each of them is there, and their ranks
      strictly increase, so none is written twice. */
  predicate FlagRun(ls: seq<Line>, flags: set<MethodFlag>) {
    && (forall j :: 0 <= j < |ls| ==>
          ls[j].depth == 2 && FlagOfLine(ls[j].text).Some? && FlagOfLine(ls[j].text).value in flags)
    && (forall a, b :: 0 <= a < b < |ls| ==>
          FlagRank(FlagOfLine(ls[a].text).value) < FlagRank(FlagOfLine(ls[b].text).value))
    && (forall f :: f in flags ==> Line(2, FlagLine(f)) in ls)
  }

  /** The predicates of `flags` from rank `k` on. */
  function FlagsFrom(flags: set<MethodFlag>, k: nat): set<MethodFlag> {
    set f | f in flags && FlagRank(f) >= k
  }

  /** Every line of `r` reads back as a predicate of `flags` of rank at
      least `k`, and the ranks strictly increase. */
  predicate RankedFrom(r: seq<Line>, flags: set<MethodFlag>, k: nat) {
    && (forall j :: 0 <= j < |r| ==>
          && r[j].depth == 2 && FlagOfLine(r[j].text).Some?
          && FlagOfLine(r[j].text).value in flags && FlagRank(FlagOfLine(r[j].text).value) >= k)
    && (forall a, b :: 0 <= a < b < |r| ==>
          FlagRank(FlagOfLine(r[a].text).value) < FlagRank(FlagOfLine(r[b].text).value))
  }

  lemma RankedCons(g: MethodFlag, flags: set<MethodFlag>, k: nat, rest: seq<Line>)
    ensures RankedFrom(rest, flags, k + 1) && FlagRank(g) == k && g in flags
            ==> RankedFrom([Line(2, FlagLine(g))] + rest, flags, k)
  {
    FlagRoundTrip(g);
  }

  lemma RankedWeaken(flags: set<MethodFlag>, k: nat, rest: seq<Line>)
    ensures RankedFrom(rest, flags, k + 1) ==> RankedFrom(rest, flags, k)
  {
  }

  /** The rank of the `k`-th predicate asked is `k`. */
  lemma RankOfOrder(k: nat)
    requires k < |FlagOrder|
    ensures FlagRank(FlagOrder[k]) == k
  {
  }

  /** The predicates from rank `k` on are the one of rank `k`, if held,
      and those from rank `k + 1` on. */
  lemma FlagsFromStep(flags: set<MethodFlag>, k: nat)
    requires k < |FlagOrder|
    ensures var g := FlagOrder[k];
            |FlagsFrom(flags, k)| == |FlagsFrom(flags, k + 1)| + (if g in flags then 1 else 0)
  {
    var g := FlagOrder[k];
    RankOfOrder(k);
    var later := FlagsFrom(flags, k + 1);
    assert g !in later;
    assert FlagsFrom(flags, k) == later + (if g in flags then {g} else {}) by {
      forall f | f in FlagsFrom(flags, k) && FlagRank(f) == k ensures f == g { }
    }
  }

  /** Asking the predicates from rank `k` on writes one line per predicate
      held among them, in rank order. */
  lemma {:induction false} FlagLinesFrom(flags: set<MethodFlag>, k: nat)
    requires k <= |FlagOrder|
    ensures var r := FlagLines(flags, FlagOrder[k..]);
            |r| == |FlagsFrom(flags, k)| && RankedFrom(r, flags, k)
    decreases |FlagOrder| - k
  {
    if k == |FlagOrder| {
      assert FlagsFrom(flags, k) == {};
    } else {
      var g := FlagOrder[k];
      RankOfOrder(k);
      FlagLinesFrom(flags, k + 1);
      FlagsFromStep(flags, k);
      assert FlagOrder[k..][1..] == FlagOrder[k + 1..];
      var rest := FlagLines(flags, FlagOrder[k + 1..]);
      RankedCons(g, flags, k, rest);
      RankedWeaken(flags, k, rest);
    }
  }

  /** Over the full test order, the predicate lines are exactly the
      predicates held, one line each, in the order they are asked. */
  lemma FlagLinesCount(flags: set<MethodFlag>)
    ensures |FlagLines(flags, FlagOrder)| == |flags|
    ensures FlagRun(FlagLines(flags, FlagOrder), flags)
  {
    FlagLinesFrom(flags, 0);
    assert FlagOrder[0..] == FlagOrder;
    assert FlagsFrom(flags, 0) == flags;
    forall f | f in flags ensures Line(2, FlagLine(f)) in FlagLines(flags, FlagOrder) {
      FlagWritten(flags, f);
    }
  }

  lemma MethodFlagExact(head: seq<Line>, m: Method, flags: seq<Line>, tags: seq<Line>, f: MethodFlag)
    requires |head| == 3 && head[0].depth == 1
    requires head[1] == Line(2, "name: " + m.name) && head[2] == Line(2, "asm: " + m.asmName)
    requires Line(2, FlagLine(f)) in flags <==> f in m.flags
    requires forall l :: l in tags && l.depth == 2 ==> l.text == "tags:"
    ensures Line(2, FlagLine(f)) in head + flags + tags <==> f in m.flags
  {
    var l := Line(2, FlagLine(f));
    FlagLineIsNotOther(f, m.name);
    FlagLineIsNotOther(f, m.asmName);
    assert l !in tags;
    assert l != head[0] && l != head[1] && l != head[2];
    assert l !in head;
  }

  lemma MethodLinesNoRefs(head: seq<Line>, flags: seq<Line>, tags: seq<Line>)
    requires |head| == 3 && head[0].depth == 1
    requires forall j :: 1 <= j < 3 ==> head[j].depth == 2 && |head[j].text| > 0 && head[j].text[0] in "na"
    requires forall j :: 0 <= j < |flags| ==> flags[j].depth == 2 && |flags[j].text| > 0 && flags[j].text[0] != 'r'
    requires forall l :: l in tags ==> 2 <= l.depth <= 4
    requires forall l :: l in tags && l.depth == 2 ==> l.text == "tags:"
    ensures AtLeast((head + flags + tags)[1..], 2)
    ensures NoRefs(head + flags + tags)
  {
    var lines := head + flags + tags;
    forall j | 0 <= j < |lines|
      ensures !IsRefLine(lines[j])
      ensures j >= 1 ==> lines[j].depth >= 2
    {
      var l := lines[j];
      if j == 0 {
      } else if j < 3 {
        NotRefLine(l);
      } else if j < 3 + |flags| {
        assert l == flags[j - 3];
        NotRefLine(l);
      } else {
        assert l == tags[j - 3 - |flags|];
        assert l in tags;
        if l.depth == 2 {
          NotRefLine(l);
        }
      }
    }
    assert forall j :: 0 <= j < |lines| - 1 ==> lines[1..][j] == lines[j + 1];
  }

  function CountFunctions(es: seq<MethodEntry>): (n: nat)
    ensures n <= |es|
  {
    if |es| == 0 then 0 else (if es[0].FunctionDecl? then 1 else 0) + CountFunctions(es[1..])
  }

  /** The `TYPE_METHODS` walk; `i` methods have been numbered so far. Only
      `FUNCTION_DECL`s take a number; anything else is skipped with a note. */
  function EmitMethods(es: seq<MethodEntry>, i: nat, how: TagReading): (r: Block)
    ensures AtDepth(r.lines, 1) == MethodSlots(i + 1, CountFunctions(es))
    ensures |r.log| >= |es| - CountFunctions(es)
    ensures AtLeast(r.lines, 1)
    ensures NoRefs(r.lines)
    decreases |es|
  {
    if |es| == 0 then Block([], [])
    else
      match es[0]
      case FunctionDecl(m) =>
        var e := EmitMethod(i + 1, m, how);
        var rest := EmitMethods(es[1..], i + 1, how);
        HeadThenRest(e.lines, rest.lines, 1);
        NoRefsConcat(e.lines, rest.lines);
        Block(e.lines + rest.lines, e.log + rest.log)
      case OtherMethodEntry(code) =>
        var rest := EmitMethods(es[1..], i, how);
        Block(rest.lines, [MethodNotFunction(code)] + rest.log)
  }

  /** A skipped entry consumes no number: removing it anywhere changes no
      line of the document. */
  lemma {:induction false} SkippedMethodConsumesNoNumber(es: seq<MethodEntry>, code: string, ns: seq<MethodEntry>, i: nat,
                                                         how: TagReading)
    ensures EmitMethods(es + [OtherMethodEntry(code)] + ns, i, how).lines == EmitMethods(es + ns, i, how).lines
    decreases |es|
  {
    var all := es + [OtherMethodEntry(code)] + ns;
    if |es| == 0 {
      assert all[1..] == ns;
      assert es + ns == ns;
    } else {
      assert all[0] == es[0] && (es + ns)[0] == es[0];
      assert all[1..] == es[1..] + [OtherMethodEntry(code)] + ns;
      assert (es + ns)[1..] == es[1..] + ns;
      if es[0].FunctionDecl? {
        SkippedMethodConsumesNoNumber(es[1..], code, ns, i + 1, how);
      } else {
        SkippedMethodConsumesNoNumber(es[1..], code, ns, i, how);
      }
    }
  }

  /** The `FUNCTION_DECL`s of a `TYPE_METHODS` chain, in order. */
  function FunctionList(es: seq<MethodEntry>): (r: seq<Method>)
    ensures |r| == CountFunctions(es)
  {
    if |es| == 0 then []
    else (if es[0].FunctionDecl? then [es[0].m] else []) + FunctionList(es[1..])
  }

  /** What the entry `e` of function `m` under `header` shows. */
  predicate MethodEntryShows(header: Line, m: Method, how: TagReading, e: seq<Line>) {
    && |e| >= 3 && e[0] == header
    && e[1] == Line(2, "name: " + m.name) && e[2] == Line(2, "asm: " + m.asmName)
    && (forall j :: 1 <= j < |e| ==> e[j].depth >= 2)
    && FlagsShown(e, m.flags)
    && EndsWith(e, DumpTags(m.typeAttrs, 2, how).lines)
    && (var n := |DumpTags(m.typeAttrs, 2, how).lines|;
        |e| == 3 + |m.flags| + n && e[3..|e| - n] == FlagLines(m.flags, FlagOrder))
  }

  /** `e` has the line of each method predicate exactly when it holds. */
  predicate FlagsShown(e: seq<Line>, flags: set<MethodFlag>) {
    forall f :: Line(2, FlagLine(f)) in e <==> f in flags
  }

  lemma EmitMethodShows(n: nat, m: Method, how: TagReading)
    ensures MethodEntryShows(MethodHeader(n), m, how, EmitMethod(n, m, how).lines)
  {
    MethodShowsFromFacts(MethodHeader(n), m, how, EmitMethod(n, m, how).lines);
  }

  lemma MethodShowsFromFacts(h: Line, m: Method, how: TagReading, e: seq<Line>)
    requires |e| >= 3 && e[0] == h && AtLeast(e[1..], 2)
    requires e[1] == Line(2, "name: " + m.name) && e[2] == Line(2, "asm: " + m.asmName)
    requires FlagsShown(e, m.flags)
    requires var tags := DumpTags(m.typeAttrs, 2, how).lines;
             && |e| >= |tags| && e[|e| - |tags|..] == tags
             && |e| == 3 + |m.flags| + |tags| && e[3..|e| - |tags|] == FlagLines(m.flags, FlagOrder)
    ensures MethodEntryShows(h, m, how, e)
  {
    forall j | 1 <= j < |e| ensures e[j].depth >= 2 {
      assert e[j] == e[1..][j - 1];
    }
  }

  /** `bs` are entries showing the functions `fns` one by one, under the
      headers `hs`. */
  predicate MethodSectionShows(hs: seq<Line>, fns: seq<Method>, how: TagReading, bs: seq<seq<Line>>)
    decreases |fns|
  {
    && |bs| == |fns| && |hs| == |fns|
    && (|fns| > 0 ==> MethodEntryShows(hs[0], fns[0], how, bs[0]) && MethodSectionShows(hs[1..], fns[1..], how, bs[1..]))
  }

  /** `lines` are the entries `bs`, which show the functions `fns`
      numbered on from `i + 1`. */
  predicate MethodSection(lines: seq<Line>, i: nat, fns: seq<Method>, how: TagReading, bs: seq<seq<Line>>) {
    lines == Joined(bs) && MethodSectionShows(MethodSlots(i + 1, |fns|), fns, how, bs)
  }

  lemma {:induction false} MethodsAsEntries(es: seq<MethodEntry>, i: nat, how: TagReading)
    ensures exists bs :: MethodSection(EmitMethods(es, i, how).lines, i, FunctionList(es), how, bs)
    decreases |es|
  {
    if |es| == 0 {
      assert MethodSection(EmitMethods(es, i, how).lines, i, FunctionList(es), how, []);
    } else if es[0].FunctionDecl? {
      var j := i + 1;
      MethodsAsEntries(es[1..], j, how);
      MethodsAsEntriesStep(es, i, j, how);
    } else {
      MethodsAsEntries(es[1..], i, how);
      SkippedMethodAsEntries(es, i, how);
    }
  }

  lemma MethodsAsEntriesStep(es: seq<MethodEntry>, i: nat, j: nat, how: TagReading)
    requires |es| > 0 && es[0].FunctionDecl? && j == i + 1
    requires exists bs :: MethodSection(EmitMethods(es[1..], j, how).lines, j, FunctionList(es[1..]), how, bs)
    ensures exists bs :: MethodSection(EmitMethods(es, i, how).lines, i, FunctionList(es), how, bs)
  {
    var m := es[0].m;
    var rest := EmitMethods(es[1..], j, how).lines;
    var bs: seq<seq<Line>> :| MethodSection(rest, j, FunctionList(es[1..]), how, bs);
    var e := EmitMethod(j, m, how).lines;
    assert EmitMethods(es, i, how).lines == e + rest;
    EmitMethodShows(j, m, how);
    assert FunctionList(es) == [m] + FunctionList(es[1..]);
    MethodSectionCons(i, j, m, FunctionList(es[1..]), FunctionList(es), how, e, bs, EmitMethods(es, i, how).lines, rest);
  }

  lemma SkippedMethodAsEntries(es: seq<MethodEntry>, i: nat, how: TagReading)
    requires |es| > 0 && !es[0].FunctionDecl?
    requires exists bs :: MethodSection(EmitMethods(es[1..], i, how).lines, i, FunctionList(es[1..]), how, bs)
    ensures exists bs :: MethodSection(EmitMethods(es, i, how).lines, i, FunctionList(es), how, bs)
  {
    assert EmitMethods(es, i, how).lines == EmitMethods(es[1..], i, how).lines;
    assert FunctionList(es) == FunctionList(es[1..]);
  }

  lemma MethodSectionCons(i: nat, j: nat, m: Method, fns: seq<Method>, all: seq<Method>, how: TagReading,
                          e: seq<Line>, bs: seq<seq<Line>>, lines: seq<Line>, rest: seq<Line>)
    ensures && j == i + 1 && all == [m] + fns && lines == e + rest
            && MethodEntryShows(MethodHeader(j), m, how, e) && MethodSection(rest, j, fns, how, bs)
            ==> MethodSection(lines, i, all, how, [e] + bs)
  {
    var hs := MethodSlots(j + 1, |fns|);
    MethodSlotsCons(j, |all|, |fns|);
    MethodSectionPrepend(MethodHeader(j), hs, m, fns, how, e, bs);
    JoinedCons(e, bs);
  }

  lemma MethodSlotsCons(i: nat, n: nat, n1: nat)
    ensures n == n1 + 1 ==> MethodSlots(i, n) == [MethodHeader(i)] + MethodSlots(i + 1, n1)
  {
  }

  lemma MethodSectionPrepend(h: Line, hs: seq<Line>, m: Method, fns: seq<Method>, how: TagReading, e: seq<Line>, bs: seq<seq<Line>>)
    ensures MethodEntryShows(h, m, how, e) && MethodSectionShows(hs, fns, how, bs)
            ==> MethodSectionShows([h] + hs, [m] + fns, how, [e] + bs)
  {
    assert ([h] + hs)[0] == h && ([h] + hs)[1..] == hs;
    assert ([m] + fns)[0] == m && ([m] + fns)[1..] == fns;
    assert ([e] + bs)[0] == e && ([e] + bs)[1..] == bs;
  }

  lemma ShowsUnderHeader(h: Line, h': Line, m: Method, m': Method, how: TagReading, e: seq<Line>, e': seq<Line>)
    ensures MethodEntryShows(h, m, how, e) && h == h' && m == m' && e == e' ==> MethodEntryShows(h', m', how, e')
  {
  }

  lemma MethodSectionHead(hs: seq<Line>, fns: seq<Method>, how: TagReading, bs: seq<seq<Line>>)
    ensures MethodSectionShows(hs, fns, how, bs) && 0 < |fns|
            ==> |bs| == |fns| == |hs| && MethodEntryShows(hs[0], fns[0], how, bs[0])
  {
  }

  lemma MethodSectionTail(hs: seq<Line>, fns: seq<Method>, how: TagReading, bs: seq<seq<Line>>)
    ensures MethodSectionShows(hs, fns, how, bs) && 0 < |fns|
            ==> MethodSectionShows(hs[1..], fns[1..], how, bs[1..])
  {
  }

  lemma {:induction false} MethodShowsAt(hs: seq<Line>, fns: seq<Method>, how: TagReading, bs: seq<seq<Line>>, k: nat)
    ensures MethodSectionShows(hs, fns, how, bs) && k < |fns|
            ==> |bs| == |fns| == |hs| && MethodEntryShows(hs[k], fns[k], how, bs[k])
    decreases k
  {
    MethodSectionHead(hs, fns, how, bs);
    if 0 < k < |fns| && |bs| == |fns| && |hs| == |fns| {
      MethodSectionTail(hs, fns, how, bs);
      MethodShowsAt(hs[1..], fns[1..], how, bs[1..], k - 1);
      ShowsUnderHeader(hs[1..][k - 1], hs[k], fns[1..][k - 1], fns[k], how, bs[1..][k - 1], bs[k]);
    }
  }

  /** The `k`-th slot line is `method_<i+k>$`. */
  lemma {:induction false} MethodSlotAt(i: nat, n: nat, k: nat, number: nat)
    requires k < n && number == i + k
    ensures MethodSlots(i, n)[k] == MethodHeader(number)
    decreases k
  {
    if k > 0 {
      MethodSlotAt(i + 1, n - 1, k - 1, number);
    }
  }

  /** The slot lines count on from `method_<i>$`. */
  lemma MethodSlotsNumbered(i: nat, n: nat)
    ensures forall k :: 0 <= k < n ==> MethodSlots(i, n)[k] == MethodHeader(i + k)
  {
    forall k | 0 <= k < n
      ensures MethodSlots(i, n)[k] == MethodHeader(i + k)
    {
      MethodSlotAt(i, n, k, i + k);
    }
  }

  /** `lines` split into the entries `bs`, one per function of `fns` and in
      order, the `k`-th under the `k`-th slot line counted on from
      `method_<i+1>$`. */
  predicate MethodEntriesShown(lines: seq<Line>, i: nat, fns: seq<Method>, how: TagReading, bs: seq<seq<Line>>) {
    && lines == Joined(bs) && EntryBlocks(bs, 1) && |bs| == |fns|
    && forall k :: 0 <= k < |bs| ==> MethodEntryShows(MethodSlots(i + 1, |fns|)[k], fns[k], how, bs[k])
  }

  lemma ShownMethodIsEntry(h: Line, m: Method, how: TagReading, e: seq<Line>)
    ensures MethodEntryShows(h, m, how, e) && h.depth == 1
            ==> |e| > 0 && e[0].depth == 1 && AtLeast(e[1..], 2)
  {
  }

  lemma SlotLinesAtDepthOne(i: nat, n: nat, k: nat)
    requires k < n
    ensures MethodSlots(i, n)[k].depth == 1
  {
    MethodSlotAt(i, n, k, i + k);
  }

  /** The `k`-th entry of a section is an entry under its slot line. */
  lemma MethodEntryAt(hs: seq<Line>, fns: seq<Method>, how: TagReading, bs: seq<seq<Line>>, k: nat)
    ensures MethodSectionShows(hs, fns, how, bs) && k < |fns| && hs[k].depth == 1
            ==> && |bs| == |fns| && MethodEntryShows(hs[k], fns[k], how, bs[k])
                && |bs[k]| > 0 && bs[k][0].depth == 1 && AtLeast(bs[k][1..], 2)
  {
    MethodShowsAt(hs, fns, how, bs, k);
    if MethodSectionShows(hs, fns, how, bs) && k < |fns| {
      ShownMethodIsEntry(hs[k], fns[k], how, bs[k]);
    }
  }

  lemma MethodSectionShown(lines: seq<Line>, i: nat, fns: seq<Method>, how: TagReading, bs: seq<seq<Line>>)
    requires MethodSection(lines, i, fns, how, bs)
    ensures MethodEntriesShown(lines, i, fns, how, bs)
  {
    var hs := MethodSlots(i + 1, |fns|);
    forall k | 0 <= k < |bs|
      ensures && MethodEntryShows(hs[k], fns[k], how, bs[k])
              && |bs[k]| > 0 && bs[k][0].depth == 1 && AtLeast(bs[k][1..], 2)
    {
      SlotLinesAtDepthOne(i + 1, |fns|, k);
      MethodEntryAt(hs, fns, how, bs, k);
    }
    assert EntryBlocks(bs, 1);
  }

  /** The method section splits into one entry per `FUNCTION_DECL` of the
      chain, in order: the `k`-th entry sits under the `k`-th slot line,
      `method_<i+1+k>$` by `MethodSlotsNumbered`, names
      the `k`-th function and its assembler name, has the line of each
      method predicate exactly when the function has it, and ends with the
      tags of the function's type. */
  lemma MethodEntriesInOrder(es: seq<MethodEntry>, i: nat, how: TagReading)
    ensures exists bs :: MethodEntriesShown(EmitMethods(es, i, how).lines, i, FunctionList(es), how, bs)
  {
    MethodsAsEntries(es, i, how);
    var bs: seq<seq<Line>> :| MethodSection(EmitMethods(es, i, how).lines, i, FunctionList(es), how, bs);
    MethodSectionShown(EmitMethods(es, i, how).lines, i, FunctionList(es), how, bs);
  }

  // ---------------------------------------------------------------------
  // The whole record.

  /** `_finish_type` dumps the type: a record, tagged with the plugin's
      attribute, and complete. */
  predicate Selected(t: GccType) {
    t.code == RecordType && HasAttribute(t.attrs, TagAttrName) && t.complete
  }

  /** The struct header line `<name>: &<id> !compex/struct`. */
  function Anchor(name: string, id: string): Line {
    Line(0, name + ": &" + id + " !compex/struct")
  }

  /** The record's own lines before its tags. */
  function RecordHeader(t: GccType, id: string): (r: seq<Line>)
    ensures |r| == 5 && r[0] == Anchor(t.name, id)
    ensures forall j :: 1 <= j < 5 ==> r[j].depth == 1 && |r[j].text| > 0 && r[j].text[0] == '$'
    ensures t.size.None? ==> r[3] == Line(1, "$sizeof: 4294967295")
    ensures r[1] == Line(1, "$srcFile: " + t.srcFile)
    ensures r[2] == Line(1, "$srcLine: " + NatToDecimal(t.srcLine))
    ensures t.size.Some? ==> r[3] == Line(1, "$sizeof: " + NatToDecimal(t.size.value % U32))
    ensures t.size.Some? && 0 <= t.size.value < U32 ==> r[3] == Line(1, "$sizeof: " + NatToDecimal(t.size.value))
    ensures r[4] == Line(1, "$alignof: " + NatToDecimal(t.align))
  {
    UnsignedMinusOne();
    assert "$sizeof: " + "4294967295" == "$sizeof: 4294967295";
    [ Anchor(t.name, id),
      Line(1, "$srcFile: " + t.srcFile),
      Line(1, "$srcLine: " + NatToDecimal(t.srcLine)),
      Line(1, "$sizeof: " + UnsignedText(OrSentinel(t.size))),
      Line(1, "$alignof: " + NatToDecimal(t.align)) ]
  }

  /** The text after `<key>` on a line at depth `d`. */
  function ReadText(d: nat, key: string, l: Line): Option<string> {
    if l.depth == d && |key| <= |l.text| && l.text[..|key|] == key then Some(l.text[|key|..]) else None
  }

  /** A reader recovers the source position, the size (cut to 32 bits, or
      the sentinel 4294967295) and the alignment from the header. */
  lemma HeaderReadBack(t: GccType, id: string)
    ensures var r := RecordHeader(t, id);
            && ReadText(1, "$srcFile: ", r[1]) == Some(t.srcFile)
            && ReadValue(1, "$srcLine: ", r[2]) == Some(t.srcLine)
            && ReadValue(1, "$sizeof: ", r[3]) == Some(if t.size.Some? then t.size.value % U32 else U32 - 1)
            && ReadValue(1, "$alignof: ", r[4]) == Some(t.align)
  {
    var r := RecordHeader(t, id);
    var size: nat := if t.size.Some? then t.size.value % U32 else U32 - 1;
    assert r[3] == Line(1, "$sizeof: " + NatToDecimal(size)) by {
      assert (-1) % U32 == U32 - 1;
    }
    assert r[1].text[..|"$srcFile: "|] == "$srcFile: " && r[1].text[|"$srcFile: "|..] == t.srcFile;
    ReadsNatural(1, "$srcLine: ", t.srcLine);
    ReadsNatural(1, "$sizeof: ", size);
    ReadsNatural(1, "$alignof: ", t.align);
  }

  /** How `_finish_type` composes the struct record of `t` from the state
      `st`: the header under the record's own anchor, then the record's tags,
      its bases (after the anchor is defined), its fields and its methods, in
      that order; the notes of the tags, fields and methods in the same
      order; and the state the field walk leaves. */
  predicate RecordLayout(st: GccState, t: GccType, how: TagReading, r: Section) {
    var defined := MangleDef(st, RefOf(t)).st;
    var tags := DumpTags(t.attrs, 1, how);
    var bases := EmitBases(defined, t.hasAccessVector, t.bases, 0);
    var fields := EmitFields(bases.st, t.fields, how);
    var methods := EmitMethods(t.methods, 0, how);
    && r.lines == RecordHeader(t, RecordName(t.name)) + (tags.lines + bases.lines + fields.lines + methods.lines)
    && r.log == tags.log + fields.log + methods.log
    && r.st == fields.st
  }

  /** The struct record of a selected type: header, tags, bases, fields and
      methods, in that order. */
  method EmitRecord(st: GccState, t: GccType, how: TagReading) returns (r: Section)
    requires t.code == RecordType
    ensures RecordLayout(st, t, how, r)
    ensures |r.lines| >= 5 && r.lines[..5] == RecordHeader(t, RecordName(t.name))
    ensures r.lines[0] == Anchor(t.name, RecordName(t.name))
    ensures t.size.None? ==> r.lines[3] == Line(1, "$sizeof: 4294967295")
    ensures r.st.defined == st.defined + {RecordName(t.name)}
    ensures RefsDefined(r.lines, r.st.defined)
    ensures AtDepth(r.lines, 0) == [r.lines[0]]
  {
    var d := MangleDef(st, RefOf(t));
    var header := RecordHeader(t, d.name);
    var tags := DumpTags(t.attrs, 1, how);
    var bases := EmitBases(d.st, t.hasAccessVector, t.bases, 0);
    var fields := EmitFields(bases.st, t.fields, how);
    var methods := EmitMethods(t.methods, 0, how);
    RecordFacts(header, tags.lines, bases.lines, fields.lines, methods.lines, d.st.defined);
    r := Section(fields.st, header + (tags.lines + bases.lines + fields.lines + methods.lines),
                 tags.log + fields.log + methods.log);
  }

  lemma RecordFacts(header: seq<Line>, tags: seq<Line>, bases: seq<Line>, fields: seq<Line>, methods: seq<Line>,
                    defined: set<string>)
    requires |header| == 5 && header[0].depth == 0
    requires forall j :: 1 <= j < 5 ==> header[j].depth == 1 && |header[j].text| > 0 && header[j].text[0] == '$'
    requires forall l :: l in tags ==> 1 <= l.depth <= 3
    requires forall l :: l in tags && l.depth == 1 ==> l.text == "tags:"
    requires forall l :: l in tags && l.depth == 2 ==> l.text == "-"
    requires AtLeast(bases, 1) && RefsDefined(bases, defined)
    requires AtLeast(fields, 1) && NoRefs(fields)
    requires AtLeast(methods, 1) && NoRefs(methods)
    ensures RefsDefined(header + (tags + bases + fields + methods), defined)
    ensures AtDepth(header + (tags + bases + fields + methods), 0) == [header[0]]
  {
    var body := tags + bases + fields + methods;
    HeaderNoRefs(header);
    TagLinesNoRefs(tags, 1);
    RefsDefinedConcat(tags, bases, defined);
    RefsDefinedConcat(tags + bases, fields, defined);
    RefsDefinedConcat(tags + bases + fields, methods, defined);
    RefsDefinedConcat(header, body, defined);
    BodyDepth(tags, bases, fields, methods);
    AtLeastNone(body, 0);
    AtLeastNone(header[1..], 0);
    assert header == [header[0]] + header[1..];
    AtDepthConcat([header[0]], header[1..], 0);
    AtDepthConcat(header, body, 0);
  }

  lemma HeaderNoRefs(header: seq<Line>)
    requires |header| == 5 && header[0].depth == 0
    requires forall j :: 1 <= j < 5 ==> header[j].depth == 1
    ensures NoRefs(header)
  {
  }

  lemma BodyDepth(tags: seq<Line>, bases: seq<Line>, fields: seq<Line>, methods: seq<Line>)
    requires forall l :: l in tags ==> 1 <= l.depth
    requires AtLeast(bases, 1) && AtLeast(fields, 1) && AtLeast(methods, 1)
    ensures AtLeast(tags + bases + fields + methods, 1)
  {
    assert AtLeast(tags, 1) by {
      forall j | 0 <= j < |tags|
        ensures tags[j].depth >= 1
      {
        assert tags[j] in tags;
      }
    }
    AtLeastConcat(tags, bases, 1);
    AtLeastConcat(tags + bases, fields, 1);
    AtLeastConcat(tags + bases + fields, methods, 1);
  }

  /** `_finish_type`: anything but a tagged record is ignored; a tagged but
      incomplete record is reported and ignored; the anchor of a dumped
      record is defined from then on. Finishing the same type twice writes
      the same anchor twice: anchors are not deduplicated. */
  method FinishType(st: GccState, t: GccType, how: TagReading) returns (r: Section)
    ensures !Selected(t) ==> r.st == st && r.lines == []
    ensures !Selected(t) ==> (r.log == [IncompleteType] <==> t.code == RecordType && HasAttribute(t.attrs, TagAttrName))
    ensures !Selected(t) && r.log != [] ==> r.log == [IncompleteType]
    ensures Selected(t) ==> RecordLayout(st, t, how, r)
    ensures Selected(t) ==> |r.lines| >= 5 && r.lines[..5] == RecordHeader(t, RecordName(t.name))
    ensures Selected(t) ==> r.lines[0] == Anchor(t.name, RecordName(t.name))
    ensures Selected(t) ==> AtDepth(r.lines, 0) == [r.lines[0]]
    ensures Selected(t) && t.size.None? ==> r.lines[3] == Line(1, "$sizeof: 4294967295")
    ensures r.st.defined == st.defined + (if Selected(t) then {RecordName(t.name)} else {})
    ensures RefsDefined(r.lines, r.st.defined)
  {
    if t.code != RecordType {
      r := Section(st, [], []);
    } else if !HasAttribute(t.attrs, TagAttrName) {
      r := Section(st, [], []);
    } else if !t.complete {
      r := Section(st, [], [IncompleteType]);
    } else {
      r := EmitRecord(st, t, how);
    }
  }

  // ---------------------------------------------------------------------
  // A run of finished types.

  datatype Run = Run(st: GccState, outputs: seq<seq<Line>>, log: seq<Diagnostic>)

  /** Identity `id` was defined before the run, or is the anchor of a
      selected type among the first `n` types of the run. */
  ghost predicate DefinedBy(st: GccState, ts: seq<GccType>, n: nat, id: string)
    requires n <= |ts|
  {
    id in st.defined || exists k :: 0 <= k < n && Selected(ts[k]) && id == RecordName(ts[k].name)
  }

  /** The `PLUGIN_FINISH_TYPE` callbacks of one compilation, in order; one
      output block per callback. Define before reference: a `ref: *<id>`
      written while finishing the i-th type names an identity defined before
      the run or anchored by a selected type at or before position i. */
  method FinishAll(st: GccState, ts: seq<GccType>, how: TagReading) returns (r: Run)
    ensures |r.outputs| == |ts|
    ensures forall i, j :: 0 <= i < |ts| && 0 <= j < |r.outputs[i]| && IsRefLine(r.outputs[i][j]) ==>
              DefinedBy(st, ts, i + 1, r.outputs[i][j].text[6..])
    ensures forall id :: id in r.st.defined <==> DefinedBy(st, ts, |ts|, id)
  {
    r := Run(st, [], []);
    var i := 0;
    while i < |ts|
      invariant i <= |ts| && |r.outputs| == i
      invariant forall id :: id in r.st.defined <==> DefinedBy(st, ts, i, id)
      invariant forall p, j :: 0 <= p < i && 0 <= j < |r.outputs[p]| && IsRefLine(r.outputs[p][j]) ==>
                  DefinedBy(st, ts, p + 1, r.outputs[p][j].text[6..])
    {
      var f := FinishType(r.st, ts[i], how);
      forall id | id in f.st.defined
        ensures DefinedBy(st, ts, i + 1, id)
      {
        if id in r.st.defined {
          assert DefinedBy(st, ts, i, id);
        }
      }
      forall id | DefinedBy(st, ts, i + 1, id)
        ensures id in f.st.defined
      {
        if !DefinedBy(st, ts, i, id) {
          var k :| 0 <= k < i + 1 && Selected(ts[k]) && id == RecordName(ts[k].name);
          assert k == i;
        }
      }
      var outputs := r.outputs + [f.lines];
      forall p, j | 0 <= p < i + 1 && 0 <= j < |outputs[p]| && IsRefLine(outputs[p][j])
        ensures DefinedBy(st, ts, p + 1, outputs[p][j].text[6..])
      {
        if p < i {
          assert outputs[p] == r.outputs[p];
        } else {
          assert outputs[p] == f.lines;
          assert outputs[p][j].text[6..] in f.st.defined;
        }
      }
      r := Run(f.st, outputs, r.log + f.log);
      i := i + 1;
    }
  }
}

=== FILE: gcc_names.dfy ===
/** The identity registry of the GCC plugin: `_mangle_typename`, the set
    `_mangled_names`, and `_mangle_typename_def` / `_mangle_typename_ref`. */
module GccNames {
  import opened Common
  import opened Decimal
  import opened GccTree

  /** The plugin's global state: the names defined so far, the anonymous
      field counter `_counter` and the unknown-type counter `unk_i`. */
  datatype GccState = GccState(defined: set<string>, counter: nat, unk: nat)

  const Initial: GccState := GccState({}, 0, 0)

  function RecordName(name: string): string {
    "s_" + name
  }

  function UnknownName(k: nat): string {
    "unknown_" + NatToDecimal(k)
  }

  datatype Mangled = Mangled(st: GccState, name: string)

  /** `_mangle_typename`: a record is named after its declaration; any other
      type gets the next `unknown_<n>`. */
  function Mangle(st: GccState, t: TypeRef): (r: Mangled)
    ensures r.st.defined == st.defined && r.st.counter == st.counter
    ensures t.code == RecordType ==> r.st == st && r.name == RecordName(t.name)
    ensures t.code != RecordType ==> r.st.unk == Next32(st.unk) && r.name == UnknownName(Next32(st.unk))
  {
    if t.code == RecordType then Mangled(st, RecordName(t.name))
    else
      var k := Next32(st.unk);
      Mangled(st.(unk := k), UnknownName(k))
  }

  /** `_mangle_typename_def`: mangle and remember the name as defined. */
  function MangleDef(st: GccState, t: TypeRef): (r: Mangled)
    ensures r.name in r.st.defined
    ensures r.st.defined == st.defined + {r.name}
    ensures r.st.counter == st.counter
    ensures t.code == RecordType ==> r.name == RecordName(t.name) && r.st.unk == st.unk
  {
    var m := Mangle(st, t);
    Mangled(m.st.(defined := m.st.defined + {m.name}), m.name)
  }

  datatype Lookup = Lookup(st: GccState, ref: Option<string>)

  /** `_mangle_typename_ref`: the mangled name if it is already defined,
      `NULL` otherwise. */
  function MangleRef(st: GccState, t: TypeRef): (r: Lookup)
    ensures r.st.defined == st.defined && r.st.counter == st.counter
    ensures r.ref.Some? ==> r.ref.value in st.defined
    ensures t.code == RecordType ==> r.st == st
    ensures t.code == RecordType ==> (r.ref.Some? <==> RecordName(t.name) in st.defined)
    ensures t.code == RecordType && r.ref.Some? ==> r.ref.value == RecordName(t.name)
  {
    var m := Mangle(st, t);
    Lookup(m.st, if m.name in st.defined then Some(m.name) else None)
  }

  // ---------------------------------------------------------------------
  // Names are collision-free.

  lemma UnknownNamesDistinct(a: nat, b: nat)
    ensures UnknownName(a) == UnknownName(b) <==> a == b
  {
    if UnknownName(a) == UnknownName(b) {
      assert NatToDecimal(a) == UnknownName(a)[8..];
      assert NatToDecimal(b) == UnknownName(b)[8..];
      NatToDecimalInjective(a, b);
    }
  }

  /** A record's name can never be taken for a generated one. */
  lemma RecordNameNotUnknown(name: string, k: nat)
    ensures RecordName(name) != UnknownName(k)
  {
    assert RecordName(name)[0] == 's';
    assert UnknownName(k)[0] == 'u';
  }

  /** The names `_mangle_typename` returns for a run of types, in order. */
  function MangleAll(st: GccState, ts: seq<TypeRef>): (names: seq<string>)
    ensures |names| == |ts|
    decreases |ts|
  {
    if |ts| == 0 then []
    else
      var m := Mangle(st, ts[0]);
      [m.name] + MangleAll(m.st, ts[1..])
  }

  /** How many of `ts` are not records. */
  function CountOther(ts: seq<TypeRef>): (n: nat)
    ensures n <= |ts|
  {
    if |ts| == 0 then 0 else (if ts[0].code == RecordType then 0 else 1) + CountOther(ts[1..])
  }

  /** Without wrap-around, the i-th type of a run, when it is not a record,
      is named after the number of non-record types up to and including it. */
  lemma {:induction false} MangleAllNumbering(st: GccState, ts: seq<TypeRef>, i: nat)
    requires i < |ts| && ts[i].code != RecordType
    requires st.unk + |ts| < U32
    ensures MangleAll(st, ts)[i] == UnknownName(st.unk + CountOther(ts[..i]) + 1)
    decreases i
  {
    var m := Mangle(st, ts[0]);
    var n := st.unk + CountOther(ts[..i]) + 1;
    if i == 0 {
      assert ts[..0] == [] && CountOther(ts[..0]) == 0;
      assert MangleAll(st, ts)[0] == m.name == UnknownName(n);
    } else {
      var one := if ts[0].code == RecordType then 0 else 1;
      assert m.st.unk == st.unk + one;
      assert MangleAll(st, ts)[i] == MangleAll(m.st, ts[1..])[i - 1];
      MangleAllNumbering(m.st, ts[1..], i - 1);
      assert ts[1..][..i - 1] == ts[..i][1..];
      assert ts[..i][0] == ts[0];
      assert CountOther(ts[..i]) == one + CountOther(ts[1..][..i - 1]);
      assert n == m.st.unk + CountOther(ts[1..][..i - 1]) + 1;
      assert MangleAll(st, ts)[i] == UnknownName(n);
    }
  }

  lemma {:induction false} CountOtherPrefix(ts: seq<TypeRef>, i: nat, j: nat)
    requires i < j <= |ts| && ts[i].code != RecordType
    ensures CountOther(ts[..i]) < CountOther(ts[..j])
  {
    if i == 0 {
      assert ts[..j][0] == ts[0];
    } else {
      assert ts[..i][0] == ts[..j][0] == ts[0];
      assert ts[..i][1..] == ts[1..][..i - 1];
      assert ts[..j][1..] == ts[1..][..j - 1];
      CountOtherPrefix(ts[1..], i - 1, j - 1);
    }
  }

  /** No two non-record types of a run get the same generated name, as long
      as `unk_i` does not wrap around. */
  lemma UnknownNamesUnique(st: GccState, ts: seq<TypeRef>, i: nat, j: nat)
    requires i < j < |ts| && ts[i].code != RecordType && ts[j].code != RecordType
    requires st.unk + |ts| < U32
    ensures MangleAll(st, ts)[i] != MangleAll(st, ts)[j]
  {
    var a := st.unk + CountOther(ts[..i]) + 1;
    var b := st.unk + CountOther(ts[..j]) + 1;
    var names := MangleAll(st, ts);
    CountOtherPrefix(ts, i, j);
    assert a < b;
    MangleAllNumbering(st, ts, i);
    assert names[i] == UnknownName(a);
    MangleAllNumbering(st, ts, j);
    assert names[j] == UnknownName(b);
    NamedApart(names[i], names[j], a, b);
  }

  lemma NamedApart(x: string, y: string, a: nat, b: nat)
    requires x == UnknownName(a) && y == UnknownName(b) && a < b
    ensures x != y
  {
    UnknownNamesDistinct(a, b);
  }

  // ---------------------------------------------------------------------
  // The registry.

  /** Every generated name in the registry was handed out already: its
      number is at most `unk_i`. */
  ghost predicate Valid(st: GccState) {
    forall k: nat :: UnknownName(k) in st.defined ==> k <= st.unk
  }

  /** After `_mangle_typename_def` of a record, `_mangle_typename_ref` of the
      same record returns the defined name. */
  lemma RefAfterDef(st: GccState, t: TypeRef)
    requires t.code == RecordType
    ensures var d := MangleDef(st, t);
            MangleRef(d.st, t).ref == Some(d.name)
  {
  }

  /** Before any definition, `_mangle_typename_ref` returns `NULL`. */
  lemma RefBeforeAnyDef(t: TypeRef)
    ensures MangleRef(Initial, t).ref == None
  {
  }

  /** Defining a record a second time leaves the registry unchanged. */
  lemma DefIdempotent(st: GccState, t: TypeRef)
    requires t.code == RecordType
    ensures var d := MangleDef(st, t);
            MangleDef(d.st, t) == d
  {
  }

  /** A reference to a non-record type never resolves: its name is fresh. */
  lemma RefOnOtherIsNull(st: GccState, t: TypeRef)
    requires Valid(st) && t.code != RecordType && st.unk + 1 < U32
    ensures MangleRef(st, t).ref == None
  {
    assert Next32(st.unk) == st.unk + 1;
  }

  lemma DefKeepsValid(st: GccState, t: TypeRef)
    requires Valid(st) && st.unk + 1 < U32
    ensures Valid(MangleDef(st, t).st)
  {
    var d := MangleDef(st, t);
    forall k: nat | UnknownName(k) in d.st.defined
      ensures k <= d.st.unk
    {
      if t.code == RecordType {
        RecordNameNotUnknown(t.name, k);
      } else if UnknownName(k) == d.name {
        UnknownNamesDistinct(k, st.unk + 1);
      }
    }
  }

  lemma RefKeepsValid(st: GccState, t: TypeRef)
    requires Valid(st) && st.unk + 1 < U32
    ensures Valid(MangleRef(st, t).st)
  {
  }
}

=== FILE: gcc_tags.dfy ===
/** `_dump_tags` of the GCC plugin: a node's tag instances (one argument
    list per attribute attachment) written as a YAML list of lists. */
module GccTags {
  import opened Common
  import opened Decimal
  import opened GccTree

  /** How an `INTEGER_CST` that fits a host-wide integer reaches the text:
      through the 32-bit `int iv` of the source, or at its full width. */
  datatype IntPrint = Truncated32 | FullWidth

  /** `tree_fits_shwi_p`: the constant fits a signed 64-bit integer. */
  predicate FitsHwi(v: int) {
    -0x8000_0000_0000_0000 <= v < 0x8000_0000_0000_0000
  }

  /** Strings and integers that fit are printed; every other argument is dropped. */
  predicate Printable(a: TagArg) {
    a.StringCst? || (a.IntegerCst? && FitsHwi(a.v))
  }

  /** The text printed for an argument, or `None` when it is dropped. */
  function ArgText(a: TagArg, p: IntPrint): (r: Option<string>)
    ensures r.Some? <==> Printable(a)
    ensures a.StringCst? ==> r == Some(a.s)
  {
    match a
    case StringCst(s) => Some(s)
    case IntegerCst(v) =>
      if !FitsHwi(v) then None
      else if p == Truncated32 then Some(SignedText(v))
      else Some(IntToDecimal(v))
    case OtherCst(_) => None
  }

  /** The stderr note for a dropped argument. */
  function DropNote(a: TagArg): Diagnostic {
    match a
    case OtherCst(code) => UnknownArgumentCode(code)
    case _ => IntegerDoesNotFit
  }

  datatype TagDump = TagDump(lines: seq<Line>, log: seq<Diagnostic>, outt: bool)

  /** The inner loop over one instance's arguments. `outt` records that the
      `tags:` header is written, `out` that this instance's `-` is. */
  function DumpArgs(args: seq<TagArg>, ind: nat, p: IntPrint, outt: bool, out: bool): TagDump
  {
    if |args| == 0 then TagDump([], [], outt)
    else
      var head := (if !outt then [Line(ind, "tags:")] else [])
                  + (if !out then [Line(ind + 1, "-")] else []);
      var text := ArgText(args[0], p);
      var rest := DumpArgs(args[1..], ind, p, true, true);
      if text.Some? then
        TagDump(head + [Line(ind + 2, "- " + text.value)] + rest.lines, rest.log, true)
      else
        TagDump(head + rest.lines, [DropNote(args[0])] + rest.log, true)
  }

  /** The outer loop over the instances, threading `outt`. */
  function DumpInstances(tags: seq<seq<TagArg>>, ind: nat, p: IntPrint, outt: bool): TagDump
  {
    if |tags| == 0 then TagDump([], [], outt)
    else
      var d := DumpArgs(tags[0], ind, p, outt, false);
      var rest := DumpInstances(tags[1..], ind, p, d.outt);
      TagDump(d.lines + rest.lines, d.log + rest.log, rest.outt)
  }

  function DumpTagList(tags: seq<seq<TagArg>>, ind: nat, p: IntPrint): TagDump {
    DumpInstances(tags, ind, p, false)
  }

  // ---------------------------------------------------------------------
  // Which attributes are read.

  /** The argument lists of every attribute named `name`, in attachment order. */
  function TagInstances(attrs: seq<Attribute>, name: string): (r: seq<seq<TagArg>>)
    ensures |r| <= |attrs|
    ensures forall k :: 0 <= k < |r| ==> exists i :: 0 <= i < |attrs| && attrs[i].name == name && attrs[i].args == r[k]
    ensures forall i :: 0 <= i < |attrs| && attrs[i].name == name ==> attrs[i].args in r
    ensures |r| == 0 <==> !HasAttribute(attrs, name)
  {
    if |attrs| == 0 then []
    else
      var rest := TagInstances(attrs[1..], name);
      assert forall i :: 1 <= i < |attrs| ==> attrs[i] == attrs[1..][i - 1];
      if attrs[0].name == name then [attrs[0].args] + rest
      else rest
  }

  /** The instances of two attribute lists attached one after the other are
      those of the first list followed by those of the second: with
      `TagInstancesOne` this fixes every instance and its position. */
  lemma {:induction false} TagInstancesConcat(a: seq<Attribute>, b: seq<Attribute>, name: string)
    ensures TagInstances(a + b, name) == TagInstances(a, name) + TagInstances(b, name)
  {
    if |a| == 0 {
      assert a + b == b;
    } else {
      assert (a + b)[0] == a[0] && (a + b)[1..] == a[1..] + b;
      TagInstancesConcat(a[1..], b, name);
    }
  }

  /** A single attribute yields its argument list when it has the name, and
      nothing otherwise. */
  lemma TagInstancesOne(x: Attribute, name: string)
    ensures TagInstances([x], name) == if x.name == name then [x.args] else []
  {
    assert [x][1..] == [];
  }

  /** The argument lists of every attribute from the first one named `name`
      to the end of the chain, whatever their names. */
  function ChainFromFirst(attrs: seq<Attribute>, name: string): seq<seq<TagArg>> {
    if |attrs| == 0 then []
    else if attrs[0].name == name then seq(|attrs|, i requires 0 <= i < |attrs| => attrs[i].args)
    else ChainFromFirst(attrs[1..], name)
  }

  /** Which `_dump_tags` the emitter calls: the source's (`lookup_attribute`
      of `tag`, then `TREE_CHAIN` to the end of the list, integers through an
      `int`), or the corrected one (the plugin's own attribute only,
      integers at full width). */
  datatype TagReading = AsWritten | Intended

  /** The argument lists the dump walks over. */
  function TagListOf(attrs: seq<Attribute>, how: TagReading): seq<seq<TagArg>> {
    match how
    case AsWritten => ChainFromFirst(attrs, "tag")
    case Intended => TagInstances(attrs, TagAttrName)
  }

  function PrintOf(how: TagReading): IntPrint {
    match how
    case AsWritten => Truncated32
    case Intended => FullWidth
  }

  /** `_dump_tags(arg, ind)` over the attributes of `arg`: the reference tag
      block of the lists it walks, and one note per dropped argument. */
  function DumpTags(attrs: seq<Attribute>, ind: nat, how: TagReading): (r: TagDump)
    ensures r.lines == TagBlock(TagListOf(attrs, how), ind, PrintOf(how))
    ensures r.log == Dropped(Flatten(TagListOf(attrs, how)))
    ensures forall l :: l in r.lines ==> ind <= l.depth <= ind + 2
    ensures forall l :: l in r.lines && l.depth == ind ==> l.text == "tags:"
    ensures forall l :: l in r.lines && l.depth == ind + 1 ==> l.text == "-"
  {
    var tags := TagListOf(attrs, how);
    DumpTagListLayout(tags, ind, PrintOf(how));
    DumpTagList(tags, ind, PrintOf(how))
  }

  // ---------------------------------------------------------------------
  // Reference layout: the document a tag list should produce.

  /** The printed arguments of `args`, one `- <text>` line each at depth `d`. */
  function Printed(args: seq<TagArg>, d: nat, p: IntPrint): (r: seq<Line>)
    ensures forall i :: 0 <= i < |r| ==> r[i].depth == d
  {
    if |args| == 0 then []
    else
      var text := ArgText(args[0], p);
      (if text.Some? then [Line(d, "- " + text.value)] else []) + Printed(args[1..], d, p)
  }

  /** The notes for the dropped arguments of `args`, in order. */
  function Dropped(args: seq<TagArg>): seq<Diagnostic> {
    if |args| == 0 then []
    else (if !Printable(args[0]) then [DropNote(args[0])] else []) + Dropped(args[1..])
  }

  function Flatten(tags: seq<seq<TagArg>>): seq<TagArg> {
    if |tags| == 0 then [] else tags[0] + Flatten(tags[1..])
  }

  /** Number of instances with at least one argument. */
  function NonEmpty(tags: seq<seq<TagArg>>): nat {
    if |tags| == 0 then 0 else (if |tags[0]| > 0 then 1 else 0) + NonEmpty(tags[1..])
  }

  /** Some instance has at least one argument. */
  predicate HasArgs(tags: seq<seq<TagArg>>) {
    NonEmpty(tags) > 0
  }

  /** One `-` entry per non-empty instance, followed by its printed arguments. */
  function Entries(tags: seq<seq<TagArg>>, ind: nat, p: IntPrint): (r: seq<Line>)
    ensures forall i :: 0 <= i < |r| ==> r[i].depth == ind + 1 || r[i].depth == ind + 2
    ensures forall i :: 0 <= i < |r| && r[i].depth == ind + 1 ==> r[i].text == "-"
  {
    if |tags| == 0 then []
    else
      (if |tags[0]| > 0 then [Line(ind + 1, "-")] + Printed(tags[0], ind + 2, p) else [])
      + Entries(tags[1..], ind, p)
  }

  /** The whole tag block: nothing at all unless some instance has an argument. */
  function TagBlock(tags: seq<seq<TagArg>>, ind: nat, p: IntPrint): seq<Line> {
    if HasArgs(tags) then [Line(ind, "tags:")] + Entries(tags, ind, p) else []
  }

  lemma {:induction false} DumpArgsLayout(args: seq<TagArg>, ind: nat, p: IntPrint, outt: bool, out: bool)
    ensures DumpArgs(args, ind, p, outt, out).outt == (outt || |args| > 0)
    ensures DumpArgs(args, ind, p, outt, out).log == Dropped(args)
    ensures DumpArgs(args, ind, p, outt, out).lines ==
      if |args| == 0 then []
      else (if !outt then [Line(ind, "tags:")] else [])
           + (if !out then [Line(ind + 1, "-")] else [])
           + Printed(args, ind + 2, p)
  {
    if |args| > 0 {
      DumpArgsLayout(args[1..], ind, p, true, true);
      var head := (if !outt then [Line(ind, "tags:")] else [])
                  + (if !out then [Line(ind + 1, "-")] else []);
      var rest := Printed(args[1..], ind + 2, p);
      assert DumpArgs(args[1..], ind, p, true, true).lines == rest;
      var text := ArgText(args[0], p);
      if text.Some? {
        var line := Line(ind + 2, "- " + text.value);
        assert Printed(args, ind + 2, p) == [line] + rest;
        ConcatAssoc(head, [line], rest);
      } else {
        assert Printed(args, ind + 2, p) == rest;
      }
    }
  }

  lemma {:induction false} DumpInstancesLayout(tags: seq<seq<TagArg>>, ind: nat, p: IntPrint, outt: bool)
    ensures DumpInstances(tags, ind, p, outt).outt == (outt || HasArgs(tags))
    ensures DumpInstances(tags, ind, p, outt).log == Dropped(Flatten(tags))
    ensures DumpInstances(tags, ind, p, outt).lines ==
      (if !outt && HasArgs(tags) then [Line(ind, "tags:")] else []) + Entries(tags, ind, p)
  {
    if |tags| > 0 {
      var d := DumpArgs(tags[0], ind, p, outt, false);
      DumpArgsLayout(tags[0], ind, p, outt, false);
      var rest := DumpInstances(tags[1..], ind, p, d.outt);
      DumpInstancesLayout(tags[1..], ind, p, d.outt);
      DroppedConcat(tags[0], Flatten(tags[1..]));
      assert DumpInstances(tags, ind, p, outt).lines == d.lines + rest.lines;
      if |tags[0]| > 0 {
        JoinNonEmpty(tags, ind, p, outt, d.lines, rest.lines);
      } else {
        JoinEmpty(tags, ind, p, outt, rest.lines);
      }
    }
  }

  lemma JoinNonEmpty(tags: seq<seq<TagArg>>, ind: nat, p: IntPrint, outt: bool, first: seq<Line>, rest: seq<Line>)
    requires |tags| > 0 && |tags[0]| > 0
    requires first == (if !outt then [Line(ind, "tags:")] else []) + [Line(ind + 1, "-")] + Printed(tags[0], ind + 2, p)
    requires rest == Entries(tags[1..], ind, p)
    ensures first + rest == (if !outt && HasArgs(tags) then [Line(ind, "tags:")] else []) + Entries(tags, ind, p)
  {
    var own := [Line(ind + 1, "-")] + Printed(tags[0], ind + 2, p);
    var hdr: seq<Line> := if !outt then [Line(ind, "tags:")] else [];
    assert HasArgs(tags);
    assert Entries(tags, ind, p) == own + rest;
    ConcatAssoc(hdr, [Line(ind + 1, "-")], Printed(tags[0], ind + 2, p));
    ConcatAssoc(hdr, own, rest);
  }

  lemma JoinEmpty(tags: seq<seq<TagArg>>, ind: nat, p: IntPrint, outt: bool, rest: seq<Line>)
    requires |tags| > 0 && |tags[0]| == 0
    requires rest == (if !outt && HasArgs(tags[1..]) then [Line(ind, "tags:")] else []) + Entries(tags[1..], ind, p)
    ensures rest == (if !outt && HasArgs(tags) then [Line(ind, "tags:")] else []) + Entries(tags, ind, p)
  {
    assert Entries(tags, ind, p) == Entries(tags[1..], ind, p);
  }

  lemma {:induction false} DroppedConcat(a: seq<TagArg>, b: seq<TagArg>)
    ensures Dropped(a + b) == Dropped(a) + Dropped(b)
  {
    if |a| == 0 {
      assert a + b == b;
    } else {
      assert (a + b)[0] == a[0];
      assert (a + b)[1..] == a[1..] + b;
      DroppedConcat(a[1..], b);
    }
  }

  lemma {:induction false} PrintedConcat(a: seq<TagArg>, b: seq<TagArg>, d: nat, p: IntPrint)
    ensures Printed(a + b, d, p) == Printed(a, d, p) + Printed(b, d, p)
  {
    if |a| == 0 {
      assert a + b == b;
    } else {
      assert (a + b)[0] == a[0];
      assert (a + b)[1..] == a[1..] + b;
      PrintedConcat(a[1..], b, d, p);
    }
  }

  /** The walk over the instances produces exactly the reference block, and
      one note per dropped argument. */
  lemma DumpTagListLayout(tags: seq<seq<TagArg>>, ind: nat, p: IntPrint)
    ensures DumpTagList(tags, ind, p).lines == TagBlock(tags, ind, p)
    ensures DumpTagList(tags, ind, p).log == Dropped(Flatten(tags))
  {
    DumpInstancesLayout(tags, ind, p, false);
    if !HasArgs(tags) {
      EntriesWithoutArguments(tags, ind, p);
    }
  }

  lemma {:induction false} EntriesWithoutArguments(tags: seq<seq<TagArg>>, ind: nat, p: IntPrint)
    requires !HasArgs(tags)
    ensures Entries(tags, ind, p) == []
    ensures Flatten(tags) == []
  {
    if |tags| > 0 {
      EntriesWithoutArguments(tags[1..], ind, p);
    }
  }

  /** `tags:` is written at most once, and exactly when some instance has an
      argument; otherwise the node produces no tag output at all. */
  lemma TagHeaderAtMostOnce(tags: seq<seq<TagArg>>, ind: nat, p: IntPrint)
    ensures Count(DumpTagList(tags, ind, p).lines, Line(ind, "tags:")) == (if HasArgs(tags) then 1 else 0)
    ensures DumpTagList(tags, ind, p).lines == [] <==> !HasArgs(tags)
  {
    DumpTagListLayout(tags, ind, p);
    var e := Entries(tags, ind, p);
    assert Line(ind, "tags:") !in e;
    if HasArgs(tags) {
      CountConcat([Line(ind, "tags:")], e, Line(ind, "tags:"));
    }
  }

  lemma {:induction false} EntriesDashCount(tags: seq<seq<TagArg>>, ind: nat, p: IntPrint)
    ensures Count(Entries(tags, ind, p), Line(ind + 1, "-")) == NonEmpty(tags)
  {
    if |tags| > 0 {
      var printed := Printed(tags[0], ind + 2, p);
      assert Line(ind + 1, "-") !in printed;
      EntriesDashCount(tags[1..], ind, p);
      var first := if |tags[0]| > 0 then [Line(ind + 1, "-")] + printed else [];
      CountConcat(first, Entries(tags[1..], ind, p), Line(ind + 1, "-"));
      if |tags[0]| > 0 {
        CountConcat([Line(ind + 1, "-")], printed, Line(ind + 1, "-"));
      }
    }
  }

  /** Every instance with an argument opens exactly one `-` entry (a dropped
      argument still opens it); argument-less instances open none, and
      separate instances are never merged. */
  lemma OneEntryPerInstance(tags: seq<seq<TagArg>>, ind: nat, p: IntPrint)
    ensures Count(DumpTagList(tags, ind, p).lines, Line(ind + 1, "-")) == NonEmpty(tags)
  {
    DumpTagListLayout(tags, ind, p);
    EntriesDashCount(tags, ind, p);
    if HasArgs(tags) {
      CountConcat([Line(ind, "tags:")], Entries(tags, ind, p), Line(ind + 1, "-"));
    }
  }

  lemma {:induction false} EntriesArguments(tags: seq<seq<TagArg>>, ind: nat, p: IntPrint)
    ensures AtDepth(Entries(tags, ind, p), ind + 2) == Printed(Flatten(tags), ind + 2, p)
  {
    if |tags| > 0 {
      EntriesArguments(tags[1..], ind, p);
      PrintedConcat(tags[0], Flatten(tags[1..]), ind + 2, p);
      assert Flatten(tags) == tags[0] + Flatten(tags[1..]);
      if |tags[0]| > 0 {
        var own := [Line(ind + 1, "-")] + Printed(tags[0], ind + 2, p);
        assert Entries(tags, ind, p) == own + Entries(tags[1..], ind, p);
        ArgumentsOfEntry(tags[0], ind, p);
        AtDepthConcat(own, Entries(tags[1..], ind, p), ind + 2);
      } else {
        assert Entries(tags, ind, p) == Entries(tags[1..], ind, p);
        assert Printed(tags[0], ind + 2, p) == [];
      }
    }
  }

  /** One instance's entry contributes exactly its printed arguments at ind+2. */
  lemma ArgumentsOfEntry(args: seq<TagArg>, ind: nat, p: IntPrint)
    ensures AtDepth([Line(ind + 1, "-")] + Printed(args, ind + 2, p), ind + 2) == Printed(args, ind + 2, p)
  {
    var printed := Printed(args, ind + 2, p);
    AtDepthConcat([Line(ind + 1, "-")], printed, ind + 2);
    AtDepthAll(printed, ind + 2);
    assert AtDepth([Line(ind + 1, "-")], ind + 2) == [];
  }

  lemma {:induction false} AtDepthAll(a: seq<Line>, d: nat)
    requires forall i :: 0 <= i < |a| ==> a[i].depth == d
    ensures AtDepth(a, d) == a
  {
    if |a| > 0 {
      assert a[0].depth == d;
      AtDepthAll(a[1..], d);
      assert a == [a[0]] + a[1..];
    }
  }

  /** At depth ind+2 the arguments appear in attachment order: strings and
      fitting integers printed, everything else dropped, each drop noted on
      the side channel. */
  lemma ArgumentsInOrder(tags: seq<seq<TagArg>>, ind: nat, p: IntPrint)
    ensures AtDepth(DumpTagList(tags, ind, p).lines, ind + 2) == Printed(Flatten(tags), ind + 2, p)
    ensures DumpTagList(tags, ind, p).log == Dropped(Flatten(tags))
  {
    DumpTagListLayout(tags, ind, p);
    EntriesArguments(tags, ind, p);
    if HasArgs(tags) {
      AtDepthConcat([Line(ind, "tags:")], Entries(tags, ind, p), ind + 2);
    } else {
      EntriesWithoutArguments(tags, ind, p);
    }
  }

  // ---------------------------------------------------------------------
  // Where the source and the intent part ways.

  /** A `tag("a")` followed by an `aligned(8)`. */
  const ForeignChain: seq<Attribute> := [Attribute("tag", [StringCst("a")]), Attribute("aligned", [IntegerCst(8)])]

  /** The plugin's own attribute, `compex_tag("a")`. */
  const OwnTag: seq<Attribute> := [Attribute(TagAttrName, [StringCst("a")])]

  lemma ForeignChainInstances()
    ensures ChainFromFirst(ForeignChain, "tag") == [[StringCst("a")], [IntegerCst(8)]]
    ensures TagInstances(ForeignChain, "tag") == [[StringCst("a")]]
  {
    assert ForeignChain[1..][1..] == [];
  }

  lemma PrintedSingle(a: TagArg, text: string, p: IntPrint)
    requires ArgText(a, p) == Some(text)
    ensures Printed([a], 3, p) == [Line(3, "- " + text)]
  {
    assert [a][1..] == [];
  }

  lemma EntriesSingle(args: seq<TagArg>, ind: nat, p: IntPrint)
    requires |args| > 0
    ensures Entries([args], ind, p) == [Line(ind + 1, "-")] + Printed(args, ind + 2, p)
  {
    assert [args][1..] == [];
  }

  /** As written, an attribute chained after the first `tag` is dumped as a
      tag even though it is not one (here an `aligned(8)`). */
  lemma ChainWalkDumpsForeignAttribute()
    ensures Line(3, "- 8") in DumpTags(ForeignChain, 1, AsWritten).lines
    ensures TagInstances(ForeignChain, "tag") == [[StringCst("a")]]
  {
    ForeignChainInstances();
    var tags := ChainFromFirst(ForeignChain, "tag");
    DumpTagListLayout(tags, 1, Truncated32);
    assert HasArgs(tags) by { assert |tags[0]| > 0; }
    assert SignedText(8) == "8";
    PrintedSingle(IntegerCst(8), "8", Truncated32);
    assert "- " + "8" == "- 8";
    assert tags[1..] == [[IntegerCst(8)]];
    EntriesSingle([IntegerCst(8)], 1, Truncated32);
    assert Entries(tags[1..], 1, Truncated32) == [Line(2, "-"), Line(3, "- 8")];
  }

  lemma OwnTagInstances()
    ensures HasAttribute(OwnTag, TagAttrName)
    ensures ChainFromFirst(OwnTag, "tag") == []
    ensures TagInstances(OwnTag, TagAttrName) == [[StringCst("a")]]
  {
    assert OwnTag[0].name == TagAttrName;
  }

  /** As written, the plugin's own attribute is never found by the lookup of
      `tag`: a record selected by `compex_tag("a")` shows no tags. */
  lemma TagLookupMissesOwnAttribute()
    ensures HasAttribute(OwnTag, TagAttrName)
    ensures DumpTags(OwnTag, 1, AsWritten).lines == []
  {
    OwnTagInstances();
    DumpTagListLayout([], 1, Truncated32);
  }

  /** The corrected lookup shows the same record's tag. */
  lemma OwnTagDumped()
    ensures DumpTags(OwnTag, 1, Intended).lines == [Line(1, "tags:")] + [Line(2, "-")] + [Line(3, "- a")]
  {
    OwnTagInstances();
    var args := [StringCst("a")];
    DumpTagListLayout([args], 1, FullWidth);
    assert HasArgs([args]) by { assert |[args][0]| > 0; }
    PrintedSingle(StringCst("a"), "a", FullWidth);
    assert "- " + "a" == "- a";
    EntriesSingle(args, 1, FullWidth);
    assert DumpTags(OwnTag, 1, Intended).lines == [Line(1, "tags:")] + ([Line(2, "-")] + [Line(3, "- a")]);
    ConcatAssoc([Line(1, "tags:")], [Line(2, "-")], [Line(3, "- a")]);
  }

  /** With the lookup corrected, a node carrying the plugin's attribute with
      at least one argument always shows a `tags:` block. */
  lemma DumpTagsShowsOwnAttribute(attrs: seq<Attribute>, ind: nat)
    requires exists i :: 0 <= i < |attrs| && attrs[i].name == TagAttrName && |attrs[i].args| > 0
    ensures Line(ind, "tags:") in DumpTags(attrs, ind, Intended).lines
  {
    var tags := TagInstances(attrs, TagAttrName);
    InstancesKeepArguments(attrs, TagAttrName);
    TagHeaderAtMostOnce(tags, ind, FullWidth);
  }

  lemma InstancesKeepArguments(attrs: seq<Attribute>, name: string)
    requires exists i :: 0 <= i < |attrs| && attrs[i].name == name && |attrs[i].args| > 0
    ensures HasArgs(TagInstances(attrs, name))
  {
    var i :| 0 <= i < |attrs| && attrs[i].name == name && |attrs[i].args| > 0;
    NonEmptyMember(TagInstances(attrs, name), attrs[i].args);
  }

  /** A list holding a non-empty instance has a non-empty count. */
  lemma {:induction false} NonEmptyMember(tags: seq<seq<TagArg>>, x: seq<TagArg>)
    requires x in tags && |x| > 0
    ensures NonEmpty(tags) > 0
  {
    if tags[0] != x {
      assert x in tags[1..];
      NonEmptyMember(tags[1..], x);
    }
  }

  /** As written, the value is stored in an `int` before `%d`: 2^32 + 1 prints
      as 1, the same text as the tag argument 1. */
  lemma IntegerArgumentTruncated()
    ensures ArgText(IntegerCst(0x1_0000_0001), Truncated32) == Some("1")
    ensures ArgText(IntegerCst(0x1_0000_0001), Truncated32) == ArgText(IntegerCst(1), Truncated32)
  {
    assert ToInt32(0x1_0000_0001) == 1;
    assert ToInt32(1) == 1;
  }

  /** At full width, distinct integer arguments print distinct texts. */
  lemma FullWidthIntegersDistinct(a: int, b: int)
    requires FitsHwi(a) && FitsHwi(b) && a != b
    ensures ArgText(IntegerCst(a), FullWidth) != ArgText(IntegerCst(b), FullWidth)
  {
    IntToDecimalInjective(a, b);
  }
}

=== FILE: gcc_tree.dfy ===
/** The part of GCC's type tree that `_finish_type` reads, with every
    compiler query (`TYPE_SIZE`, `DECL_FIELD_OFFSET`, the `DECL_*_P`
    predicates, ...) replaced by a field holding its answer. */
module GccTree {
  import opened Common

  /** `TREE_CODE` of a type: only `RECORD_TYPE` is treated specially. */
  datatype TypeCode = RecordType | OtherType(code: string)

  /** One argument of an attribute: `STRING_CST`, `INTEGER_CST` or any
      other tree code. */
  datatype TagArg = StringCst(s: string) | IntegerCst(v: int) | OtherCst(code: string)

  /** One entry of a `TYPE_ATTRIBUTES` chain: its name and its arguments. */
  datatype Attribute = Attribute(name: string, args: seq<TagArg>)

  /** The name under which the plugin registers its attribute; a record is
      dumped only when it carries it. */
  const TagAttrName: string := "compex_tag"

  /** A type as seen through `TREE_CODE` and `DECL_NAME(TYPE_NAME(t))`. */
  datatype TypeRef = TypeRef(code: TypeCode, name: string)

  /** The three access nodes `BINFO_BASE_ACCESS` yields. */
  datatype Access = Public | Protected | Private

  /** A base binfo: its main-variant type, its access entry and
      `BINFO_VIRTUAL_P`. */
  datatype BaseInfo = BaseInfo(ty: TypeRef, access: Access, isVirtual: bool)

  /** A `FIELD_DECL`. `None` for a size or offset means the constant does not
      fit a host integer (or, for offsets, is missing). */
  datatype Field = Field(
    name: Option<string>,
    size: Option<int>,
    align: nat,
    offset: Option<nat>,
    bitOffset: Option<nat>,
    offsetAlign: nat,
    artificial: bool,
    bitfield: bool,
    typeAttrs: seq<Attribute>)

  /** An entry of the `TYPE_FIELDS` chain. */
  datatype Member = FieldDecl(f: Field) | TypeDecl | OtherMember(code: string)

  /** The `DECL_*_P` / `TYPE_NOTHROW_P` predicates reported for a method. */
  datatype MethodFlag =
    | Virtual | Artificial | Const | Static | Constructor | Destructor
    | CopyConstructor | BaseConstructor | CompleteConstructor
    | CompleteDestructor | Operator | CastOperator | Thunk | Nothrow

  /** A `FUNCTION_DECL` of the `TYPE_METHODS` chain. */
  datatype Method = Method(name: string, asmName: string, flags: set<MethodFlag>, typeAttrs: seq<Attribute>)

  /** An entry of the `TYPE_METHODS` chain. */
  datatype MethodEntry = FunctionDecl(m: Method) | OtherMethodEntry(code: string)

  /** The type handed to the `PLUGIN_FINISH_TYPE` callback (its main
      variant). `bases` is empty when the type has no binfo. */
  datatype GccType = GccType(
    code: TypeCode,
    name: string,
    attrs: seq<Attribute>,
    complete: bool,
    srcFile: string,
    srcLine: nat,
    size: Option<int>,
    align: nat,
    hasAccessVector: bool,
    bases: seq<BaseInfo>,
    fields: seq<Member>,
    methods: seq<MethodEntry>)

  function RefOf(t: GccType): TypeRef {
    TypeRef(t.code, t.name)
  }

  /** `lookup_attribute(name, attrs) != NULL`. */
  predicate HasAttribute(attrs: seq<Attribute>, name: string) {
    exists i :: 0 <= i < |attrs| && attrs[i].name == name
  }

  /** A diagnostic written to stderr by `LOGF`, or (for an incomplete type)
      reported through `error`; kept apart from the document. */
  datatype Diagnostic =
    | IntegerDoesNotFit                 // an integer tag argument too wide for a host integer
    | UnknownArgumentCode(code: string) // a tag argument of another tree code
    | UnexpectedMember(code: string)    // a `TYPE_FIELDS` entry that is neither field nor type
    | MethodNotFunction(code: string)   // a `TYPE_METHODS` entry that is not a function
    | IncompleteType                    // a tagged record type that is not complete
}
